=== FILE: README.md ===
# bigitr import core, modelled in Dafny

bigitr keeps Git repositories in step with CVS branches. In the CVS→Git
direction, the `Importer` (gitcvs/cvsimport.py) does three things for each
configured pair of CVS branch and Git branch:

- It exports the CVS branch and collapses the RCS keywords in the exported
  files.
- It replaces the files of the Git branch with the exported ones, adding the
  skeleton files for a branch that is new. It commits and pushes the result
  when it differs, running the pre-import and post-import hooks around that.
- It propagates the branch through the repository's merge graph. Each target
  is checked out, fast-forwarded from `origin/` and merged. A clean merge is
  pushed and propagated further. A conflict is mailed and stops the descent
  below that target.

A pair that raises is reported to the error handler, and the next pair is
still imported.

The project has seven modules:

- `Common`: `Option` and the string prefix and suffix predicates.
- `BigitrConfig` (config.dfy): the `Config` lookups of bigitr/config.py as
  pure functions over an already parsed configuration. This covers `get`
  with environment substitution, the GLOBAL fallbacks, `items`, and the
  `requireAbsolutePaths` validation that the constructor runs.
- `CvsKeywords` (keywords.dfy): the two `sed` substitutions of
  `cleanKeywords`, as pure functions on one line.
- `CvsCheckout` (cvs_checkout.dfy): class `CvsArea`, the CVS working area of
  one branch.
  - Its fields are the files present, the directories that hold a `CVS`
    subdirectory, the process working directory, `CVSROOT`, and a log of
    `cvs` commands.
  - `listContentFiles`, `addDirectories`, `deleteFiles`, `addFiles`, the
    other commands and the `inCVSPATH`/`inCVSDIR` working-directory
    discipline are methods on it.
- `GitArea` (git_area.dfy): class `GitRepo`, the Git clone as the importer
  uses it.
  - Its state is local, remote-tracking and origin branches (each branch tip
    is the tree it records), the checked-out branch, the working tree, and a
    log of Git commands.
  - The invariant `Valid` says that every push in the log directly follows a
    commit of the pushed branch, or a clean merge into it.
- `MergeGraph` (merge_graph.dfy): what the recursive `merge` visits, pushes
  and returns, as ghost functions over a ranked (acyclic) merge graph.
- `CvsImport` (importer.dfy): class `Importer`, with `importBranches`,
  `importcvs` and `merge` as methods over a `GitRepo`. Each method is proved
  against the functions above.

## Model

| member | source | states |
|---|---|---|
| BigitrConfig.RawGet | bigitr/config.py:47 | the parser's lookup succeeds exactly when the section exists (or is DEFAULT) and the section or the defaults layer holds the key; the section's own value wins over the default |
| BigitrConfig.Get | bigitr/config.py:43-49 | `get` succeeds exactly when the raw lookup does and substitution succeeds; the value is the substituted raw value |
| BigitrConfig.GetGlobalFallback | bigitr/config.py:51-60 | the section's value when it has the key, else GLOBAL's, else the default when `error` is false; with `error` true a missing key is the section's own NoSection/NoOption error |
| BigitrConfig.GetDefault | bigitr/config.py:62-65 | the section's substituted value when it has the option, otherwise the default |
| BigitrConfig.GetGlobalDefault | bigitr/config.py:67-68 | a missing key is never an error: only a substitution failure or the empty section name can fail, and with the key absent from both the section and GLOBAL the result is the default |
| BigitrConfig.GetOptional | bigitr/config.py:70-71 | `None` when the option is absent; a value it returns is exactly what `get` returns |
| BigitrConfig.OwnNames | bigitr/config.py:35 | the section's names that are not also in the defaults layer, by membership |
| BigitrConfig.Options | bigitr/config.py:35 | `options(s)` holds exactly the section's names and the defaults layer's names that the section does not override |
| BigitrConfig.ItemNames | bigitr/config.py:77 | the raw `items` names: the defaults layer's names first, then the section's own names that the defaults layer does not hold |
| BigitrConfig.GetAll | bigitr/config.py:78 | succeeds exactly when every lookup succeeds, pairing each name with its `get` value in order; otherwise the error is the first failing lookup's |
| BigitrConfig.Items | bigitr/config.py:73-78 | a missing section is NoSection; for an existing section the result is Ok exactly when `get` succeeds for every raw item, pairing each raw item name, in order, with its `get` value; otherwise the error is the lookup error of one of the items |
| BigitrConfig.CheckOption | bigitr/config.py:37-41 | passes exactly when the option's substituted value exists and starts with `/` |
| BigitrConfig.CheckOptions | bigitr/config.py:35-41 | passes exactly when every subject option of the section is absolute; a failure is the failure of one subject option |
| BigitrConfig.CheckSections | bigitr/config.py:34-41 | passes exactly when every subject option of every listed section is absolute; a failure comes from one of them |
| BigitrConfig.RequireAbsolutePaths | bigitr/config.py:32-41 | passes exactly when every option named explicitly, or ending in `dir`, in every section resolves to an absolute path; otherwise raises one such option's error |
| BigitrConfig.NewConfig | bigitr/config.py:22-28 | a configuration is accepted exactly when every `*dir` option is absolute; a rejection is a non-absolute value or a failed substitution |
| BigitrConfig.RequiredNamesOnlyAdd | bigitr/config.py:32-36 | naming more options to check never accepts a configuration that a check with fewer names rejects, and any passing check implies the constructor accepts |
| BigitrConfig.OnlyDirOptionsChecked | bigitr/config.py:22-36 | for every configuration: when every option ending in lower-case `dir` resolves to an absolute path, the constructor accepts, whatever the other options (those ending in `DIR` included) hold |
| BigitrConfig.UpperCaseDirIsNotChecked | bigitr/config.py:30-36 | option names are case sensitive: a relative value of `gitDIR` is accepted and returned as written |
| BigitrConfig.GetDefaultIgnoresGlobal | bigitr/config.py:62-65 | `getDefault` does not depend on the GLOBAL section at all |
| BigitrConfig.GlobalFallbackUsesGlobal | bigitr/config.py:51-58 | where the section lacks the key and GLOBAL has it, `getGlobalFallback` returns GLOBAL's value while `getDefault` returns the default |
| CvsKeywords.OpeningKeyword | gitcvs/cvs.py:67 | the first keyword of the alternation whose `$K:` opens the string, or none opens it |
| CvsKeywords.ValueEnd | gitcvs/cvs.py:67 | the first character at or after `from` that the bracket expression `[^\$]` rejects, a `$` or a `\`, with every character before it accepted; none when there is no such character |
| CvsKeywords.ExpandedToken | gitcvs/cvs.py:67 | a match of the first rule at the start of the string is a token `$K:value$` of one of the ten keywords, with a value that holds neither `$` nor `\` |
| CvsKeywords.NoTokenNoExpansion | gitcvs/cvs.py:67 | when the first rule does not match at the start, no prefix of the string is an expanded token |
| CvsKeywords.ExpansionGivesToken | gitcvs/cvs.py:67 | a token `$K:value$` at the start of a line, with a value free of `$` and `\`, is always matched by the first rule |
| CvsKeywords.ExpandedTokenOf | gitcvs/cvs.py:67 | such a token is matched with its own keyword and its full length, whatever its value |
| CvsKeywords.OpeningUnique | gitcvs/cvs.py:67 | at most one keyword can open a string with `$K:`, so the alternation's order does not matter |
| CvsKeywords.CollapseKeywords | gitcvs/cvs.py:67 | the first rule never lengthens a line |
| CvsKeywords.CollapseToken | gitcvs/cvs.py:67 | the first rule rewrites `$K:value$`, with a value free of `$` and `\`, to `$K$` and carries on after the token |
| CvsKeywords.CollapseStep | gitcvs/cvs.py:67 | a character other than `$` is copied and the scan continues at the next one |
| CvsKeywords.CollapseAfterPlain | gitcvs/cvs.py:67 | text free of `$` is copied, the token after it becomes `$K$`, and the rule carries on over the rest of the line |
| CvsKeywords.BackslashValueKept | gitcvs/cvs.py:67 | a token whose value holds a `\` is not matched, and no prefix of it is an expansion, so the first rule leaves it as written |
| CvsKeywords.CollapseUnchanged | gitcvs/cvs.py:67 | a line with no expanded token passes the first rule unchanged |
| CvsKeywords.FirstLog | gitcvs/cvs.py:68 | the first `$Log` at or after `from`, or there is none |
| CvsKeywords.LastDollar | gitcvs/cvs.py:68 | the last `$` of the line, or there is none |
| CvsKeywords.CollapseLog | gitcvs/cvs.py:68 | a line without `$Log` passes the second rule unchanged |
| CvsKeywords.LogCollapsed | gitcvs/cvs.py:68 | the greedy span from the first `$Log` to the last `$` becomes `OldLog:` and the rest of the line is kept |
| CvsKeywords.KeywordSpelling | gitcvs/cvs.py:67 | no keyword contains `$` or `:`, and none turns a bare `$K$` into `$Log` |
| CvsKeywords.BareKeywordHasNoLog | gitcvs/cvs.py:68 | a collapsed `$K$` after indentation gives the second rule nothing to match |
| CvsKeywords.CleanLineUnchanged | gitcvs/cvs.py:64-69 | a line with neither an expanded keyword nor `$Log` comes out of `cleanKeywords` unchanged |
| CvsKeywords.CleanExpandedLine | gitcvs/cvs.py:64-69 | an indented expanded keyword, with a value free of `$` and `\`, comes out as the bare `$K$`, whatever value it was expanded to |
| CvsKeywords.CleanIgnoresExpansion | gitcvs/cvs.py:64-69 | two expansions of the same keyword, after the same `$`-free text and before the same rest of the line, clean to the same line; so a re-export whose only change is new keyword values shows no change |
| CvsKeywords.CleanFile | gitcvs/cvs.py:64-69 | every line of a file is cleaned on its own, and the line count is kept |
| CvsKeywords.CleanTree | gitcvs/cvs.py:64-69 | every exported file is cleaned, and the set of paths is unchanged |
| CvsCheckout.Join | gitcvs/cvs.py:56 | joining one component gives that component |
| CvsCheckout.JoinAppend | gitcvs/cvs.py:56 | joining a concatenated path puts one `/` between the two joined parts |
| CvsCheckout.StripCheckoutPrefix | gitcvs/cvs.py:52-56 | cutting `len(path) + 1` characters off a file's full name leaves its name relative to the checkout |
| CvsCheckout.ContentFiles | gitcvs/cvs.py:50-57 | every walked file outside a `CVS` directory is listed, and only such files, by relative name |
| CvsCheckout.CvsArea.ListContentFiles | gitcvs/cvs.py:50-57 | the loop over the walk returns exactly `ContentFiles` of the walked files |
| CvsCheckout.CvsArea.constructor | gitcvs/cvs.py:38-45 | a working area for one branch, with no commands run yet |
| CvsCheckout.CvsArea.Export | gitcvs/cvs.py:59-62 | sets `CVSROOT` to the branch's root and runs `cvs export`; succeeds exactly when the command does; the working directory is unchanged |
| CvsCheckout.CvsArea.Checkout | gitcvs/cvs.py:71-75 | sets `CVSROOT` and runs `cvs checkout` from the checkout's parent directory; the working directory is restored |
| CvsCheckout.CvsArea.Update | gitcvs/cvs.py:77-79 | runs `cvs update` inside the checkout; the working directory is restored |
| CvsCheckout.CvsArea.DeleteFiles | gitcvs/cvs.py:81-86 | an empty list runs nothing; otherwise the files are removed in turn, and a missing one raises before `cvs remove`; on success `cvs remove` runs once for the whole list; the working directory is restored either way |
| CvsCheckout.CvsArea.AddFiles | gitcvs/cvs.py:101-104 | an empty list runs nothing; otherwise one `cvs add` for the whole list |
| CvsCheckout.CvsArea.Commit | gitcvs/cvs.py:106-114 | one `cvs commit` on the branch with the message; the working directory is restored |
| CvsCheckout.CvsArea.AddDirectories | gitcvs/cvs.py:92-99 | every `cvs add` that was run is for a requested directory or one of its ancestors. On success every requested directory and its parent end up versioned, and the commands are one `cvs add` per new directory, parents first, none repeated or already versioned. A failing `cvs add` is the last command of every pass of the recursion and leaves its directory unversioned. The working directory is restored on both paths, as the `inCVSPATH` wrapper (gitcvs/cvs.py:17-25) does |
| CvsCheckout.CvsArea.AddParent | gitcvs/cvs.py:95-97 | the recursive call for an unversioned parent adds only ancestors of the directory and leaves the parent versioned, in parents-first order; or it stops with the failing add last |
| CvsCheckout.CvsArea.AddDirectory | gitcvs/cvs.py:94-99 | one pass of the loop adds only its directory or its ancestors and handles the directory, in parents-first order; or it stops with the failing add last |
| CvsCheckout.AddCommands | gitcvs/cvs.py:99 | one `cvs add` per added directory |
| CvsCheckout.AddCommandsAt | gitcvs/cvs.py:99 | the `i`-th command is `cvs add` of the `i`-th directory alone |
| CvsCheckout.ParentsFirstOrder | gitcvs/cvs.py:92-99 | in a parents-first sequence of adds, each directory is new, not repeated, and its parent is versioned or added earlier |
| CvsCheckout.AddedAreCovered | gitcvs/cvs.py:92-99 | every added directory has its whole chain of previously unversioned ancestors added as well |
| CvsCheckout.RequestedAreCovered | gitcvs/cvs.py:92-99 | a requested directory that ends up handled has its whole chain of unversioned ancestors versioned |
| GitArea.GitRepo.constructor | gitcvs/cvsimport.py:33 | a repository handle with the given state and an empty command log |
| GitArea.GitRepo.Head | gitcvs/cvsimport.py:119 | an unborn checked-out branch records the empty tree |
| GitArea.GitRepo.HasRefs | gitcvs/cvsimport.py:69-70 | `refs()` is non-empty exactly when some local or remote-tracking branch exists |
| GitArea.BranchListing | gitcvs/cvsimport.py:87 | `git branch -a` lists each local branch and each remote-tracking branch under `remotes/origin/`, and nothing else |
| GitArea.GitRepo.Status | gitcvs/cvsimport.py:119 | `status()` reports a change exactly when the working tree differs from the checked-out branch |
| GitArea.GitRepo.Clone | gitcvs/cvsimport.py:67 | the origin's branches become remote-tracking, and `master` is checked out when the origin has it |
| GitArea.GitRepo.Checkout | gitcvs/cvsimport.py:157 | switches to a local branch, or creates it from `origin/b`; raises when neither exists |
| GitArea.GitRepo.CheckoutTracking | gitcvs/cvsimport.py:91 | a new local branch at `origin/b`; raises when there is none |
| GitArea.GitRepo.CheckoutNewImportBranch | gitcvs/cvsimport.py:94 | an unborn orphan branch with an empty working tree |
| GitArea.GitRepo.Fetch | gitcvs/cvsimport.py:99 | the remote-tracking branches catch up with the origin |
| GitArea.GitRepo.MergeFastForward | gitcvs/cvsimport.py:158 | the checked-out branch moves to `origin/b`'s tip; raises when `origin/b` does not exist |
| GitArea.GitRepo.Pristine | gitcvs/cvsimport.py:104 | the working tree is reset to the checked-out branch; no branch changes |
| GitArea.GitRepo.ContentFiles | gitcvs/cvsimport.py:106 | the files the checked-out branch tracks |
| GitArea.GitRepo.RemoveFile | gitcvs/cvsimport.py:107 | one file leaves the working tree |
| GitArea.GitRepo.CopyIn | gitcvs/cvsimport.py:111 | copied files overwrite same-named ones; the other files stay |
| GitArea.GitRepo.AddAll | gitcvs/cvsimport.py:125 | staging changes no branch and no file |
| GitArea.GitRepo.Commit | gitcvs/cvsimport.py:134 | the checked-out branch records the working tree |
| GitArea.GitRepo.Push | gitcvs/cvsimport.py:165 | the origin's branch and its remote-tracking branch take the local tip; a push is only ever issued right after a commit of that branch or a clean merge into it |
| GitArea.GitRepo.RunPreHooks | gitcvs/cvsimport.py:121 | the hooks rewrite the working tree, as `hook` says |
| GitArea.GitRepo.RunPostHooks | gitcvs/cvsimport.py:136 | the hooks change no repository state |
| GitArea.GitRepo.MergeDefault | gitcvs/cvsimport.py:160 | the exit status is the oracle's, or a failure when the source branch was never committed; a clean merge records the merged tree, and a failed one changes nothing |
| GitArea.GitRepo.Mail | gitcvs/cvsimport.py:162 | mailing changes no repository state |
| MergeGraph.Targets | gitcvs/cvsimport.py:155-156 | a branch without a merge-map entry has no targets |
| MergeGraph.Descend | gitcvs/cvsimport.py:160-167 | the propagation descends into exactly the targets whose merge exited 0, and into none when the branch was never committed |
| MergeGraph.Reached | gitcvs/cvsimport.py:155-169 | every target is checked out, and the traversal reaches only branches strictly lower in the graph, never the start |
| MergeGraph.Pushed | gitcvs/cvsimport.py:164-167 | the pushed branches include every clean target and are all reached |
| MergeGraph.PushedAreReached | gitcvs/cvsimport.py:155-169 | every branch the propagation pushes is one it checks out |
| MergeGraph.Edges | gitcvs/cvsimport.py:155-169 | every direct edge is attempted, and every attempted edge leads to a reached branch |
| MergeGraph.MergeOkIsConjunction | gitcvs/cvsimport.py:151-171 | `merge` returns true exactly when the branch has no targets or was committed, and every edge it attempts merges cleanly |
| MergeGraph.ConflictFails | gitcvs/cvsimport.py:161-163 | one conflicting target makes `merge` return false, whatever its siblings do |
| MergeGraph.PushedOnlyThroughCleanMerges | gitcvs/cvsimport.py:164-169 | every pushed branch is the target of a clean merge from the start branch or from another pushed branch |
| CvsImport.SelectCase | gitcvs/cvsimport.py:86-100 | update the local branch exactly when it is listed; track the origin exactly when only `remotes/origin/b` is listed; start an orphan exactly when neither is listed |
| CvsImport.CaseFromRefs | gitcvs/cvsimport.py:87-98 | with ordinary branch names, the three cases are: the branch is local; only `origin/b` exists; neither exists |
| CvsImport.CaseOfListing | gitcvs/cvsimport.py:86-100 | for every repository state, the case read off the refs is the case `SelectCase` picks on the `git branch -a` listing |
| CvsImport.SelectFailsOnlyWithoutOrigin | gitcvs/cvsimport.py:85-100 | with ordinary branch names, branch selection raises exactly for a local branch that has no `origin/` branch, fetched or not |
| CvsImport.BootstrapTree | gitcvs/cvsimport.py:71-80 | the bootstrap commit holds the skeleton, or only a `.gitignore` with the export's `.cvsignore` contents (empty when there is none) |
| CvsImport.ImportTree | gitcvs/cvsimport.py:104-116 | the imported tree's files are exactly the export's, plus the skeleton's for a new branch; skeleton files win over exported ones |
| CvsImport.Recorded | gitcvs/cvsimport.py:119-136 | the branch ends up either unchanged or holding the hooked tree, and unchanged exactly when there is nothing to commit after the hooks |
| CvsImport.ReimportMakesNoCommit | gitcvs/cvsimport.py:119-136 | once an import has left the branch at the origin holding the hooked import of a branch not created with a skeleton, importing the same export again, from any state that still has the branch, commits nothing |
| CvsImport.DeletionByOmission | gitcvs/cvsimport.py:104-116 | a file in neither the export nor the added skeleton is not in the imported tree, so a deletion in CVS is a deletion in Git |
| CvsImport.ImportTreeIgnoresHistory | gitcvs/cvsimport.py:104-111 | without a skeleton, the imported tree is exactly the export, whatever the branch held before |
| CvsImport.ReportsFor | gitcvs/cvsimport.py:36-43 | one error-handler call per pair that raised, each with the repository and the configured disposition; no calls exactly when no pair raised |
| CvsImport.RaisesByEdges | gitcvs/cvsimport.py:155-169 | the propagation raises exactly when one target has no `origin/` branch, or the descent from a clean target raises |
| CvsImport.EdgeRaisesAll | gitcvs/cvsimport.py:157-158 | one raising target makes the whole propagation raise |
| CvsImport.NoEdgeRaises | gitcvs/cvsimport.py:151-171 | when no target raises, the propagation does not raise and returns true exactly when every target merged and descended cleanly |
| CvsImport.ExpectedOutcomeAt | gitcvs/cvsimport.py:36-43 | the `k`-th outcome a run expects is `CvsOutcome` of the `k`-th pair from the `k`-th state |
| CvsImport.ImportedStep | gitcvs/cvsimport.py:38-43 | importing one more pair, with the outcome `importcvs` gives from the current state, extends the summary of the run |
| CvsImport.ImportedPairwise | gitcvs/cvsimport.py:36-43 | the summary of a run gives, pair by pair, the outcome, the state chaining and the `EmptyExport` flags |
| CvsImport.Importer.constructor | gitcvs/cvsimport.py:27-29 | a new importer has reported nothing |
| CvsImport.Importer.Merge | gitcvs/cvsimport.py:151-171 | starts with `pristine`; raises exactly when the traversal reaches a branch without an `origin/` branch; otherwise returns `MergeOk`, and the log holds the merge of the branch into every target with that merge's exit status; every push is of a branch in `Pushed`; branches ranked at or above the start are left alone |
| CvsImport.Importer.MergeTargets | gitcvs/cvsimport.py:155-169 | the loop over the targets raises exactly when one edge raises; otherwise it returns the conjunction over the edges and logs the merge into every target; pushes stay within the branches the propagation may push |
| CvsImport.Importer.MergeInto | gitcvs/cvsimport.py:157-169 | for one target: a conflict runs exactly checkout, fast-forward, the merge and `mailLastOutput` with the merge message, and only fast-forwards the target; a clean merge leaves the target's local, remote-tracking and origin tips all equal to the merge result and is followed by push, post hooks and `pristine` |
| CvsImport.Importer.MergeCheckedOut | gitcvs/cvsimport.py:159-169 | a conflict appends only the merge and its mail and changes no branch; a clean merge is pushed, the post hooks run, and the propagation continues from the target |
| CvsImport.Importer.CheckoutFastForward | gitcvs/cvsimport.py:157-158 | succeeds exactly when `origin/target` exists; then the target is checked out at that tip |
| CvsImport.Importer.MergeOrMail | gitcvs/cvsimport.py:159-163 | the merge is clean exactly when the source branch was committed and its exit status is 0; a conflict is followed by `mailLastOutput` with the merge message and changes no branch |
| CvsImport.Importer.PushAndDescend | gitcvs/cvsimport.py:165-167 | the merged target is pushed, the post hooks run, and the propagation from it raises or returns as `Raises`/`MergeOk` say; every push is the target or one its propagation pushes |
| CvsImport.Importer.Bootstrap | gitcvs/cvsimport.py:65-83 | after cloning an origin with branches, `master` is tracked; after cloning an empty origin, `master` holds the bootstrap tree locally and at the origin, through add, commit and push |
| CvsImport.Importer.CreateMaster | gitcvs/cvsimport.py:71-83 | the bootstrap tree becomes `master` locally, remote-tracking and at the origin |
| CvsImport.Importer.SelectBranch | gitcvs/cvsimport.py:85-100 | the branch case is `SelectCase` of `git branch -a`; the branch is checked out with the tip each case prescribes, or the command raised and no local branch changed; the origin is untouched, and the remote-tracking branches are `FetchedTracking` on both paths: fetched exactly when the local case got past its `checkout`, even if the fast-forward then raised |
| CvsImport.Importer.UpdateLocalBranch | gitcvs/cvsimport.py:96-100 | a local branch succeeds exactly when its `checkout` succeeds and the origin has it; it is then fast-forwarded to the origin's tip; the fetch happens exactly when the `checkout` succeeded (or was skipped), whether or not the fast-forward raises |
| CvsImport.Importer.ReplaceContent | gitcvs/cvsimport.py:102-116 | the working tree becomes exactly `ImportTree` of the export; no branch changes |
| CvsImport.Importer.RemoveContentFiles | gitcvs/cvsimport.py:106-107 | on a pristine tree, removing every tracked file leaves the working tree empty |
| CvsImport.Importer.CommitIfChanged | gitcvs/cvsimport.py:119-136 | commits exactly when `ShouldCommit`, and then pushes the hooked tree and runs the post hooks; the branch ends up `Recorded` |
| CvsImport.Importer.RecordExport | gitcvs/cvsimport.py:102-136 | commits exactly when `ShouldCommit` holds of the imported tree and the branch's old tip; the branch ends up `Recorded`; a commit is pushed and changes the local, remote and remote-tracking tip of `gitbranch` alone, and no commit changes no branch |
| CvsImport.Importer.ImportCvs | gitcvs/cvsimport.py:45-149 | the outcome is exactly `CvsOutcome`: `EmptyExport` for an empty export, which runs no Git command; `GitCommandFailed` when branch selection or the merge propagation raises; `MergeFailed` when `merge` returns false; none otherwise. It commits exactly when `CvsCommits`, and a commit is pushed. The branch ends up `Recorded` of the keyword-cleaned import against the tip selection gives. Every other branch ranked at or above it in the merge graph, or outside it, keeps its local and remote tip from the prepared state and its remote-tracking tip as selection fetched it (`OthersKept`). When selection raises, the local and origin branches are those of the prepared state and the remote-tracking branches are exactly `FetchedTracking`. A bootstrap's four commands come first, and a run that finishes ends with `pristine` |
| CvsImport.Importer.ImportExport | gitcvs/cvsimport.py:65-149 | the repository is cloned afterwards, a bootstrap's four commands come first, and the outcome, commit, branch tip, the other branches' frame and the state a raising selection leaves are those of `ImportBranch` from the bootstrapped state |
| CvsImport.Importer.ImportBranch | gitcvs/cvsimport.py:85-149 | the outcome is `BranchOutcome`: `GitCommandFailed` when selection raises, with the local and origin branches unchanged and the remote-tracking branches as the failed selection left them (`FetchedTracking`: fetched only when the local branch was checked out); otherwise the merge outcome from the branch as committed; it commits exactly when `Commits`, and the branch ends up `Recorded` against the selected tip; on every path, the other branches the merge cannot reach keep their local and remote tips, and their remote-tracking tips are those the selection fetched |
| CvsImport.Importer.ImportSelected | gitcvs/cvsimport.py:102-149 | commits exactly when `ShouldCommit` holds against the branch's old tip; the outcome is `MergeOutcome` of the merge from the branch as committed; the branch ends up `Recorded`; every other branch ranked at or above it, or unranked, keeps its local, remote and remote-tracking tip; a run that finishes ends with `pristine`, and a raising merge propagates without it |
| CvsImport.Importer.ImportPair | gitcvs/cvsimport.py:39-43 | one pair: the outcome is `CvsOutcome` of the repository as the pair finds it, the other branches keep their tips, and a raising selection leaves the state, as `ImportCvs` states, and exactly a raising pair adds one report |
| CvsImport.Importer.ImportBranches | gitcvs/cvsimport.py:36-43 | every pair is imported in order, each from the state the previous one left: the `k`-th outcome is `CvsOutcome` of `states[k]`; `states[k + 1]` is what pair `k` leaves (`PairLeaves`): unchanged after an empty export, otherwise cloned with the branches that pair's merge cannot reach kept, and after a raising selection with every branch as that selection left it; exactly the empty exports raise `EmptyExport`; the error handler receives `ReportsFor` the outcomes |

## Left out

- `Importer.importAll` (gitcvs/cvsimport.py:31-34) only loops over the configured repositories and calls `importBranches`, so it is not modelled.
- Process execution (`shell.run`) is not modelled. Each `cvs` command's exit status is a parameter. The Git commands are modelled from their uses in gitcvs/cvsimport.py, because gitcvs/git.py is not part of this model.
- gitcvs/util.py, `os.walk` and the filesystem are not part of this model either. A tree of files is a map from path to lines. The walk is given as the sequence of relative paths it visits.
- `time.asctime()` is the `timestamp` parameter. The hooks' effect is the `hook` parameter. The merge exit status and the merged tree are the `rc` and `merged` parameters.
- GitArea.GitRepo.RunPreHooks: `hook` is a fixed function of the branch and the tree, so within one run the hooks are deterministic. Hooks that behave differently on a second call are not modelled.
- GitArea.GitRepo.MergeDefault: `rc` is a fixed function of the source and the target branch. A merge of the same pair exits the same way whatever the trees hold.
- GitArea.GitRepo.MergeDefault: a conflicting merge is modelled as leaving the working tree, the index and every branch untouched. `git merge` leaves conflict markers and an unmerged index. gitcvs/cvsimport.py:157 then checks out the next target with nothing cleaned up, so "the siblings are still processed" rests on that `checkout` succeeding, which gitcvs/git.py (not part of this model) decides.
- GitArea.GitRepo.Clone: the origin's HEAD is taken to name `master`. `git clone` checks out whatever branch the origin's HEAD names; the model always makes `master` current, and gives it the origin's `master` tip when the origin has one.
- Git history is not modelled: a branch tip is the tree it records. As a result, a merge is an oracle tree, and a fast-forward is a copy of the `origin/` tip.
- `addAll`'s line-ending normalisation is not modelled; the pre-import hooks can stand for it.
- `infoStatus`, `infoDiff`, logging, `mailLastOutput` and the error handler are recorded in command or report logs and have no other effect.
- CvsImport.Importer.ImportCvs: of Git's failures, only these raise in the model:
  - `checkout` of a branch that exists neither locally nor at `origin/`;
  - `checkoutTracking` or `mergeFastForward` with no `origin/` branch.
- CvsImport.Importer.ImportCvs: the CVS export itself is an input (`exportedFiles`), so a failing `cvs export` is not modelled.
- CvsImport.Importer.ImportBranches: one skeleton and one pre-import hook serve the whole repository, and the exports arrive as inputs in the order of the branch map.
- CvsImport.Importer.ImportBranches: what each pair leaves for the next (`PairLeaves`) fixes the branches that pair's merge cannot reach. The imported branch's own tip, and the branches below it, are stated only per pair by `ImportCvs`.
- CvsImport.Importer.Merge: the frame is stated by rank: branches ranked at or above the start branch, and unranked ones, are unchanged. This is weaker than "only reached branches change".
- CvsImport.Importer.Merge: the merge graph must be acyclic. It carries a rank that strictly decreases along every edge. A cyclic merge map would make `merge` recurse without end.
- ConfigParser's file reading and parsing (`readConfig`, `openConfig`) are not modelled. The parsed sections, option order and defaults layer are the input.
- `string.Template` substitution over `os.environ` is the `expand` parameter.
- gitcvs/cvsimport.py:63 calls `CVS.disableLogKeyword`, but gitcvs/cvs.py defines the same rewrite as `cleanKeywords`. The model follows cvs.py and applies `CleanTree` to the export.
- gitcvs/cvsimport.py:39 builds `CVS` with three arguments, while gitcvs/cvs.py:38 takes a `username` too. `CvsArea` takes the root directly.
- `CVS.copyFiles` (gitcvs/cvs.py:88-90) is a plain copy through gitcvs/util.py and is not modelled.
- `CVS.commit`'s temporary message file is not modelled.
- BigitrConfig.RawGet: returns the stored value as written. `Config` is a `SafeConfigParser`, whose `get` and `items` also interpolate `%`: `%%` becomes `%`, `%(name)s` becomes another option's value, and a bare `%` raises. That interpolation is not modelled, so `Get`, `Items` and the checks built on them hold for values free of `%`.
- GitArea.GitRepo.Status: ignore rules are not modelled. A working-tree file that `.gitignore` matches counts as a change, where `git status` skips it.
- GitArea.GitRepo.Commit: ignore rules are not modelled, so a file that `.gitignore` matches is recorded. With an export holding `foo.o` and `*.o` ignored, the program never commits `foo.o`, but in the model the branch tip holds it. The comment at gitcvs/cvsimport.py:143-145 relies on git's ignore rules; the bootstrap's `.gitignore` is modelled only as a file.
- CvsImport.ReimportMakesNoCommit: holds for a deterministic hook and for a branch not created with a skeleton. A branch created as an orphan records the skeleton files. A later import no longer adds them, and `GitRepo.ContentFiles` lists every tracked file for the wipe, so that import deletes them and commits. Whether `listContentFiles` in gitcvs/git.py skips those files is not part of this model.

=== FILE: common.dfy ===
/** Small value wrappers shared by the modules of the model. */
module Common {

  /** Python's `None` or a present value. */
  datatype Option<+T> = None | Some(value: T)

  /** True when `s` begins with `prefix` (Python's `str.startswith`). */
  predicate StartsWith(s: string, prefix: string)
  {
    |prefix| <= |s| && s[..|prefix|] == prefix
  }

  /** True when `s` ends with `suffix` (Python's `str.endswith`). */
  predicate EndsWith(s: string, suffix: string)
  {
    |suffix| <= |s| && s[|s| - |suffix|..] == suffix
  }

  /** A prefix one element longer. */
  lemma TakeNext<T>(s: seq<T>, i: nat)
    requires i < |s|
    ensures s[..i + 1] == s[..i] + [s[i]]
  {
  }
}

=== FILE: config.dfy ===
/**
 * Configuration lookup and validation of bigitr (bigitr/config.py).
 *
 * The parsed configuration is given as a value: the ordered list of section
 * names, each section's ordered option map, and the defaults layer that the
 * parser fills from a `[DEFAULT]` section.  Reading and parsing the file is
 * not modelled.  Environment substitution (`string.Template(v).substitute`
 * over the process environment) is an opaque function `expand` from a raw
 * value to the substituted value, or `None` when the template names a
 * variable the environment does not define.
 */
module BigitrConfig {
  import opened Common

  /** The parser's special section that feeds the defaults layer. */
  const DefaultSection := "DEFAULT"
  /** The section consulted by the global fallbacks. */
  const GlobalSection := "GLOBAL"

  /** Option names in file order, and their raw (unsubstituted) values. */
  datatype OptionMap = OptionMap(names: seq<string>, values: map<string, string>)

  /** What the parser hands over: section order, sections, defaults layer. */
  datatype Parsed = Parsed(sectionNames: seq<string>, sections: map<string, OptionMap>, defaults: OptionMap)

  datatype ConfigError =
    | NoSection(section: string)
    | NoOption(section: string, option: string)
    | BadSubstitution(section: string, option: string, raw: string)
    | NotAbsolute(section: string, option: string, value: string)

  datatype Result<+T> = Ok(value: T) | Err(error: ConfigError)

  /** Outcome of a check that only raises. */
  datatype Check = Pass | Fail(error: ConfigError)

  type Expander = string -> Option<string>

  /** Names listed once each and exactly the keys of the value map. */
  ghost predicate OrderedMap(m: OptionMap)
  {
    && (forall i, j | 0 <= i < j < |m.names| :: m.names[i] != m.names[j])
    && (forall k :: k in m.values <==> k in m.names)
  }

  /** What the parser guarantees of its result. */
  ghost predicate WellFormed(c: Parsed)
  {
    && (forall s :: s in c.sections <==> s in c.sectionNames)
    && (forall i, j | 0 <= i < j < |c.sectionNames| :: c.sectionNames[i] != c.sectionNames[j])
    && DefaultSection !in c.sections && "" !in c.sections
    && OrderedMap(c.defaults)
    && (forall s | s in c.sections :: OrderedMap(c.sections[s]))
  }

  /** `has_option`: the empty and the DEFAULT section ask the defaults layer only. */
  predicate HasOption(c: Parsed, section: string, key: string)
  {
    if section == "" || section == DefaultSection then key in c.defaults.values
    else section in c.sections && (key in c.sections[section].values || key in c.defaults.values)
  }

  /** The parser's own `get`: the section's value, else the defaults layer's. */
  function RawGet(c: Parsed, section: string, key: string): (r: Result<string>)
    ensures r.Ok? <==> (section in c.sections || section == DefaultSection) &&
                       (key in c.defaults.values || (section in c.sections && key in c.sections[section].values))
    ensures r.Ok? && (section !in c.sections || key !in c.sections[section].values) ==>
              r.value == c.defaults.values[key]
    ensures r.Ok? && section in c.sections && key in c.sections[section].values ==> r.value == c.sections[section].values[key]
  {
    if section !in c.sections && section != DefaultSection then Err(NoSection(section))
    else if section in c.sections && key in c.sections[section].values then Ok(c.sections[section].values[key])
    else if key in c.defaults.values then Ok(c.defaults.values[key])
    else Err(NoOption(section, key))
  }

  /** `Config.get`: the parser's value with environment references substituted. */
  function Get(c: Parsed, expand: Expander, section: string, key: string): (r: Result<string>)
    ensures r.Ok? <==> RawGet(c, section, key).Ok? && expand(RawGet(c, section, key).value).Some?
    ensures r.Ok? ==> r.value == expand(RawGet(c, section, key).value).value
  {
    match RawGet(c, section, key)
    case Err(e) => Err(e)
    case Ok(raw) =>
      match expand(raw)
      case None => Err(BadSubstitution(section, key, raw))
      case Some(v) => Ok(v)
  }

  /** Lifts a successful lookup into an optional value. */
  function Present(r: Result<string>): (o: Result<Option<string>>)
    ensures o.Ok? <==> r.Ok?
    ensures o.Ok? ==> o.value == Some(r.value)
    ensures o.Err? ==> o.error == r.error
  {
    match r
    case Ok(v) => Ok(Some(v))
    case Err(e) => Err(e)
  }

  /**
   * `getGlobalFallback`: the section's value, else GLOBAL's, else the default
   * when `error` is false; otherwise the lookup error of the section itself.
   */
  function GetGlobalFallback(c: Parsed, expand: Expander, section: string, key: string,
                             error: bool, defaultValue: Option<string>): (r: Result<Option<string>>)
    requires WellFormed(c)
    ensures HasOption(c, section, key) ==> r == Present(Get(c, expand, section, key))
    ensures !HasOption(c, section, key) && HasOption(c, GlobalSection, key) ==>
              r == Present(Get(c, expand, GlobalSection, key))
    ensures !HasOption(c, section, key) && !HasOption(c, GlobalSection, key) && !error ==>
              r == Ok(defaultValue)
    ensures !HasOption(c, section, key) && !HasOption(c, GlobalSection, key) && error ==>
              r.Err? && (r.error == NoSection(section) || r.error == NoOption(section, key))
  {
    if HasOption(c, section, key) then Present(Get(c, expand, section, key))
    else if HasOption(c, GlobalSection, key) then Present(Get(c, expand, GlobalSection, key))
    else if !error then Ok(defaultValue)
    else Present(Get(c, expand, section, key))
  }

  /** `getDefault`: the section's value when it has the option, else the default. */
  function GetDefault(c: Parsed, expand: Expander, section: string, key: string,
                      defaultValue: Option<string>): (r: Result<Option<string>>)
    ensures HasOption(c, section, key) ==> r == Present(Get(c, expand, section, key))
    ensures !HasOption(c, section, key) ==> r == Ok(defaultValue)
  {
    if HasOption(c, section, key) then Present(Get(c, expand, section, key)) else Ok(defaultValue)
  }

  /**
   * `getGlobalDefault`: a missing key is never an error.  Only a substitution
   * can fail, or the empty section name, which `has_option` answers from the
   * defaults layer but `get` rejects.
   */
  function GetGlobalDefault(c: Parsed, expand: Expander, section: string, key: string,
                            defaultValue: Option<string>): (r: Result<Option<string>>)
    requires WellFormed(c)
    ensures r.Err? ==> r.error.BadSubstitution? || r.error == NoSection("")
    ensures !HasOption(c, section, key) && !HasOption(c, GlobalSection, key) ==> r == Ok(defaultValue)
  {
    GetGlobalFallback(c, expand, section, key, false, defaultValue)
  }

  /** `getOptional`: the section's value or `None`. */
  function GetOptional(c: Parsed, expand: Expander, section: string, key: string): (r: Result<Option<string>>)
    ensures r == GetDefault(c, expand, section, key, None)
    ensures !HasOption(c, section, key) ==> r == Ok(None)
    ensures r.Ok? && r.value.Some? ==> Get(c, expand, section, key) == Ok(r.value.value)
  {
    GetDefault(c, expand, section, key, None)
  }

  /** The names of `Parsed.sections[s]` that the defaults layer does not also hold. */
  function OwnNames(names: seq<string>, defaults: map<string, string>): (r: seq<string>)
    ensures forall n :: n in r <==> n in names && n !in defaults
  {
    if names == [] then []
    else (if names[0] in defaults then [] else [names[0]]) + OwnNames(names[1..], defaults)
  }

  /** The names of `options(s)`: the section's own, then those of the defaults layer. */
  function Options(c: Parsed, section: string): (r: seq<string>)
    requires section in c.sections
    ensures forall n :: n in r <==> n in c.sections[section].names ||
                                    (n in c.defaults.names && n !in c.sections[section].values)
  {
    c.sections[section].names + OwnNames(c.defaults.names, c.sections[section].values)
  }

  /** The names of the parser's raw `items(s)`: the defaults layer's first, then the section's own. */
  function ItemNames(c: Parsed, section: string): (r: seq<string>)
    ensures |c.defaults.names| <= |r| && r[..|c.defaults.names|] == c.defaults.names
    ensures forall n :: n in r <==> n in c.defaults.names ||
                                    (section in c.sections && n in c.sections[section].names && n !in c.defaults.values)
  {
    if section in c.sections then c.defaults.names + OwnNames(c.sections[section].names, c.defaults.values)
    else c.defaults.names
  }

  /** Looks up every name in turn; the first failing lookup is the error. */
  function GetAll(c: Parsed, expand: Expander, section: string, names: seq<string>): (r: Result<seq<(string, string)>>)
    ensures r.Ok? <==> forall i | 0 <= i < |names| :: Get(c, expand, section, names[i]).Ok?
    ensures r.Ok? ==> |r.value| == |names| &&
                      forall i | 0 <= i < |names| ::
                        r.value[i] == (names[i], Get(c, expand, section, names[i]).value)
    ensures r.Err? ==> exists i | 0 <= i < |names| ::
                        Get(c, expand, section, names[i]) == Err(r.error) &&
                        forall j | 0 <= j < i :: Get(c, expand, section, names[j]).Ok?
  {
    if names == [] then Ok([])
    else
      match Get(c, expand, section, names[0])
      case Err(e) => Err(e)
      case Ok(v) =>
        var tail := names[1..];
        assert forall i | 1 <= i < |names| :: names[i] == tail[i - 1];
        match GetAll(c, expand, section, tail)
        case Err(e) =>
          var i :| 0 <= i < |tail| && Get(c, expand, section, tail[i]) == Err(e) &&
                   forall j | 0 <= j < i :: Get(c, expand, section, tail[j]).Ok?;
          FirstErrorShift(c, expand, section, names, i, e);
          Err(e)
        case Ok(rest) => Ok([(names[0], v)] + rest)
  }

  /** The first failing name of `names[1..]`, one position on in `names`. */
  lemma FirstErrorShift(c: Parsed, expand: Expander, section: string, names: seq<string>, i: nat, e: ConfigError)
    requires 0 <= i < |names| - 1 && Get(c, expand, section, names[0]).Ok?
    requires Get(c, expand, section, names[1..][i]) == Err(e)
    requires forall j | 0 <= j < i :: Get(c, expand, section, names[1..][j]).Ok?
    ensures Get(c, expand, section, names[i + 1]) == Err(e)
    ensures forall j | 0 <= j < i + 1 :: Get(c, expand, section, names[j]).Ok?
  {
    forall j | 0 < j < i + 1 ensures Get(c, expand, section, names[j]).Ok? {
      assert names[j] == names[1..][j - 1];
    }
  }

  /**
   * `Config.items(s)`: the raw items' names in their order, each paired with
   * the substituted `get(s, name)`; a missing section is an error.
   */
  function Items(c: Parsed, expand: Expander, section: string): (r: Result<seq<(string, string)>>)
    ensures section !in c.sections && section != DefaultSection ==> r == Err(NoSection(section))
    ensures section in c.sections || section == DefaultSection ==>
              (r.Ok? <==> forall i | 0 <= i < |ItemNames(c, section)| :: Get(c, expand, section, ItemNames(c, section)[i]).Ok?)
    ensures (section in c.sections || section == DefaultSection) && r.Err? ==>
              exists i | 0 <= i < |ItemNames(c, section)| :: Get(c, expand, section, ItemNames(c, section)[i]) == Err(r.error)
    ensures r.Ok? ==> |r.value| == |ItemNames(c, section)| &&
                      forall i | 0 <= i < |r.value| ::
                        r.value[i].0 == ItemNames(c, section)[i] &&
                        Get(c, expand, section, r.value[i].0) == Ok(r.value[i].1)
  {
    if section !in c.sections && section != DefaultSection then Err(NoSection(section))
    else GetAll(c, expand, section, ItemNames(c, section))
  }

  /** Options that must hold absolute paths: named explicitly, or ending in lower-case `dir`. */
  predicate Subject(required: set<string>, option: string)
  {
    option in required || EndsWith(option, "dir")
  }

  /** The option's substituted value exists and starts with `/`. */
  predicate IsAbsolute(c: Parsed, expand: Expander, section: string, option: string)
  {
    Get(c, expand, section, option).Ok? && StartsWith(Get(c, expand, section, option).value, "/")
  }

  /** The lookup error or the non-absolute value that `requireAbsolutePaths` raises for one option. */
  function CheckOption(c: Parsed, expand: Expander, section: string, option: string): (r: Check)
    ensures r.Pass? <==> IsAbsolute(c, expand, section, option)
  {
    match Get(c, expand, section, option)
    case Err(e) => Fail(e)
    case Ok(v) => if StartsWith(v, "/") then Pass else Fail(NotAbsolute(section, option, v))
  }

  /** The inner loop of `requireAbsolutePaths`, over one section's options in order. */
  function CheckOptions(c: Parsed, expand: Expander, required: set<string>, section: string,
                        options: seq<string>): (r: Check)
    ensures r.Pass? <==> forall o | o in options && Subject(required, o) :: IsAbsolute(c, expand, section, o)
    ensures r.Fail? ==> exists o | o in options && Subject(required, o) ::
                          CheckOption(c, expand, section, o) == r
  {
    if options == [] then Pass
    else if Subject(required, options[0]) && CheckOption(c, expand, section, options[0]).Fail? then
      CheckOption(c, expand, section, options[0])
    else
      var r := CheckOptions(c, expand, required, section, options[1..]);
      assert forall o :: o in options <==> o == options[0] || o in options[1..];
      r
  }

  /** The outer loop of `requireAbsolutePaths`, over the sections in order. */
  function CheckSections(c: Parsed, expand: Expander, required: set<string>, sections: seq<string>): (r: Check)
    requires forall s | s in sections :: s in c.sections
    ensures r.Pass? <==> forall s, o | s in sections && o in Options(c, s) && Subject(required, o) ::
                           IsAbsolute(c, expand, s, o)
    ensures r.Fail? ==> exists s, o | s in sections && o in Options(c, s) && Subject(required, o) ::
                          CheckOption(c, expand, s, o) == r
  {
    if sections == [] then Pass
    else
      var first := CheckOptions(c, expand, required, sections[0], Options(c, sections[0]));
      if first.Fail? then first
      else
        var r := CheckSections(c, expand, required, sections[1..]);
        assert forall s :: s in sections <==> s == sections[0] || s in sections[1..];
        r
  }

  /** Every option of every section that is subject to the rule holds an absolute path. */
  predicate AllAbsolute(c: Parsed, expand: Expander, required: set<string>)
    requires WellFormed(c)
  {
    forall s, o | s in c.sections && o in Options(c, s) && Subject(required, o) :: IsAbsolute(c, expand, s, o)
  }

  /** `requireAbsolutePaths(*names)`: passes exactly when every subject option is absolute. */
  function RequireAbsolutePaths(c: Parsed, expand: Expander, required: set<string>): (r: Check)
    requires WellFormed(c)
    ensures r.Pass? <==> AllAbsolute(c, expand, required)
    ensures r.Fail? ==> exists s, o | s in c.sections && o in Options(c, s) && Subject(required, o) ::
                          CheckOption(c, expand, s, o) == r
  {
    CheckSections(c, expand, required, c.sectionNames)
  }

  /** The constructor's validation: a `Config` exists only when every `*dir` option is absolute. */
  function NewConfig(c: Parsed, expand: Expander): (r: Result<Parsed>)
    requires WellFormed(c)
    ensures r.Ok? <==> AllAbsolute(c, expand, {})
    ensures r.Ok? ==> r.value == c
    ensures r.Err? ==> r.error.NotAbsolute? || r.error.BadSubstitution?
  {
    match RequireAbsolutePaths(c, expand, {})
    case Pass => Ok(c)
    case Fail(e) =>
      var s, o :| s in c.sections && o in Options(c, s) && Subject({}, o) && CheckOption(c, expand, s, o) == Fail(e);
      Err(e)
  }

  /** Checking more names never accepts a configuration that checking fewer rejects. */
  lemma RequiredNamesOnlyAdd(c: Parsed, expand: Expander, fewer: set<string>, more: set<string>)
    requires WellFormed(c) && fewer <= more
    ensures AllAbsolute(c, expand, more) ==> AllAbsolute(c, expand, fewer)
    ensures RequireAbsolutePaths(c, expand, more).Pass? ==> NewConfig(c, expand).Ok?
  {
  }

  /**
   * Only options ending in lower-case `dir` are checked by the constructor:
   * a configuration whose `*dir` options are all absolute is accepted,
   * whatever its other options (`*DIR` included) hold.
   */
  lemma OnlyDirOptionsChecked(c: Parsed, expand: Expander)
    requires WellFormed(c)
    requires forall s, o | s in c.sections && o in Options(c, s) && EndsWith(o, "dir") ::
               Get(c, expand, s, o).Ok? && StartsWith(Get(c, expand, s, o).value, "/")
    ensures NewConfig(c, expand).Ok?
  {
    forall s, o | s in c.sections && o in Options(c, s) && Subject({}, o) ensures IsAbsolute(c, expand, s, o) {
    }
  }

  /**
   * Option names are case sensitive: an option ending in upper-case `DIR` is
   * not subject to the rule, so a relative value there does not reject.
   */
  lemma UpperCaseDirIsNotChecked(expand: Expander)
    requires expand("relative") == Some("relative")
    ensures var c := Parsed(["repo"], map["repo" := OptionMap(["gitDIR"], map["gitDIR" := "relative"])],
                            OptionMap([], map[]));
            NewConfig(c, expand).Ok? && Get(c, expand, "repo", "gitDIR") == Ok("relative")
  {
    var c := Parsed(["repo"], map["repo" := OptionMap(["gitDIR"], map["gitDIR" := "relative"])],
                    OptionMap([], map[]));
    assert Options(c, "repo") == ["gitDIR"];
    assert !EndsWith("gitDIR", "dir") by { assert "gitDIR"[3..] == "DIR"; }
  }

  /** `getDefault` never consults GLOBAL: changing only GLOBAL leaves it unchanged. */
  lemma GetDefaultIgnoresGlobal(c: Parsed, c': Parsed, expand: Expander, section: string, key: string,
                                defaultValue: Option<string>)
    requires section != GlobalSection
    requires c'.defaults == c.defaults
    requires forall s :: s != GlobalSection ==> (s in c.sections <==> s in c'.sections)
    requires forall s | s != GlobalSection && s in c.sections :: c.sections[s] == c'.sections[s]
    ensures GetDefault(c, expand, section, key, defaultValue) == GetDefault(c', expand, section, key, defaultValue)
  {
  }

  /** `getGlobalFallback` does consult GLOBAL where the section lacks the key. */
  lemma GlobalFallbackUsesGlobal(c: Parsed, expand: Expander, section: string, key: string, v: string)
    requires WellFormed(c)
    requires !HasOption(c, section, key)
    requires GlobalSection in c.sections && key in c.sections[GlobalSection].values
    requires expand(c.sections[GlobalSection].values[key]) == Some(v)
    ensures GetGlobalFallback(c, expand, section, key, true, None) == Ok(Some(v))
    ensures GetDefault(c, expand, section, key, None) == Ok(None)
  {
  }
}

=== FILE: cvs_checkout.dfy ===
/**
 * The CVS working area of one branch (class `CVS` in gitcvs/cvs.py), minus
 * the process calls: each `cvs` command is recorded in a command log and its
 * exit status is a parameter.  The process-wide working directory and the
 * `CVSROOT` environment variable are fields of the object, so the
 * save-and-restore discipline of the `inCVSPATH` / `inCVSDIR` wrappers can
 * be stated.
 */
module CvsCheckout {
  import opened Common

  /** A path as its components; an absolute path starts with the empty component. */
  type Path = seq<string>

  /** The filesystem root `/` as components. */
  const Root: Path := [""]

  /** `'/'.join(p)`. */
  function Join(p: Path): (r: string)
    ensures |p| == 1 ==> r == p[0]
  {
    if |p| == 0 then "" else if |p| == 1 then p[0] else Join(p[..|p| - 1]) + "/" + p[|p| - 1]
  }

  /** Joining a longer path puts a `/` between the two joined parts. */
  lemma {:induction false} JoinAppend(p: Path, q: Path)
    requires |p| > 0 && |q| > 0
    ensures Join(p + q) == Join(p) + "/" + Join(q)
    decreases |q|
  {
    if |q| == 1 {
      assert (p + q)[..|p + q| - 1] == p;
    } else {
      var q' := q[..|q| - 1];
      assert (p + q)[..|p + q| - 1] == p + q';
      JoinAppend(p, q');
    }
  }

  /** Stripping `len(path) + 1` characters from a file's full name leaves its name relative to `path`. */
  lemma StripCheckoutPrefix(path: Path, rel: Path)
    requires |path| > 0 && |rel| > 0
    ensures |Join(path)| + 1 <= |Join(path + rel)|
    ensures Join(path + rel)[|Join(path)| + 1..] == Join(rel)
  {
    JoinAppend(path, rel);
  }

  /** The directories between the checkout and a file: everything but the file's own name. */
  function DirectoriesOf(rel: Path): Path
    requires |rel| > 0
  {
    rel[..|rel| - 1]
  }

  /** The walk prunes every directory named `CVS`, so a file below one is never listed. */
  predicate UnderCvsDirectory(rel: Path)
    requires |rel| > 0
  {
    "CVS" in DirectoriesOf(rel)
  }

  /** The names `listContentFiles` reports for files found (in walk order) at relative paths `walked`. */
  function ContentFiles(walked: seq<Path>): (r: seq<string>)
    requires forall rel | rel in walked :: |rel| > 0
    ensures forall s | s in r :: exists rel | rel in walked && !UnderCvsDirectory(rel) :: s == Join(rel)
    ensures forall rel | rel in walked && !UnderCvsDirectory(rel) :: Join(rel) in r
    ensures |r| <= |walked|
  {
    if walked == [] then []
    else
      var last := walked[|walked| - 1];
      var front := walked[..|walked| - 1];
      assert forall rel :: rel in walked <==> rel in front || rel == last;
      ContentFiles(front) + (if UnderCvsDirectory(last) then [] else [Join(last)])
  }

  /** The walk one file further. */
  lemma ContentFilesNext(walked: seq<Path>, i: nat)
    requires i < |walked| && forall rel | rel in walked :: |rel| > 0
    ensures ContentFiles(walked[..i + 1])
         == ContentFiles(walked[..i]) + (if UnderCvsDirectory(walked[i]) then [] else [Join(walked[i])])
  {
    assert walked[..i + 1][..i] == walked[..i];
  }

  datatype Command =
    | CvsExport(branch: string)
    | CvsCheckout(branch: string)
    | CvsUpdate
    | CvsAdd(names: seq<Path>)
    | CvsRemove(names: seq<Path>)
    | CvsCommit(branch: string, message: string)

  /** One `cvs add` command per directory, in order. */
  function AddCommands(dirs: seq<Path>): (r: seq<Command>)
    ensures |r| == |dirs|
  {
    if dirs == [] then [] else [CvsAdd([dirs[0]])] + AddCommands(dirs[1..])
  }

  /** `os.path.dirname` has something to add: not empty and not the root. */
  predicate HasParent(d: Path)
  {
    |d| > 1 && d[..|d| - 1] != Root
  }

  function Parent(d: Path): Path
    requires |d| > 0
  {
    d[..|d| - 1]
  }

  /**
   * `d` holds a `CVS` subdirectory now, and so does every ancestor up to the
   * first one that already held one before (`before`).
   */
  ghost predicate Covered(d: Path, before: set<Path>, now: set<Path>)
    decreases |d|
  {
    d in now && (HasParent(d) && Parent(d) !in before ==> Covered(Parent(d), before, now))
  }

  /** `d` holds a `CVS` subdirectory, and so does its parent when it has one. */
  ghost predicate Handled(d: Path, versioned: set<Path>)
  {
    d in versioned && (HasParent(d) ==> Parent(d) in versioned)
  }

  /**
   * The order `addDirectories` issues `cvs add`: never twice for one
   * directory, never for one that already had a `CVS` subdirectory, and a
   * directory's parent is versioned before it or added earlier.
   */
  ghost predicate ParentsFirst(adds: seq<Path>, before: set<Path>)
    decreases |adds|
  {
    adds == [] ||
    (var front := adds[..|adds| - 1];
     ParentsFirst(front, before) && FreshChild(adds[|adds| - 1], before + Elements(front)))
  }

  /** `x` has no `CVS` subdirectory yet, and its parent has one (or it has no parent to add). */
  predicate FreshChild(x: Path, versioned: set<Path>)
  {
    x !in versioned && (HasParent(x) ==> Parent(x) in versioned)
  }

  /** `ParentsFirst` read position by position. */
  lemma {:induction false} ParentsFirstOrder(adds: seq<Path>, before: set<Path>)
    requires ParentsFirst(adds, before)
    ensures forall k | 0 <= k < |adds| ::
      && adds[k] !in before
      && adds[k] !in adds[..k]
      && (HasParent(adds[k]) ==> Parent(adds[k]) in before || Parent(adds[k]) in adds[..k])
    decreases |adds|
  {
    if adds != [] {
      var front := adds[..|adds| - 1];
      ParentsFirstOrder(front, before);
      forall k | 0 <= k < |adds|
        ensures adds[k] !in before && adds[k] !in adds[..k]
        ensures HasParent(adds[k]) ==> Parent(adds[k]) in before || Parent(adds[k]) in adds[..k]
      {
        if k < |front| {
          assert adds[k] == front[k] && adds[..k] == front[..k];
        } else {
          assert adds[..k] == front;
        }
      }
    }
  }

  lemma ParentsFirstExtend(adds: seq<Path>, before: set<Path>, x: Path)
    requires ParentsFirst(adds, before)
    requires FreshChild(x, before + Elements(adds))
    ensures ParentsFirst(adds + [x], before)
  {
    assert (adds + [x])[..|adds|] == adds;
  }

  lemma {:induction false} ParentsFirstConcat(a: seq<Path>, b: seq<Path>, before: set<Path>)
    requires ParentsFirst(a, before)
    requires ParentsFirst(b, before + Elements(a))
    ensures ParentsFirst(a + b, before)
    decreases |b|
  {
    if b == [] {
      assert a + b == a;
    } else {
      var b' := b[..|b| - 1];
      var y := b[|b| - 1];
      ParentsFirstConcat(a, b', before);
      ElementsConcat(a, b');
      assert a + b == (a + b') + [y];
      ParentsFirstExtend(a + b', before, y);
    }
  }

  lemma {:induction false} CoveredGrows(d: Path, before: set<Path>, now: set<Path>, later: set<Path>)
    requires Covered(d, before, now) && now <= later
    ensures Covered(d, before, later)
    decreases |d|
  {
    if HasParent(d) && Parent(d) !in before {
      CoveredGrows(Parent(d), before, now, later);
    }
  }

  /** Every directory added in `ParentsFirst` order has its whole chain of unversioned ancestors added too. */
  lemma {:induction false} AddedAreCovered(adds: seq<Path>, before: set<Path>)
    requires ParentsFirst(adds, before)
    ensures forall x | x in adds :: Covered(x, before, before + Elements(adds))
    decreases |adds|
  {
    if adds != [] {
      var front := adds[..|adds| - 1];
      var y := adds[|adds| - 1];
      var now := before + Elements(adds);
      AddedAreCovered(front, before);
      assert now == (before + Elements(front)) + {y};
      forall x | x in front ensures Covered(x, before, now) {
        CoveredGrows(x, before, before + Elements(front), now);
      }
      if HasParent(y) && Parent(y) !in before {
        CoveredGrows(Parent(y), before, before + Elements(front), now);
      }
      assert forall x | x in adds :: x in front || x == y;
    }
  }

  /**
   * After `addDirectories`, each requested directory is versioned together
   * with every ancestor that was not versioned before the call.
   */
  lemma RequestedAreCovered(d: Path, before: set<Path>, adds: seq<Path>)
    requires ParentsFirst(adds, before)
    requires Handled(d, before + Elements(adds))
    ensures Covered(d, before, before + Elements(adds))
  {
    AddedAreCovered(adds, before);
  }

  function MaxLength(ds: seq<Path>): (m: nat)
    ensures forall d | d in ds :: |d| <= m
  {
    if ds == [] then 0
    else
      var rest := MaxLength(ds[1..]);
      assert forall d | d in ds :: d == ds[0] || d in ds[1..];
      if |ds[0]| > rest then |ds[0]| else rest
  }

  /** The set of directories in a sequence of adds. */
  function Elements(ds: seq<Path>): (r: set<Path>)
    ensures forall d :: d in r <==> d in ds
  {
    set d | d in ds
  }

  lemma ElementsConcat(a: seq<Path>, b: seq<Path>)
    ensures Elements(a + b) == Elements(a) + Elements(b)
  {
  }

  /** Removing `names` one by one from `present` never meets a missing file. */
  predicate Removable(names: seq<Path>, present: set<Path>)
  {
    names == [] || (names[0] in present && Removable(names[1..], present - {names[0]}))
  }

  /** The `i`-th command adds exactly the `i`-th directory, alone. */
  lemma {:induction false} AddCommandsAt(dirs: seq<Path>, i: nat)
    requires i < |dirs|
    ensures AddCommands(dirs)[i] == CvsAdd([dirs[i]])
    decreases i
  {
    if i > 0 {
      AddCommandsAt(dirs[1..], i - 1);
      assert dirs[1..][i - 1] == dirs[i];
    }
  }

  lemma {:induction false} AddCommandsConcat(a: seq<Path>, b: seq<Path>)
    ensures AddCommands(a + b) == AddCommands(a) + AddCommands(b)
    decreases |a|
  {
    if a == [] {
      assert a + b == b;
    } else {
      assert (a + b)[1..] == a[1..] + b;
      AddCommandsConcat(a[1..], b);
      assert AddCommands(a + b) == [CvsAdd([a[0]])] + AddCommands(a[1..] + b);
    }
  }

  /**
   * The state `addDirectories` builds up from `c0` and `v0`: the directories
   * added so far (`adds`) in `ParentsFirst` order, and every name handled so
   * far (`done`) covered.
   */
  ghost predicate Progress(commands: seq<Command>, versioned: set<Path>, c0: seq<Command>, v0: set<Path>, adds: seq<Path>, done: seq<Path>)
  {
    && commands == c0 + AddCommands(adds)
    && versioned == v0 + Elements(adds)
    && ParentsFirst(adds, v0)
    && (forall d | d in done :: Handled(d, versioned))
  }

  /**
   * The state after a `cvs add` of `failed` exited non-zero: the adds before
   * it succeeded in parents-first order, the failing one was run last, and
   * it left its directory unversioned.
   */
  ghost predicate Failed(commands: seq<Command>, versioned: set<Path>, c0: seq<Command>, v0: set<Path>,
                         adds: seq<Path>, failed: Path, rc: Path -> int)
  {
    && commands == c0 + AddCommands(adds) + [CvsAdd([failed])]
    && versioned == v0 + Elements(adds)
    && ParentsFirst(adds, v0)
    && failed !in versioned && rc(failed) != 0
  }

  /** `x` is `d` or one of its ancestors. */
  ghost predicate PrefixOf(x: Path, d: Path)
  {
    |x| <= |d| && x == d[..|x|]
  }

  /** An ancestor of a directory's parent is an ancestor of the directory. */
  lemma PrefixOfParent(x: Path, d: Path)
    requires |d| > 0
    ensures PrefixOf(x, Parent(d)) || x == d ==> PrefixOf(x, d)
  {
  }

  /** A nested call that added `sub` (to make a parent versioned) keeps the progress. */
  lemma ParentStep(c0: seq<Command>, v0: set<Path>, adds: seq<Path>, done: seq<Path>,
                   cmds: seq<Command>, before: set<Path>, sub: seq<Path>, cmds': seq<Command>, after: set<Path>)
    requires Progress(cmds, before, c0, v0, adds, done)
    requires cmds' == cmds + AddCommands(sub) && after == before + Elements(sub)
    requires ParentsFirst(sub, before)
    ensures Progress(cmds', after, c0, v0, adds + sub, done)
  {
    assert cmds' == c0 + AddCommands(adds + sub) by {
      AddCommandsConcat(adds, sub);
    }
    assert after == v0 + Elements(adds + sub) by {
      ElementsConcat(adds, sub);
    }
    assert ParentsFirst(adds + sub, v0) by {
      ParentsFirstConcat(adds, sub, v0);
    }
    HandledGrows(done, before, after);
  }

  lemma HandledGrows(done: seq<Path>, before: set<Path>, after: set<Path>)
    requires before <= after && forall d | d in done :: Handled(d, before)
    ensures forall d | d in done :: Handled(d, after)
  {
  }

  /** Adding a directory whose parent is versioned keeps the progress. */
  lemma AddStep(c0: seq<Command>, v0: set<Path>, adds: seq<Path>, done: seq<Path>,
                cmds: seq<Command>, versioned: set<Path>, x: Path)
    requires Progress(cmds, versioned, c0, v0, adds, done)
    requires FreshChild(x, versioned)
    ensures Progress(cmds + [CvsAdd([x])], versioned + {x}, c0, v0, adds + [x], done)
  {
    assert cmds + [CvsAdd([x])] == c0 + AddCommands(adds + [x]) by {
      AddCommandsConcat(adds, [x]);
    }
    assert versioned + {x} == v0 + Elements(adds + [x]) by {
      ElementsConcat(adds, [x]);
    }
    assert ParentsFirst(adds + [x], v0) by {
      ParentsFirstExtend(adds, v0, x);
    }
    assert forall d | d in done :: Handled(d, versioned + {x});
  }

  /** A versioned directory whose parent is versioned counts as handled. */
  lemma DoneStep(c0: seq<Command>, v0: set<Path>, adds: seq<Path>, done: seq<Path>,
                 cmds: seq<Command>, versioned: set<Path>, x: Path)
    requires Progress(cmds, versioned, c0, v0, adds, done)
    requires x in versioned && (HasParent(x) ==> Parent(x) in versioned)
    ensures Progress(cmds, versioned, c0, v0, adds, done + [x])
  {
  }

  class CvsArea {
    /** The branch checkout directory (`self.path`). */
    const path: Path
    /** The repository root this branch is read from (`self.root`). */
    const root: string
    /** The CVS branch (`self.branch`). */
    const branch: string
    /** The process working directory. */
    var cwd: Path
    /** The process's `CVSROOT` environment variable. */
    var cvsroot: Option<string>
    /** Files present in the checkout, relative to `path`. */
    var files: set<Path>
    /** Directories of the checkout, relative to `path`, that hold a `CVS` subdirectory. */
    var versioned: set<Path>
    /** Every `cvs` command run, in order. */
    var commands: seq<Command>

    constructor (path: Path, root: string, branch: string, cwd: Path, files: set<Path>, versioned: set<Path>)
      requires |path| > 0
      ensures this.path == path && this.root == root && this.branch == branch
      ensures this.cwd == cwd && this.cvsroot == None && this.files == files
      ensures this.versioned == versioned && this.commands == []
    {
      this.path := path;
      this.root := root;
      this.branch := branch;
      this.cwd := cwd;
      this.cvsroot := None;
      this.files := files;
      this.versioned := versioned;
      this.commands := [];
    }

    /**
     * `listContentFiles`: every file the walk finds below the checkout except
     * those inside a `CVS` directory, named relative to the checkout by
     * cutting `len(path) + 1` characters off its full name.
     */
    method ListContentFiles(walked: seq<Path>) returns (names: seq<string>)
      requires |path| > 0
      requires forall rel | rel in walked :: |rel| > 0
      ensures names == ContentFiles(walked)
    {
      names := [];
      var dirlen := |Join(path)| + 1;
      var i := 0;
      while i < |walked|
        invariant 0 <= i <= |walked|
        invariant names == ContentFiles(walked[..i])
      {
        var rel := walked[i];
        ContentFilesNext(walked, i);
        if !UnderCvsDirectory(rel) {
          var full := Join(path + rel);
          StripCheckoutPrefix(path, rel);
          names := names + [full[dirlen..]];
        }
        i := i + 1;
      }
      assert walked[..i] == walked;
    }

    /** `export` (under `setCVSROOT`): sets `CVSROOT` for this branch and runs `cvs export`. */
    method Export(rc: int) returns (ok: bool)
      modifies this
      ensures ok <==> rc == 0
      ensures cvsroot == Some(root) && commands == old(commands) + [CvsExport(branch)]
      ensures cwd == old(cwd) && files == old(files) && versioned == old(versioned)
    {
      cvsroot := Some(root);
      commands := commands + [CvsExport(branch)];
      ok := rc == 0;
    }

    /** `checkout` (under `setCVSROOT` and `inCVSDIR`): runs in the checkout's parent directory. */
    method Checkout(rc: int) returns (ok: bool)
      requires |path| > 0
      modifies this
      ensures ok <==> rc == 0
      ensures cwd == old(cwd)
      ensures cvsroot == Some(root) && commands == old(commands) + [CvsCheckout(branch)]
      ensures files == old(files) && versioned == old(versioned)
    {
      cvsroot := Some(root);
      var oldDir := cwd;
      cwd := Parent(path);
      commands := commands + [CvsCheckout(branch)];
      ok := rc == 0;
      cwd := oldDir;
    }

    /** `update` (under `inCVSPATH`). */
    method Update(rc: int) returns (ok: bool)
      modifies this
      ensures ok <==> rc == 0
      ensures cwd == old(cwd) && commands == old(commands) + [CvsUpdate]
      ensures cvsroot == old(cvsroot) && files == old(files) && versioned == old(versioned)
    {
      var oldDir := cwd;
      cwd := path;
      commands := commands + [CvsUpdate];
      ok := rc == 0;
      cwd := oldDir;
    }

    /**
     * `deleteFiles` (under `inCVSPATH`): an empty list runs nothing.  Otherwise
     * each file is removed in turn (a missing one raises and stops the rest),
     * then `cvs remove` runs once for the whole list.
     */
    method DeleteFiles(names: seq<Path>, rc: int) returns (ok: bool)
      modifies this
      ensures cwd == old(cwd) && cvsroot == old(cvsroot) && versioned == old(versioned)
      ensures names == [] ==> ok && files == old(files) && commands == old(commands)
      ensures ok <==> Removable(names, old(files)) && (names == [] || rc == 0)
      ensures Removable(names, old(files)) ==> files == old(files) - set n | n in names
      ensures Removable(names, old(files)) && names != [] ==> commands == old(commands) + [CvsRemove(names)]
      ensures !Removable(names, old(files)) ==> files <= old(files) && commands == old(commands)
    {
      var oldDir := cwd;
      cwd := path;
      ok := true;
      if names != [] {
        var i := 0;
        while i < |names| && ok
          invariant 0 <= i <= |names|
          invariant cwd == path && cvsroot == old(cvsroot) && versioned == old(versioned)
          invariant ok ==> files == old(files) - set n | n in names[..i]
          invariant ok ==> (Removable(names, old(files)) <==> Removable(names[i..], files))
          invariant !ok ==> !Removable(names, old(files))
          invariant files <= old(files)
          invariant commands == old(commands)
          decreases |names| - i, if ok then 1 else 0
        {
          assert names[i..][1..] == names[i + 1..];
          if names[i] in files {
            files := files - {names[i]};
            TakeNext(names, i);
            i := i + 1;
          } else {
            ok := false;
          }
        }
        if ok {
          assert names[..i] == names;
          commands := commands + [CvsRemove(names)];
          ok := rc == 0;
        }
      }
      cwd := oldDir;
    }

    /** `addFiles` (under `inCVSPATH`): an empty list runs nothing, otherwise one `cvs add`. */
    method AddFiles(names: seq<Path>, rc: int) returns (ok: bool)
      modifies this
      ensures cwd == old(cwd) && cvsroot == old(cvsroot) && files == old(files) && versioned == old(versioned)
      ensures names == [] ==> ok && commands == old(commands)
      ensures names != [] ==> (ok <==> rc == 0) && commands == old(commands) + [CvsAdd(names)]
    {
      var oldDir := cwd;
      cwd := path;
      ok := true;
      if names != [] {
        commands := commands + [CvsAdd(names)];
        ok := rc == 0;
      }
      cwd := oldDir;
    }

    /** `commit` (under `inCVSPATH`); the message file is not modelled. */
    method Commit(message: string, rc: int) returns (ok: bool)
      modifies this
      ensures ok <==> rc == 0
      ensures cwd == old(cwd) && commands == old(commands) + [CvsCommit(branch, message)]
      ensures cvsroot == old(cvsroot) && files == old(files) && versioned == old(versioned)
    {
      var oldDir := cwd;
      cwd := path;
      commands := commands + [CvsCommit(branch, message)];
      ok := rc == 0;
      cwd := oldDir;
    }

    /**
     * `addDirectories` (under `inCVSPATH`): before adding a directory, its
     * parent is added (recursively) when it lacks a `CVS` subdirectory; a
     * directory that has one is never added.  `rc` gives the exit status of
     * `cvs add` for a directory (none is added twice); a non-zero status
     * raises, which ends every pass of the recursion, and the working
     * directory is restored all the same.
     */
    method AddDirectories(dirNames: seq<Path>, rc: Path -> int) returns (ok: bool, ghost adds: seq<Path>, ghost failed: Path)
      modifies this
      ensures cwd == old(cwd) && cvsroot == old(cvsroot) && files == old(files)
      ensures versioned == old(versioned) + Elements(adds)
      ensures ParentsFirst(adds, old(versioned))
      ensures forall x | x in adds :: rc(x) == 0 && exists d | d in dirNames :: PrefixOf(x, d)
      ensures ok ==> commands == old(commands) + AddCommands(adds)
      ensures ok ==> forall d | d in dirNames :: Handled(d, versioned)
      ensures !ok ==> Failed(commands, versioned, old(commands), old(versioned), adds, failed, rc)
      ensures !ok ==> exists d | d in dirNames :: PrefixOf(failed, d)
      decreases MaxLength(dirNames), 2
    {
      var oldDir := cwd;
      cwd := path;
      ok, adds, failed := true, [], [];
      var i := 0;
      while i < |dirNames| && ok
        invariant 0 <= i <= |dirNames|
        invariant cwd == path && cvsroot == old(cvsroot) && files == old(files)
        invariant forall x | x in adds :: rc(x) == 0 && exists d | d in dirNames :: PrefixOf(x, d)
        invariant ok ==> Progress(commands, versioned, old(commands), old(versioned), adds, dirNames[..i])
        invariant !ok ==> Failed(commands, versioned, old(commands), old(versioned), adds, failed, rc)
        invariant !ok ==> exists d | d in dirNames :: PrefixOf(failed, d)
      {
        assert |dirNames[i]| <= MaxLength(dirNames);
        ok, adds, failed := AddDirectory(dirNames[i], rc, old(commands), old(versioned), adds, dirNames[..i]);
        assert dirNames[i] in dirNames;
        TakeNext(dirNames, i);
        i := i + 1;
      }
      if ok {
        assert dirNames[..i] == dirNames;
      }
      cwd := oldDir;
    }

    /** The first step of a pass: a parent without a `CVS` subdirectory is added first, recursively. */
    method AddParent(dirName: Path, rc: Path -> int, ghost c0: seq<Command>, ghost v0: set<Path>,
                     ghost adds: seq<Path>, ghost done: seq<Path>)
      returns (ok: bool, ghost adds': seq<Path>, ghost failed: Path)
      requires cwd == path && Progress(commands, versioned, c0, v0, adds, done)
      modifies this
      ensures cwd == path && cvsroot == old(cvsroot) && files == old(files)
      ensures forall x | x in adds' :: x in adds || (rc(x) == 0 && PrefixOf(x, dirName))
      ensures ok ==> Progress(commands, versioned, c0, v0, adds', done)
      ensures ok ==> HasParent(dirName) ==> Parent(dirName) in versioned
      ensures !ok ==> Failed(commands, versioned, c0, v0, adds', failed, rc) && PrefixOf(failed, dirName)
      decreases |dirName|, 0
    {
      ok, adds', failed := true, adds, [];
      if HasParent(dirName) && Parent(dirName) !in versioned {
        var parent := Parent(dirName);
        assert MaxLength([parent]) == |parent| < |dirName|;
        ghost var cmds, before := commands, versioned;
        ghost var sub: seq<Path>;
        ok, sub, failed := AddDirectories([parent], rc);
        cwd := path;
        ParentStep(c0, v0, adds', done, cmds, before, sub, cmds + AddCommands(sub), versioned);
        assert parent in [parent];
        forall x | x in sub ensures PrefixOf(x, dirName) {
          PrefixOfParent(x, dirName);
        }
        if !ok {
          PrefixOfParent(failed, dirName);
        }
        adds' := adds' + sub;
      }
    }

    /** One pass of the `addDirectories` loop; a failing `cvs add` ends it. */
    method AddDirectory(dirName: Path, rc: Path -> int, ghost c0: seq<Command>, ghost v0: set<Path>,
                        ghost adds: seq<Path>, ghost done: seq<Path>)
      returns (ok: bool, ghost adds': seq<Path>, ghost failed: Path)
      requires cwd == path && Progress(commands, versioned, c0, v0, adds, done)
      modifies this
      ensures cwd == path && cvsroot == old(cvsroot) && files == old(files)
      ensures forall x | x in adds' :: x in adds || (rc(x) == 0 && PrefixOf(x, dirName))
      ensures ok ==> Progress(commands, versioned, c0, v0, adds', done + [dirName])
      ensures !ok ==> Failed(commands, versioned, c0, v0, adds', failed, rc) && PrefixOf(failed, dirName)
      decreases |dirName|, 1
    {
      ok, adds', failed := AddParent(dirName, rc, c0, v0, adds, done);
      if ok && dirName !in versioned {
        AddStep(c0, v0, adds', done, commands, versioned, dirName);
        commands := commands + [CvsAdd([dirName])];
        if rc(dirName) != 0 {
          ok, failed := false, dirName;
        } else {
          versioned := versioned + {dirName};
          adds' := adds' + [dirName];
        }
      }
      if ok {
        DoneStep(c0, v0, adds', done, commands, versioned, dirName);
      }
    }
  }
}

=== FILE: git_area.dfy ===
/**
 * The Git side of an import, as the importer sees it: one clone with its
 * local branches, its remote-tracking branches (the `origin/` branches as last fetched),
 * the origin's own branches, the checked-out branch and the working tree.
 * A branch tip is the tree it records; there is no commit history.  Every
 * Git command the importer runs is recorded in `log`.
 */
module GitArea {
  /** A tree of files: path -> lines. */
  type Tree = map<string, seq<string>>

  datatype GitOp =
    | CloneOp
    | CheckoutOp(branch: string)
    | CheckoutTrackingOp(branch: string)
    | CheckoutOrphanOp(branch: string)
    | FetchOp
    | FastForwardOp(branch: string)
    | PristineOp
    | AddAllOp
    | CommitOp(branch: string, message: string)
    | PushOp(branch: string)
    | PreHooksOp(branch: string)
    | PostHooksOp(branch: string)
    | MergeOp(source: string, target: string, message: string, rc: int)
    | MailOp(subject: string)

  /** The prefix `git branch -a` puts before a remote-tracking branch. */
  const RemotePrefix := "remotes/origin/"

  /** Only a commit of `b` or a clean merge into `b` gives a push of `b` something to publish. */
  predicate Justifies(op: GitOp, b: string)
  {
    (op.CommitOp? && op.branch == b) || (op.MergeOp? && op.target == b && op.rc == 0)
  }

  /** Every push in the log directly follows a commit of, or a clean merge into, the pushed branch. */
  ghost predicate PushesJustified(log: seq<GitOp>)
  {
    forall k | 0 <= k < |log| && log[k].PushOp? :: k > 0 && Justifies(log[k - 1], log[k].branch)
  }

  /** The refs of a repository and whether it is cloned: what the importer's branch logic looks at. */
  datatype RepoState = RepoState(cloned: bool, local: map<string, Tree>, tracking: map<string, Tree>,
                                 remote: map<string, Tree>, current: string)

  /** The output of `git branch -a`: local branches, then remote-tracking ones under `remotes/origin/`. */
  function BranchListing(local: set<string>, tracking: set<string>): (r: set<string>)
    ensures forall b | b in local :: b in r
    ensures forall b | b in tracking :: RemotePrefix + b in r
    ensures forall s | s in r :: s in local || (|RemotePrefix| <= |s| && s[..|RemotePrefix|] == RemotePrefix && s[|RemotePrefix|..] in tracking)
  {
    local + set b | b in tracking :: RemotePrefix + b
  }

  lemma PushesJustifiedExtend(log: seq<GitOp>, op: GitOp)
    requires PushesJustified(log)
    requires op.PushOp? ==> |log| > 0 && Justifies(log[|log| - 1], op.branch)
    ensures PushesJustified(log + [op])
  {
  }

  class GitRepo {
    /** The local clone directory exists. */
    var cloned: bool
    /** Local branches (`refs/heads`). */
    var local: map<string, Tree>
    /** Remote-tracking branches (`refs/remotes/origin`). */
    var tracking: map<string, Tree>
    /** The branches of the `origin` repository itself. */
    var remote: map<string, Tree>
    /** The checked-out branch; it need not exist in `local` yet (an unborn branch). */
    var current: string
    var worktree: Tree
    var log: seq<GitOp>

    ghost predicate Valid()
      reads this
    {
      PushesJustified(log)
    }

    constructor (cloned: bool, local: map<string, Tree>, tracking: map<string, Tree>, remote: map<string, Tree>,
                 current: string, worktree: Tree)
      ensures this.cloned == cloned && this.local == local && this.tracking == tracking && this.remote == remote
      ensures this.current == current && this.worktree == worktree && this.log == []
      ensures Valid()
    {
      this.cloned := cloned;
      this.local := local;
      this.tracking := tracking;
      this.remote := remote;
      this.current := current;
      this.worktree := worktree;
      this.log := [];
    }

    /** The tree the checked-out branch records; an unborn branch records nothing. */
    function Head(): (t: Tree)
      reads this
      ensures current !in local ==> t == map[]
    {
      if current in local then local[current] else map[]
    }

    /** `refs()` has something to report. */
    function HasRefs(): (r: bool)
      reads this
      ensures r <==> exists b :: b in local || b in tracking
    {
      if |local| > 0 then (var b :| b in local; true)
      else if |tracking| > 0 then (var b :| b in tracking; true)
      else false
    }

    /** `branches()`: the output of `git branch -a`. */
    function Branches(): set<string>
      reads this
    {
      BranchListing(local.Keys, tracking.Keys)
    }

    /** The refs as a value. */
    function State(): RepoState
      reads this
    {
      RepoState(cloned, local, tracking, remote, current)
    }

    /** `status()` reports a change: the working tree differs from what the checked-out branch records. */
    function Status(): (changed: bool)
      reads this
      ensures changed <==> worktree != Head()
    {
      worktree != Head()
    }

    /** `clone`: the origin's branches become tracked; `master` is checked out when the origin has one. */
    method Clone()
      requires Valid()
      modifies this
      ensures Valid()
      ensures cloned && tracking == remote == old(remote) && current == "master"
      ensures local == (if "master" in remote then map["master" := remote["master"]] else map[])
      ensures worktree == Head() && log == old(log) + [CloneOp]
    {
      cloned := true;
      tracking := remote;
      local := if "master" in remote then map["master" := remote["master"]] else map[];
      current := "master";
      worktree := Head();
      PushesJustifiedExtend(log, CloneOp);
      log := log + [CloneOp];
    }

    /**
     * `checkout(b)`: switches to a local branch, or creates it from
     * `origin/b` when only that exists; fails when neither exists.
     */
    method Checkout(b: string) returns (ok: bool)
      requires Valid()
      modifies this
      ensures Valid()
      ensures ok <==> b in old(local) || b in old(tracking)
      ensures ok ==> current == b && local == old(local)[b := if b in old(local) then old(local)[b] else old(tracking)[b]]
      ensures ok ==> worktree == local[b]
      ensures !ok ==> current == old(current) && local == old(local) && worktree == old(worktree)
      ensures cloned == old(cloned) && tracking == old(tracking) && remote == old(remote)
      ensures log == old(log) + [CheckoutOp(b)]
    {
      PushesJustifiedExtend(log, CheckoutOp(b));
      log := log + [CheckoutOp(b)];
      if b in local {
        current := b;
        worktree := local[b];
        ok := true;
      } else if b in tracking {
        local := local[b := tracking[b]];
        current := b;
        worktree := local[b];
        ok := true;
      } else {
        ok := false;
      }
    }

    /** `checkoutTracking(b)`: a new local branch starting at `origin/b`; fails when there is none. */
    method CheckoutTracking(b: string) returns (ok: bool)
      requires Valid()
      modifies this
      ensures Valid()
      ensures ok <==> b in old(tracking)
      ensures ok ==> local == old(local)[b := old(tracking)[b]] && current == b && worktree == local[b]
      ensures !ok ==> local == old(local) && current == old(current) && worktree == old(worktree)
      ensures cloned == old(cloned) && tracking == old(tracking) && remote == old(remote)
      ensures log == old(log) + [CheckoutTrackingOp(b)]
    {
      ok := b in tracking;
      if ok {
        local := local[b := tracking[b]];
        current := b;
        worktree := local[b];
      }
      PushesJustifiedExtend(log, CheckoutTrackingOp(b));
      log := log + [CheckoutTrackingOp(b)];
    }

    /** `checkoutNewImportBranch(b)`: an orphan branch with an empty tree and no commit yet. */
    method CheckoutNewImportBranch(b: string)
      requires Valid() && b !in local
      modifies this
      ensures Valid()
      ensures current == b && worktree == map[] && Head() == map[]
      ensures cloned == old(cloned) && local == old(local) && tracking == old(tracking) && remote == old(remote)
      ensures log == old(log) + [CheckoutOrphanOp(b)]
    {
      current := b;
      worktree := map[];
      PushesJustifiedExtend(log, CheckoutOrphanOp(b));
      log := log + [CheckoutOrphanOp(b)];
    }

    /** `fetch`: the remote-tracking branches catch up with the origin (nothing is pruned). */
    method Fetch()
      requires Valid()
      modifies this
      ensures Valid()
      ensures tracking == old(tracking) + old(remote)
      ensures cloned == old(cloned) && local == old(local) && remote == old(remote)
      ensures current == old(current) && worktree == old(worktree) && log == old(log) + [FetchOp]
    {
      tracking := tracking + remote;
      PushesJustifiedExtend(log, FetchOp);
      log := log + [FetchOp];
    }

    /**
     * `mergeFastForward('origin/' + b)`: the checked-out branch moves to the
     * tip of `origin/b`; it fails when there is no such branch.
     */
    method MergeFastForward(b: string) returns (ok: bool)
      requires Valid()
      modifies this
      ensures Valid()
      ensures ok <==> b in old(tracking)
      ensures ok ==> local == old(local)[old(current) := old(tracking)[b]] && worktree == old(tracking)[b]
      ensures !ok ==> local == old(local) && worktree == old(worktree)
      ensures cloned == old(cloned) && tracking == old(tracking) && remote == old(remote) && current == old(current)
      ensures log == old(log) + [FastForwardOp(b)]
    {
      PushesJustifiedExtend(log, FastForwardOp(b));
      log := log + [FastForwardOp(b)];
      ok := b in tracking;
      if ok {
        local := local[current := tracking[b]];
        worktree := tracking[b];
      }
    }

    /** `pristine`: every uncommitted change and every untracked or ignored file is discarded. */
    method Pristine()
      requires Valid()
      modifies this
      ensures Valid()
      ensures worktree == Head()
      ensures cloned == old(cloned) && local == old(local) && tracking == old(tracking) && remote == old(remote)
      ensures current == old(current) && log == old(log) + [PristineOp]
    {
      worktree := Head();
      PushesJustifiedExtend(log, PristineOp);
      log := log + [PristineOp];
    }

    /** `listContentFiles`: the files the checked-out branch tracks. */
    function ContentFiles(): (r: set<string>)
      reads this
      ensures r == Head().Keys
    {
      Head().Keys
    }

    /** `os.remove` of one file in the working tree. */
    method RemoveFile(path: string)
      requires path in worktree
      modifies this
      ensures worktree == old(worktree) - {path}
      ensures cloned == old(cloned) && local == old(local) && tracking == old(tracking) && remote == old(remote)
      ensures current == old(current) && log == old(log)
    {
      worktree := worktree - {path};
    }

    /** `copyTree` / `copyFiles` into the working tree: copied files overwrite same-named ones. */
    method CopyIn(files: Tree)
      modifies this
      ensures worktree == old(worktree) + files
      ensures cloned == old(cloned) && local == old(local) && tracking == old(tracking) && remote == old(remote)
      ensures current == old(current) && log == old(log)
    {
      worktree := worktree + files;
    }

    /** `addAll`: stages the whole working tree (line-ending normalisation is not modelled). */
    method AddAll()
      requires Valid()
      modifies this
      ensures Valid()
      ensures cloned == old(cloned) && local == old(local) && tracking == old(tracking) && remote == old(remote)
      ensures current == old(current) && worktree == old(worktree) && log == old(log) + [AddAllOp]
    {
      PushesJustifiedExtend(log, AddAllOp);
      log := log + [AddAllOp];
    }

    /** `commit(message)`: the checked-out branch now records the working tree. */
    method Commit(message: string)
      requires Valid()
      modifies this
      ensures Valid()
      ensures local == old(local)[old(current) := old(worktree)] && Head() == worktree
      ensures cloned == old(cloned) && tracking == old(tracking) && remote == old(remote)
      ensures current == old(current) && worktree == old(worktree) && log == old(log) + [CommitOp(old(current), message)]
    {
      local := local[current := worktree];
      PushesJustifiedExtend(log, CommitOp(current, message));
      log := log + [CommitOp(current, message)];
    }

    /**
     * `push('origin', b, b)`: the origin's branch and its remote-tracking
     * branch take the local tip.  Only a commit of `b` or a clean merge into
     * `b` may come directly before.
     */
    method Push(b: string)
      requires Valid() && b in local
      requires |log| > 0 && Justifies(log[|log| - 1], b)
      modifies this
      ensures Valid()
      ensures remote == old(remote)[b := old(local)[b]] && tracking == old(tracking)[b := old(local)[b]]
      ensures cloned == old(cloned) && local == old(local) && current == old(current) && worktree == old(worktree)
      ensures log == old(log) + [PushOp(b)]
    {
      remote := remote[b := local[b]];
      tracking := tracking[b := local[b]];
      PushesJustifiedExtend(log, PushOp(b));
      log := log + [PushOp(b)];
    }

    /** `runImpPreHooks(b)`: the hooks may edit the working tree arbitrarily (`hook` says how). */
    method RunPreHooks(b: string, hook: (string, Tree) -> Tree)
      requires Valid()
      modifies this
      ensures Valid()
      ensures worktree == hook(b, old(worktree))
      ensures cloned == old(cloned) && local == old(local) && tracking == old(tracking) && remote == old(remote)
      ensures current == old(current) && log == old(log) + [PreHooksOp(b)]
    {
      worktree := hook(b, worktree);
      PushesJustifiedExtend(log, PreHooksOp(b));
      log := log + [PreHooksOp(b)];
    }

    /** `runImpPostHooks(b)`: recorded only. */
    method RunPostHooks(b: string)
      requires Valid()
      modifies this
      ensures Valid()
      ensures cloned == old(cloned) && local == old(local) && tracking == old(tracking) && remote == old(remote)
      ensures current == old(current) && worktree == old(worktree) && log == old(log) + [PostHooksOp(b)]
    {
      PushesJustifiedExtend(log, PostHooksOp(b));
      log := log + [PostHooksOp(b)];
    }

    /**
     * `mergeDefault(source, message)` into the checked-out branch.  The exit
     * status comes from `rc`; a branch that was never committed cannot be
     * merged and fails.  A clean merge records `merged(target tip, source tip)`.
     */
    method MergeDefault(source: string, message: string, rc: (string, string) -> int, merged: (Tree, Tree) -> Tree)
      returns (status: int)
      requires Valid()
      modifies this
      ensures Valid()
      ensures status == (if source in old(local) then rc(source, old(current)) else 1)
      ensures status == 0 ==> local == old(local)[old(current) := merged(old(Head()), old(local)[source])]
      ensures status == 0 ==> worktree == local[old(current)]
      ensures status != 0 ==> local == old(local) && worktree == old(worktree)
      ensures cloned == old(cloned) && tracking == old(tracking) && remote == old(remote) && current == old(current)
      ensures log == old(log) + [MergeOp(source, old(current), message, status)]
    {
      status := if source in local then rc(source, current) else 1;
      if status == 0 {
        local := local[current := merged(Head(), local[source])];
        worktree := local[current];
      }
      PushesJustifiedExtend(log, MergeOp(source, current, message, status));
      log := log + [MergeOp(source, current, message, status)];
    }

    /** `log.mailLastOutput(subject)`: recorded only. */
    method Mail(subject: string)
      requires Valid()
      modifies this
      ensures Valid()
      ensures cloned == old(cloned) && local == old(local) && tracking == old(tracking) && remote == old(remote)
      ensures current == old(current) && worktree == old(worktree) && log == old(log) + [MailOp(subject)]
    {
      PushesJustifiedExtend(log, MailOp(subject));
      log := log + [MailOp(subject)];
    }
  }
}

=== FILE: importer.dfy ===
/**
 * The import cycle (`Importer` in gitcvs/cvsimport.py): one CVS branch
 * export is turned into the content of one Git branch, committed and pushed
 * when it differs, and then merged down the repository's merge graph.
 */
module CvsImport {
  import opened Common
  import opened GitArea
  import opened MergeGraph
  import CvsKeywords

  /** The message of the bootstrap commit on `master`. */
  const BootstrapMessage := "create new empty master branch"

  /** Why an import of one branch pair raised. */
  datatype Failure =
    | EmptyExport
    | GitCommandFailed
    | MergeFailed

  /** A call to the error handler with the repository and the configured disposition. */
  datatype Report = Report(repository: string, onerror: string)

  /**
   * One entry of the repository's import branch map, with what the outside
   * world supplies for it: the files `cvs export` produced for `cvsbranch`
   * and the time of day the commit message quotes.
   */
  datatype BranchImport = BranchImport(cvsbranch: string, gitbranch: string, exportedFiles: Tree, timestamp: string)

  /** The three ways `importcvs` gets the Git branch ready. */
  datatype BranchCase = TrackRemote | NewOrphan | UpdateLocal

  /** Branch selection on the output of `git branch -a`. */
  function SelectCase(branches: set<string>, gitbranch: string): (c: BranchCase)
    ensures c == UpdateLocal <==> gitbranch in branches
    ensures c == TrackRemote <==> gitbranch !in branches && RemotePrefix + gitbranch in branches
    ensures c == NewOrphan <==> gitbranch !in branches && RemotePrefix + gitbranch !in branches
  {
    if gitbranch !in branches then
      if RemotePrefix + gitbranch in branches then TrackRemote else NewOrphan
    else UpdateLocal
  }

  /** No local branch name looks like a remote-tracking entry of `git branch -a`. */
  predicate PlainNames(local: set<string>)
  {
    forall b | b in local :: !StartsWith(b, RemotePrefix)
  }

  /**
   * With ordinary branch names, the three cases are exactly: the branch is
   * local; only `origin/<b>` exists; neither exists.
   */
  lemma CaseFromRefs(local: set<string>, tracking: set<string>, gitbranch: string)
    requires PlainNames(local) && !StartsWith(gitbranch, RemotePrefix)
    ensures SelectCase(BranchListing(local, tracking), gitbranch) ==
      if gitbranch in local then UpdateLocal
      else if gitbranch in tracking then TrackRemote
      else NewOrphan
  {
    var prefixed := RemotePrefix + gitbranch;
    forall y | y in tracking
      ensures RemotePrefix + y != gitbranch
      ensures RemotePrefix + y == prefixed ==> y == gitbranch
    {
      assert (RemotePrefix + y)[..|RemotePrefix|] == RemotePrefix;
      assert (RemotePrefix + y)[|RemotePrefix|..] == y;
      assert prefixed[|RemotePrefix|..] == gitbranch;
    }
    assert prefixed[..|RemotePrefix|] == RemotePrefix;
  }

  /** The tree of the bootstrap commit: the skeleton, or a `.gitignore` holding the export's `.cvsignore` (empty when there is none). */
  function BootstrapTree(skeleton: Option<Tree>, exported: Tree): (t: Tree)
    ensures skeleton.Some? ==> t == skeleton.value
    ensures skeleton.None? ==> t.Keys == {".gitignore"}
    ensures skeleton.None? && ".cvsignore" in exported ==> t[".gitignore"] == exported[".cvsignore"]
    ensures skeleton.None? && ".cvsignore" !in exported ==> t[".gitignore"] == []
  {
    match skeleton
    case Some(files) => files
    case None => map[".gitignore" := if ".cvsignore" in exported then exported[".cvsignore"] else []]
  }

  /** The working tree after the wipe and the copy: the export, with the skeleton on top for a new branch. */
  function ImportTree(exported: Tree, skeleton: Option<Tree>, addSkeleton: bool): (t: Tree)
    ensures t.Keys == exported.Keys + (if addSkeleton && skeleton.Some? then skeleton.value.Keys else {})
    ensures forall p | p in t :: t[p] == if addSkeleton && skeleton.Some? && p in skeleton.value then skeleton.value[p] else exported[p]
  {
    if addSkeleton && skeleton.Some? then exported + skeleton.value else exported
  }

  /** The commit decision: there is a change before the pre-import hooks run and still one after. */
  predicate ShouldCommit(gitbranch: string, imported: Tree, head: Tree, hook: (string, Tree) -> Tree)
  {
    imported != head && hook(gitbranch, imported) != head
  }

  /** What the branch records once the commit decision is made. */
  function Recorded(gitbranch: string, imported: Tree, head: Tree, hook: (string, Tree) -> Tree): (t: Tree)
    ensures t == head || t == hook(gitbranch, imported)
    ensures t == head <==> !ShouldCommit(gitbranch, imported, head, hook) || hook(gitbranch, imported) == head
  {
    if ShouldCommit(gitbranch, imported, head, hook) then hook(gitbranch, imported) else head
  }

  /** A file that is in neither the export nor the skeleton is not in the imported tree: deleting it in CVS deletes it in Git. */
  lemma DeletionByOmission(exported: Tree, skeleton: Option<Tree>, addSkeleton: bool, path: string)
    requires path !in exported
    requires addSkeleton && skeleton.Some? ==> path !in skeleton.value
    ensures path !in ImportTree(exported, skeleton, addSkeleton)
  {
  }

  /** The imported tree depends only on the export (and skeleton): nothing carries over from the branch or from another branch. */
  lemma ImportTreeIgnoresHistory(exported: Tree, skeleton: Option<Tree>, addSkeleton: bool)
    ensures !addSkeleton || skeleton.None? ==> ImportTree(exported, skeleton, addSkeleton) == exported
  {
  }

  /** The tree branch `b` records in `branches`; a branch that does not exist records nothing. */
  function Tip(branches: map<string, Tree>, b: string): (t: Tree)
    ensures b !in branches ==> t == map[]
  {
    if b in branches then branches[b] else map[]
  }

  lemma PrefixTrans(a: seq<GitOp>, b: seq<GitOp>, c: seq<GitOp>)
    requires a <= b && b <= c
    ensures a <= c
  {
    assert a == b[..|a|] == c[..|b|][..|a|] == c[..|a|];
  }

  lemma PrefixSlice(a: seq<GitOp>, d: seq<GitOp>, c: seq<GitOp>)
    requires a + d <= c
    ensures |c| >= |a| + |d| && c[|a|..|a| + |d|] == d
  {
    assert c[..|a| + |d|] == a + d;
    assert c[|a|..|a| + |d|] == c[..|a| + |d|][|a|..];
  }

  /** The error handler's calls for a run of imports: one per pair that raised, in order. */
  function ReportsFor(repository: string, onerror: string, outcomes: seq<Option<Failure>>): (r: seq<Report>)
    ensures |r| <= |outcomes|
    ensures forall k | 0 <= k < |r| :: r[k] == Report(repository, onerror)
    ensures r == [] <==> forall k | 0 <= k < |outcomes| :: outcomes[k].None?
  {
    if outcomes == [] then []
    else ReportsFor(repository, onerror, outcomes[..|outcomes| - 1])
         + (if outcomes[|outcomes| - 1].Some? then [Report(repository, onerror)] else [])
  }

  /** One more outcome adds one more report exactly when it is a failure. */
  lemma ReportsForAppend(repository: string, onerror: string, outcomes: seq<Option<Failure>>, o: Option<Failure>)
    ensures ReportsFor(repository, onerror, outcomes + [o])
         == ReportsFor(repository, onerror, outcomes) + (if o.Some? then [Report(repository, onerror)] else [])
  {
    assert (outcomes + [o])[..|outcomes|] == outcomes;
  }

  /** Every branch ranked at or above `r`, and every branch with no rank, is as in `before`. */
  ghost predicate UnchangedAbove(after: map<string, Tree>, before: map<string, Tree>, rank: map<string, nat>, r: nat)
  {
    forall x | x !in rank || rank[x] >= r :: (x in after <==> x in before) && (x in after ==> after[x] == before[x])
  }

  /** A change confined to `t`, ranked below `hi`, is invisible from rank `hi` upwards. */
  lemma UnchangedAboveUpdate(after: map<string, Tree>, before: map<string, Tree>, rank: map<string, nat>,
                             t: string, v: Tree, lo: nat, hi: nat)
    requires UnchangedAbove(after, before[t := v], rank, lo)
    requires t in rank && rank[t] < hi && lo <= hi
    ensures UnchangedAbove(after, before, rank, hi)
  {
  }

  lemma UnchangedAboveTrans(a: map<string, Tree>, b: map<string, Tree>, c: map<string, Tree>, rank: map<string, nat>, r: nat)
    requires UnchangedAbove(a, b, rank, r) && UnchangedAbove(b, c, rank, r)
    ensures UnchangedAbove(a, c, rank, r)
  {
  }

  /** Every branch other than `b` that is ranked at or above `b`, or has no rank, is as in `before`. */
  ghost predicate OthersKept(after: map<string, Tree>, before: map<string, Tree>, rank: map<string, nat>, b: string)
  {
    forall x | x != b && (x !in rank || rank[x] >= Rank(rank, b)) ::
      (x in after <==> x in before) && (x in after ==> after[x] == before[x])
  }

  /** A change to `b` alone (when `changed`), then changes below `b` only, keep every other branch at or above `b`. */
  lemma OthersKeptThrough(after: map<string, Tree>, mid: map<string, Tree>, before: map<string, Tree>,
                          rank: map<string, nat>, b: string, changed: bool)
    requires if changed then b in mid && mid == before[b := mid[b]] else mid == before
    requires UnchangedAbove(after, mid, rank, Rank(rank, b))
    ensures OthersKept(after, before, rank, b)
  {
  }

  /** A change to `b` alone (when `changed`), then a change that keeps the others, keeps the others. */
  lemma OthersKeptAfter(after: map<string, Tree>, mid: map<string, Tree>, before: map<string, Tree>,
                        rank: map<string, nat>, b: string, changed: bool)
    requires if changed then b in mid && mid == before[b := mid[b]] else mid == before
    requires OthersKept(after, mid, rank, b)
    ensures OthersKept(after, before, rank, b)
  {
  }

  /** Moving `t` from the branches still to visit to the visited ones keeps them complementary. */
  lemma VisitOne(all: set<string>, todo: set<string>, done: set<string>, t: string)
    requires todo <= all && done == all - todo && t in todo
    ensures done + {t} == all - (todo - {t})
  {
  }

  /** One edge of the propagation raises: its target has no `origin/` branch, or the descent from it raises. */
  ghost predicate EdgeRaises(g: Graph, rank: map<string, nat>, rc: Rc, b: string, born: bool, t: string, onOrigin: set<string>)
    requires Ranked(g, rank)
  {
    t !in onOrigin || (t in Descend(g, rc, b, born) && Raises(g, rank, rc, t, true, onOrigin))
  }

  /** One edge of the propagation succeeds: the merge was clean and so was everything below it. */
  ghost predicate EdgeOk(g: Graph, rank: map<string, nat>, rc: Rc, b: string, born: bool, t: string)
    requires Ranked(g, rank)
  {
    t in Descend(g, rc, b, born) && MergeOk(g, rank, rc, t, true)
  }

  /** The propagation from `b` raises exactly when one of its edges does. */
  lemma RaisesByEdges(g: Graph, rank: map<string, nat>, rc: Rc, b: string, born: bool, onOrigin: set<string>)
    requires Ranked(g, rank)
    ensures Raises(g, rank, rc, b, born, onOrigin) <==> exists t | t in Targets(g, b) :: EdgeRaises(g, rank, rc, b, born, t, onOrigin)
  {
    if Raises(g, rank, rc, b, born, onOrigin) {
      var x :| x in Reached(g, rank, rc, b, born) && x !in onOrigin;
      if x !in Targets(g, b) {
        var t :| t in Descend(g, rc, b, born) && x in Reached(g, rank, rc, t, true);
        assert EdgeRaises(g, rank, rc, b, born, t, onOrigin);
      } else {
        assert EdgeRaises(g, rank, rc, b, born, x, onOrigin);
      }
    }
    if exists t | t in Targets(g, b) :: EdgeRaises(g, rank, rc, b, born, t, onOrigin) {
      var t :| t in Targets(g, b) && EdgeRaises(g, rank, rc, b, born, t, onOrigin);
      if t !in onOrigin {
        assert t in Reached(g, rank, rc, b, born);
      } else {
        var x :| x in Reached(g, rank, rc, t, true) && x !in onOrigin;
        assert x in Reached(g, rank, rc, b, born);
      }
    }
  }

  /** A raising edge makes the propagation raise. */
  lemma EdgeRaisesAll(g: Graph, rank: map<string, nat>, rc: Rc, b: string, born: bool, t: string, onOrigin: set<string>)
    requires Ranked(g, rank) && t in Targets(g, b) && EdgeRaises(g, rank, rc, b, born, t, onOrigin)
    ensures Raises(g, rank, rc, b, born, onOrigin)
  {
    RaisesByEdges(g, rank, rc, b, born, onOrigin);
  }

  /** When no edge raises, the propagation does not raise, and it succeeds exactly when every edge does. */
  lemma NoEdgeRaises(g: Graph, rank: map<string, nat>, rc: Rc, b: string, born: bool, onOrigin: set<string>)
    requires Ranked(g, rank) && forall t | t in Targets(g, b) :: !EdgeRaises(g, rank, rc, b, born, t, onOrigin)
    ensures !Raises(g, rank, rc, b, born, onOrigin)
    ensures MergeOk(g, rank, rc, b, born) == forall t | t in Targets(g, b) :: EdgeOk(g, rank, rc, b, born, t)
  {
    RaisesByEdges(g, rank, rc, b, born, onOrigin);
  }

  /**
   * The branch case `importcvs` picks in repository state `s`, read off the
   * refs: `gitbranch` is listed when it is a local branch or names a
   * remote-tracking one as `remotes/origin/<b>`, and `remotes/origin/<b>` is
   * listed when it is a local branch or `<b>` is remote-tracking.
   */
  function CaseOf(s: RepoState, gitbranch: string): BranchCase
  {
    if gitbranch in s.local || (StartsWith(gitbranch, RemotePrefix) && gitbranch[|RemotePrefix|..] in s.tracking) then UpdateLocal
    else if RemotePrefix + gitbranch in s.local || gitbranch in s.tracking then TrackRemote
    else NewOrphan
  }

  /** `CaseOf` is the case `SelectCase` picks on the output of `git branch -a` in state `s`. */
  lemma CaseOfListing(s: RepoState, gitbranch: string)
    ensures CaseOf(s, gitbranch) == SelectCase(BranchListing(s.local.Keys, s.tracking.Keys), gitbranch)
  {
    if StartsWith(gitbranch, RemotePrefix) && gitbranch[|RemotePrefix|..] in s.tracking {
      assert RemotePrefix + gitbranch[|RemotePrefix|..] == gitbranch;
    }
    var prefixed := RemotePrefix + gitbranch;
    assert prefixed[..|RemotePrefix|] == RemotePrefix;
    assert prefixed[|RemotePrefix|..] == gitbranch;
  }

  /** The `checkout` that opens the local case succeeds: it is skipped for the current branch, or finds the branch. */
  predicate CheckedOut(s: RepoState, gitbranch: string)
  {
    s.current == gitbranch || gitbranch in s.local || gitbranch in s.tracking
  }

  /**
   * Branch selection raises nothing: `checkoutTracking` finds `origin/<b>`;
   * or `checkout` (skipped when the branch is current) finds the branch and
   * the fast-forward after the fetch finds `origin/<b>`.
   */
  predicate SelectOk(s: RepoState, gitbranch: string)
  {
    match CaseOf(s, gitbranch)
    case TrackRemote => gitbranch in s.tracking
    case NewOrphan => true
    case UpdateLocal => CheckedOut(s, gitbranch) && (gitbranch in s.tracking || gitbranch in s.remote)
  }

  /** What the selected branch records before the commit decision: its origin's tip, or nothing for a new orphan branch. */
  function SelectedTip(s: RepoState, gitbranch: string): Tree
  {
    match CaseOf(s, gitbranch)
    case TrackRemote => Tip(s.tracking, gitbranch)
    case NewOrphan => map[]
    case UpdateLocal => Tip(s.tracking + s.remote, gitbranch)
  }

  /** The branches with a remote-tracking counterpart after selection: the local case fetches. */
  function SelectedOrigins(s: RepoState, gitbranch: string): set<string>
  {
    if CaseOf(s, gitbranch) == UpdateLocal then s.tracking.Keys + s.remote.Keys else s.tracking.Keys
  }

  /**
   * The remote-tracking branches after selection, whether or not it raised:
   * the local case fetches once its `checkout` succeeded, even when the
   * fast-forward then raises; a raising `checkout` or `checkoutTracking`
   * changes nothing.
   */
  function FetchedTracking(s: RepoState, gitbranch: string): map<string, Tree>
  {
    if CaseOf(s, gitbranch) == UpdateLocal && CheckedOut(s, gitbranch) then s.tracking + s.remote else s.tracking
  }

  /** The working tree the import prepares: the skeleton goes only into a new orphan branch. */
  function Imported(s: RepoState, exported: Tree, skeleton: Option<Tree>, gitbranch: string): Tree
  {
    ImportTree(exported, skeleton, CaseOf(s, gitbranch) == NewOrphan)
  }

  /** The import into a cloned repository in state `s` commits: selection succeeds and the commit decision finds a change. */
  predicate Commits(s: RepoState, exported: Tree, skeleton: Option<Tree>, gitbranch: string, hook: (string, Tree) -> Tree)
  {
    SelectOk(s, gitbranch) && ShouldCommit(gitbranch, Imported(s, exported, skeleton, gitbranch), SelectedTip(s, gitbranch), hook)
  }

  /** How `merge` from `b` ends as seen by `importcvs`: it raises, succeeds, or fails and `importcvs` raises after `pristine`. */
  ghost function MergeOutcome(g: Graph, rank: map<string, nat>, rc: Rc, b: string, born: bool, onOrigin: set<string>): Option<Failure>
    requires Ranked(g, rank)
  {
    if Raises(g, rank, rc, b, born, onOrigin) then Some(GitCommandFailed)
    else if MergeOk(g, rank, rc, b, born) then None
    else Some(MergeFailed)
  }

  /**
   * How the import of `exported` into a cloned repository in state `s`
   * ends: selection raises, or the merge propagation runs (whether or not
   * there was a commit) from the branch as the commit left it.
   */
  ghost function BranchOutcome(g: Graph, rank: map<string, nat>, rc: Rc, s: RepoState, exported: Tree, skeleton: Option<Tree>,
                               gitbranch: string, hook: (string, Tree) -> Tree): Option<Failure>
    requires Ranked(g, rank)
  {
    if !SelectOk(s, gitbranch) then Some(GitCommandFailed)
    else
      var committed := Commits(s, exported, skeleton, gitbranch, hook);
      MergeOutcome(g, rank, rc, gitbranch, CaseOf(s, gitbranch) != NewOrphan || committed,
                   SelectedOrigins(s, gitbranch) + if committed then {gitbranch} else {})
  }

  /** The state after the bootstrap: a clone, and for an origin without branches a pushed `master` holding `tree`. */
  function Bootstrapped(s: RepoState, tree: Tree): RepoState
  {
    if s.cloned then s
    else if s.remote == map[] then
      RepoState(true, map["master" := tree], map["master" := tree], map["master" := tree], "master")
    else
      RepoState(true, if "master" in s.remote then map["master" := s.remote["master"]] else map[], s.remote, s.remote, "master")
  }

  /** The state in which `importcvs` selects the branch: the export cleaned and the repository bootstrapped. */
  function Prepared(s: RepoState, exportedFiles: Tree, skeleton: Option<Tree>): RepoState
  {
    Bootstrapped(s, BootstrapTree(skeleton, CvsKeywords.CleanTree(exportedFiles)))
  }

  /** How `importcvs` of `exportedFiles` from state `s` ends. */
  ghost function CvsOutcome(g: Graph, rank: map<string, nat>, rc: Rc, s: RepoState, exportedFiles: Tree, skeleton: Option<Tree>,
                            gitbranch: string, hook: (string, Tree) -> Tree): Option<Failure>
    requires Ranked(g, rank)
  {
    if exportedFiles == map[] then Some(EmptyExport)
    else BranchOutcome(g, rank, rc, Prepared(s, exportedFiles, skeleton), CvsKeywords.CleanTree(exportedFiles), skeleton, gitbranch, hook)
  }

  /** What `importcvs` of each of the first `|states|` pairs does, the `k`-th from `states[k]`. */
  ghost function ExpectedOutcomes(g: Graph, rank: map<string, nat>, rc: Rc, imports: seq<BranchImport>, skeleton: Option<Tree>,
                                  hook: (string, Tree) -> Tree, states: seq<RepoState>): (r: seq<Option<Failure>>)
    requires Ranked(g, rank) && |states| <= |imports|
    ensures |r| == |states|
    decreases |states|
  {
    if states == [] then []
    else
      var n := |states| - 1;
      ExpectedOutcomes(g, rank, rc, imports, skeleton, hook, states[..n])
      + [CvsOutcome(g, rank, rc, states[n], imports[n].exportedFiles, skeleton, imports[n].gitbranch, hook)]
  }

  /** The `k`-th expected outcome is the `k`-th pair's `importcvs` from `states[k]`. */
  lemma {:induction false} ExpectedOutcomeAt(g: Graph, rank: map<string, nat>, rc: Rc, imports: seq<BranchImport>,
                                             skeleton: Option<Tree>, hook: (string, Tree) -> Tree, states: seq<RepoState>, k: nat)
    requires Ranked(g, rank) && |states| <= |imports| && k < |states|
    ensures ExpectedOutcomes(g, rank, rc, imports, skeleton, hook, states)[k]
         == CvsOutcome(g, rank, rc, states[k], imports[k].exportedFiles, skeleton, imports[k].gitbranch, hook)
    decreases |states|
  {
    var n := |states| - 1;
    if k < n {
      ExpectedOutcomeAt(g, rank, rc, imports, skeleton, hook, states[..n], k);
      assert states[..n][k] == states[k];
    }
  }

  /** One more state adds that pair's outcome at the end. */
  lemma ExpectedOutcomesAppend(g: Graph, rank: map<string, nat>, rc: Rc, imports: seq<BranchImport>, skeleton: Option<Tree>,
                               hook: (string, Tree) -> Tree, states: seq<RepoState>, s: RepoState)
    requires Ranked(g, rank) && |states| < |imports|
    ensures ExpectedOutcomes(g, rank, rc, imports, skeleton, hook, states + [s])
         == ExpectedOutcomes(g, rank, rc, imports, skeleton, hook, states)
            + [CvsOutcome(g, rank, rc, s, imports[|states|].exportedFiles, skeleton, imports[|states|].gitbranch, hook)]
  {
    assert (states + [s])[..|states|] == states;
  }

  /**
   * What the import of pair `e` from `s` leaves, `t`: an empty export leaves
   * the repository alone; any other leaves it cloned, with every branch
   * other than `e.gitbranch` that the merge from it cannot reach as it was
   * once prepared (bootstrapped) and selection fetched, and, when selection
   * raised, every branch as selection left it.
   */
  ghost predicate PairLeaves(rank: map<string, nat>, skeleton: Option<Tree>, e: BranchImport, s: RepoState, t: RepoState)
  {
    if e.exportedFiles == map[] then t == s
    else
      var p := Prepared(s, e.exportedFiles, skeleton);
      t.cloned && OthersKept(t.local, p.local, rank, e.gitbranch) && OthersKept(t.remote, p.remote, rank, e.gitbranch) &&
      OthersKept(t.tracking, FetchedTracking(p, e.gitbranch), rank, e.gitbranch) &&
      (!SelectOk(p, e.gitbranch) ==>
         t.local == p.local && t.remote == p.remote && t.tracking == FetchedTracking(p, e.gitbranch))
  }

  /** Each state of a run is what the previous pair left. */
  ghost predicate StatesChain(rank: map<string, nat>, skeleton: Option<Tree>, imports: seq<BranchImport>, states: seq<RepoState>)
    requires |states| <= |imports|
  {
    forall k {:trigger imports[k]} | 0 <= k < |states| - 1 :: PairLeaves(rank, skeleton, imports[k], states[k], states[k + 1])
  }

  /** Exactly the empty exports raise `EmptyExport`. */
  ghost predicate EmptyFlagged(imports: seq<BranchImport>, outcomes: seq<Option<Failure>>)
    requires |outcomes| <= |imports|
  {
    forall k | 0 <= k < |outcomes| :: outcomes[k] == Some(EmptyExport) <==> imports[k].exportedFiles == map[]
  }

  /** The first `|outcomes|` pairs of a run of `importBranches`, `states[k]` being the repository as the `k`-th import finds it. */
  ghost predicate ImportedSoFar(g: Graph, rank: map<string, nat>, rc: Rc, imports: seq<BranchImport>, skeleton: Option<Tree>,
                                hook: (string, Tree) -> Tree, outcomes: seq<Option<Failure>>, states: seq<RepoState>)
    requires Ranked(g, rank)
  {
    |outcomes| == |states| <= |imports| &&
    outcomes == ExpectedOutcomes(g, rank, rc, imports, skeleton, hook, states) &&
    StatesChain(rank, skeleton, imports, states) && EmptyFlagged(imports, outcomes)
  }

  lemma StatesChainStep(rank: map<string, nat>, skeleton: Option<Tree>, imports: seq<BranchImport>, states: seq<RepoState>,
                        s: RepoState)
    requires |states| < |imports| && StatesChain(rank, skeleton, imports, states)
    requires |states| > 0 ==> PairLeaves(rank, skeleton, imports[|states| - 1], states[|states| - 1], s)
    ensures StatesChain(rank, skeleton, imports, states + [s])
  {
    var states' := states + [s];
    forall k {:trigger imports[k]} | 0 <= k < |states|
      ensures PairLeaves(rank, skeleton, imports[k], states'[k], states'[k + 1])
    {
      if k < |states| - 1 {
        assert states'[k + 1] == states[k + 1] && states'[k] == states[k];
      }
    }
  }

  lemma EmptyFlaggedStep(imports: seq<BranchImport>, outcomes: seq<Option<Failure>>, o: Option<Failure>)
    requires |outcomes| < |imports| && EmptyFlagged(imports, outcomes)
    requires o == Some(EmptyExport) <==> imports[|outcomes|].exportedFiles == map[]
    ensures EmptyFlagged(imports, outcomes + [o])
  {
    var outcomes' := outcomes + [o];
    forall k | 0 <= k < |outcomes'|
      ensures outcomes'[k] == Some(EmptyExport) <==> imports[k].exportedFiles == map[]
    {
      if k < |outcomes| {
        assert outcomes'[k] == outcomes[k];
      }
    }
  }

  /**
   * The repository at `now` continues a run that started at `before`: the
   * first import found `before`, and `now` is what the last one left.
   */
  ghost predicate RunFrom(rank: map<string, nat>, skeleton: Option<Tree>, imports: seq<BranchImport>, states: seq<RepoState>,
                          before: RepoState, now: RepoState)
    requires |states| <= |imports|
  {
    if states == [] then now == before
    else states[0] == before && PairLeaves(rank, skeleton, imports[|states| - 1], states[|states| - 1], now)
  }

  /** A run of `importBranches` that started at `before` has done its first `|outcomes|` pairs and left `now`. */
  ghost predicate ImportRun(g: Graph, rank: map<string, nat>, rc: Rc, imports: seq<BranchImport>, skeleton: Option<Tree>,
                            hook: (string, Tree) -> Tree, outcomes: seq<Option<Failure>>, states: seq<RepoState>,
                            before: RepoState, now: RepoState)
    requires Ranked(g, rank)
  {
    ImportedSoFar(g, rank, rc, imports, skeleton, hook, outcomes, states) && RunFrom(rank, skeleton, imports, states, before, now)
  }

  /** A whole run, stated pair by pair. */
  lemma ImportedPairwise(g: Graph, rank: map<string, nat>, rc: Rc, imports: seq<BranchImport>, skeleton: Option<Tree>,
                         hook: (string, Tree) -> Tree, outcomes: seq<Option<Failure>>, states: seq<RepoState>,
                         before: RepoState, now: RepoState)
    requires Ranked(g, rank) && ImportRun(g, rank, rc, imports, skeleton, hook, outcomes, states, before, now)
    ensures |outcomes| == |states| <= |imports|
    ensures |states| > 0 ==> states[0] == before
    ensures forall k | 0 <= k < |outcomes| ::
      outcomes[k] == CvsOutcome(g, rank, rc, states[k], imports[k].exportedFiles, skeleton, imports[k].gitbranch, hook)
    ensures forall k {:trigger imports[k]} | 0 <= k < |states| - 1 :: PairLeaves(rank, skeleton, imports[k], states[k], states[k + 1])
    ensures forall k | 0 <= k < |outcomes| :: outcomes[k] == Some(EmptyExport) <==> imports[k].exportedFiles == map[]
  {
    forall k | 0 <= k < |outcomes|
      ensures outcomes[k] == CvsOutcome(g, rank, rc, states[k], imports[k].exportedFiles, skeleton, imports[k].gitbranch, hook)
    {
      ExpectedOutcomeAt(g, rank, rc, imports, skeleton, hook, states, k);
    }
  }

  /** One more import, from the state the previous one left, extends the run. */
  lemma ImportedStep(g: Graph, rank: map<string, nat>, rc: Rc, imports: seq<BranchImport>, skeleton: Option<Tree>,
                     hook: (string, Tree) -> Tree, outcomes: seq<Option<Failure>>, states: seq<RepoState>,
                     n: nat, o: Option<Failure>, before: RepoState, s: RepoState, now: RepoState)
    requires Ranked(g, rank) && ImportRun(g, rank, rc, imports, skeleton, hook, outcomes, states, before, s)
    requires n == |outcomes| < |imports|
    requires o == CvsOutcome(g, rank, rc, s, imports[n].exportedFiles, skeleton, imports[n].gitbranch, hook)
    requires o == Some(EmptyExport) <==> imports[n].exportedFiles == map[]
    requires PairLeaves(rank, skeleton, imports[n], s, now)
    ensures ImportRun(g, rank, rc, imports, skeleton, hook, outcomes + [o], states + [s], before, now)
  {
    ExpectedOutcomesAppend(g, rank, rc, imports, skeleton, hook, states, s);
    StatesChainStep(rank, skeleton, imports, states, s);
    EmptyFlaggedStep(imports, outcomes, o);
  }

  /** `importcvs` of `exportedFiles` from state `s` commits. */
  predicate CvsCommits(s: RepoState, exportedFiles: Tree, skeleton: Option<Tree>, gitbranch: string, hook: (string, Tree) -> Tree)
  {
    exportedFiles != map[] &&
    Commits(Prepared(s, exportedFiles, skeleton), CvsKeywords.CleanTree(exportedFiles), skeleton, gitbranch, hook)
  }

  /**
   * With ordinary branch names, branch selection raises only for a local
   * branch that has no `origin/` branch, fetched or not.
   */
  lemma SelectFailsOnlyWithoutOrigin(s: RepoState, gitbranch: string)
    requires PlainNames(s.local.Keys) && !StartsWith(gitbranch, RemotePrefix)
    ensures !SelectOk(s, gitbranch) <==> gitbranch in s.local && gitbranch !in s.tracking && gitbranch !in s.remote
  {
    CaseFromRefs(s.local.Keys, s.tracking.Keys, gitbranch);
  }

  /**
   * Re-importing an unchanged export makes no commit.  The first import
   * `s0` committed and left the branch, locally and at the origin, holding
   * the hooked import of a branch that was not created with a skeleton (what
   * `ImportCvs` ensures); a second import of the same export from any state
   * `s1` that still has the branch so finds nothing to commit.
   */
  lemma ReimportMakesNoCommit(s0: RepoState, s1: RepoState, exportedFiles: Tree, skeleton: Option<Tree>,
                              gitbranch: string, hook: (string, Tree) -> Tree)
    requires CaseOf(Prepared(s0, exportedFiles, skeleton), gitbranch) != NewOrphan || skeleton.None?
    requires s1.cloned && gitbranch in s1.local && gitbranch in s1.remote
    requires s1.remote[gitbranch] ==
      hook(gitbranch, Imported(Prepared(s0, exportedFiles, skeleton), CvsKeywords.CleanTree(exportedFiles), skeleton, gitbranch))
    ensures !CvsCommits(s1, exportedFiles, skeleton, gitbranch, hook)
  {
    var exported := CvsKeywords.CleanTree(exportedFiles);
    assert Prepared(s1, exportedFiles, skeleton) == s1;
    assert CaseOf(s1, gitbranch) == UpdateLocal;
    assert Imported(s1, exported, skeleton, gitbranch) == exported;
    assert SelectedTip(s1, gitbranch) == s1.remote[gitbranch];
  }

  /** Every push in `log` from position `from` on publishes a branch in `allowed`. */
  ghost predicate PushesWithin(log: seq<GitOp>, from: nat, allowed: set<string>)
  {
    forall k | from <= k < |log| && log[k].PushOp? :: log[k].branch in allowed
  }

  lemma PushesWithinExtend(l1: seq<GitOp>, l2: seq<GitOp>, from: nat, allowed: set<string>)
    requires from <= |l1| && l1 <= l2
    requires PushesWithin(l1, from, allowed) && PushesWithin(l2, |l1|, allowed)
    ensures PushesWithin(l2, from, allowed)
  {
    assert forall k | from <= k < |l1| :: l2[k] == l1[k];
  }

  /** A log that grew by `x` and then by `y` grew by `x + y`. */
  lemma LogAppend(a: seq<GitOp>, x: seq<GitOp>, y: seq<GitOp>, b: seq<GitOp>, c: seq<GitOp>)
    requires b == a + x && c == b + y
    ensures c == a + (x + y)
  {
  }

  /** A log that grew by `x` and then by a run starting with `y` starts with `a + (x + y)`. */
  lemma LogPrefix(a: seq<GitOp>, x: seq<GitOp>, y: seq<GitOp>, b: seq<GitOp>, c: seq<GitOp>)
    requires b == a + x && b + y <= c
    ensures a + (x + y) <= c
  {
    assert a + (x + y) == b + y;
  }

  /** What the log holds after position `n` keeps holding as the log grows. */
  lemma SuffixGrows(n: nat, b: seq<GitOp>, c: seq<GitOp>)
    requires n <= |b| && b <= c
    ensures forall op | op in b[n..] :: op in c[n..]
    ensures forall op | op in c[|b|..] :: op in c[n..]
  {
    assert c[n..] == b[n..] + c[|b|..];
  }

  /** The log after position `start` records the merge of `b` into every one of `ts`. */
  ghost predicate MergesLogged(log: seq<GitOp>, start: nat, rc: Rc, b: string, born: bool, ts: set<string>)
  {
    start <= |log| &&
    forall t | t in ts :: MergeOp(b, t, MergeMessage(b, t), MergeStatus(rc, b, t, born)) in log[start..]
  }

  lemma MergesLoggedGrow(l1: seq<GitOp>, l2: seq<GitOp>, start: nat, rc: Rc, b: string, born: bool, ts: set<string>, t: string)
    requires start <= |l1| && l1 <= l2 && MergesLogged(l1, start, rc, b, born, ts)
    requires MergeOp(b, t, MergeMessage(b, t), MergeStatus(rc, b, t, born)) in l2[|l1|..]
    ensures MergesLogged(l2, start, rc, b, born, ts + {t})
  {
    SuffixGrows(start, l1, l2);
  }

  /** `pushed` holds every clean target of `b` and everything the propagation from that target pushes. */
  ghost predicate CoversDescents(g: Graph, rank: map<string, nat>, rc: Rc, b: string, born: bool, pushed: set<string>)
    requires Ranked(g, rank)
  {
    forall t | t in Descend(g, rc, b, born) :: {t} + Pushed(g, rank, rc, t, true) <= pushed
  }

  /** A set that covers every descent covers all the propagation pushes. */
  lemma CoveredPushes(g: Graph, rank: map<string, nat>, rc: Rc, b: string, born: bool, pushed: set<string>)
    requires Ranked(g, rank) && CoversDescents(g, rank, rc, b, born, pushed)
    ensures Pushed(g, rank, rc, b, born) <= pushed
  {
  }

  lemma PushesWithinWiden(log: seq<GitOp>, from: nat, small: set<string>, large: set<string>)
    requires small <= large && PushesWithin(log, from, small)
    ensures PushesWithin(log, from, large)
  {
  }

  /** The pushes after a `pristine` at `before + [PristineOp]` are all the pushes from the `pristine` on. */
  lemma PushesFromPristine(log: seq<GitOp>, before: seq<GitOp>, allowed: set<string>)
    requires before + [PristineOp] <= log && PushesWithin(log, |before| + 1, allowed)
    ensures PushesWithin(log, |before|, allowed)
  {
    assert log[|before|] == PristineOp;
  }

  /** The merges recorded after a `pristine` at `before + [PristineOp]` are recorded from the `pristine` on. */
  lemma MergesFromPristine(log: seq<GitOp>, before: seq<GitOp>, rc: Rc, b: string, born: bool, ts: set<string>)
    requires before + [PristineOp] <= log && MergesLogged(log, |before| + 1, rc, b, born, ts)
    ensures MergesLogged(log, |before|, rc, b, born, ts)
  {
    assert log[|before|..] == [PristineOp] + log[|before| + 1..];
  }

  /** A clean target is pushed, and so is everything its own propagation pushes. */
  lemma PushedThrough(g: Graph, rank: map<string, nat>, rc: Rc, b: string, born: bool, t: string)
    requires Ranked(g, rank) && t in Descend(g, rc, b, born)
    ensures {t} + Pushed(g, rank, rc, t, true) <= Pushed(g, rank, rc, b, born)
  {
  }

  /** The message of an automated merge, also the subject of its conflict mail. */
  function MergeMessage(source: string, target: string): string
  {
    "Automated merge '" + source + "' into '" + target + "'"
  }

  /** The exit status `mergeDefault` gives; a source branch never committed cannot be merged. */
  function MergeStatus(rc: Rc, source: string, target: string, born: bool): int
  {
    if born then rc(source, target) else 1
  }

  class Importer {
    /** The error handler's calls, in order. */
    var reports: seq<Report>

    constructor ()
      ensures reports == []
    {
      reports := [];
    }

    /**
     * `merge(repository, Git, gitbranch)`: merge `gitbranch` into each of its
     * targets, descending only from clean merges.  `raised` is an exception
     * from `checkout` or `mergeFastForward`.  When nothing raised, every
     * target was merged, conflicting ones included; every push is of a branch
     * the propagation reaches through clean merges only; only branches ranked
     * below `gitbranch` change.
     */
    method Merge(git: GitRepo, graph: Graph, ghost rank: map<string, nat>, rc: Rc, merged: (Tree, Tree) -> Tree,
                 gitbranch: string)
      returns (success: bool, raised: bool)
      requires git.Valid() && Ranked(graph, rank)
      modifies git
      ensures git.Valid() && old(git.log) <= git.log && old(git.log) + [PristineOp] <= git.log
      ensures raised <==> Raises(graph, rank, rc, gitbranch, gitbranch in old(git.local), old(git.tracking).Keys)
      ensures !raised ==> success == MergeOk(graph, rank, rc, gitbranch, gitbranch in old(git.local))
      ensures !raised ==> forall t | t in Targets(graph, gitbranch) ::
        MergeOp(gitbranch, t, MergeMessage(gitbranch, t), MergeStatus(rc, gitbranch, t, gitbranch in old(git.local)))
          in git.log[|old(git.log)|..]
      ensures PushesWithin(git.log, |old(git.log)|, Pushed(graph, rank, rc, gitbranch, gitbranch in old(git.local)))
      ensures git.tracking.Keys == old(git.tracking).Keys && git.cloned == old(git.cloned)
      ensures UnchangedAbove(git.local, old(git.local), rank, Rank(rank, gitbranch))
      ensures UnchangedAbove(git.tracking, old(git.tracking), rank, Rank(rank, gitbranch))
      ensures UnchangedAbove(git.remote, old(git.remote), rank, Rank(rank, gitbranch))
      decreases Rank(rank, gitbranch), 4
    {
      ghost var born := gitbranch in git.local;
      git.Pristine();
      ghost var pushed := Pushed(graph, rank, rc, gitbranch, born);
      forall t | t in Descend(graph, rc, gitbranch, born)
        ensures {t} + Pushed(graph, rank, rc, t, true) <= pushed
      {
        PushedThrough(graph, rank, rc, gitbranch, born, t);
      }
      success, raised := MergeTargets(git, graph, rank, rc, merged, gitbranch, born, pushed);
      PushesFromPristine(git.log, old(git.log), pushed);
      if !raised {
        MergesFromPristine(git.log, old(git.log), rc, gitbranch, born, Targets(graph, gitbranch));
      }
    }

    /**
     * The loop of `merge` over the targets of `gitbranch`, once `pristine`
     * has run; `pushed` stands for the branches the propagation may push.
     */
    method MergeTargets(git: GitRepo, graph: Graph, ghost rank: map<string, nat>, rc: Rc, merged: (Tree, Tree) -> Tree,
                        gitbranch: string, ghost born: bool, ghost pushed: set<string>)
      returns (success: bool, raised: bool)
      requires git.Valid() && Ranked(graph, rank) && born == (gitbranch in git.local)
      requires CoversDescents(graph, rank, rc, gitbranch, born, pushed)
      modifies git
      ensures git.Valid() && old(git.log) <= git.log
      ensures raised <==> Raises(graph, rank, rc, gitbranch, born, old(git.tracking).Keys)
      ensures !raised ==> success == MergeOk(graph, rank, rc, gitbranch, born)
      ensures !raised ==> MergesLogged(git.log, |old(git.log)|, rc, gitbranch, born, Targets(graph, gitbranch))
      ensures PushesWithin(git.log, |old(git.log)|, pushed)
      ensures git.tracking.Keys == old(git.tracking).Keys && git.cloned == old(git.cloned)
      ensures UnchangedAbove(git.local, old(git.local), rank, Rank(rank, gitbranch))
      ensures UnchangedAbove(git.tracking, old(git.tracking), rank, Rank(rank, gitbranch))
      ensures UnchangedAbove(git.remote, old(git.remote), rank, Rank(rank, gitbranch))
      decreases Rank(rank, gitbranch), 3
    {
      ghost var onOrigin := git.tracking.Keys;
      success := true;
      raised := false;
      var todo := Targets(graph, gitbranch);
      ghost var done: set<string> := {};
      while todo != {}
        invariant git.Valid()
        invariant todo <= Targets(graph, gitbranch) && done == Targets(graph, gitbranch) - todo
        invariant (gitbranch in git.local) == born
        invariant git.tracking.Keys == onOrigin && git.cloned == old(git.cloned)
        invariant forall t | t in done :: !EdgeRaises(graph, rank, rc, gitbranch, born, t, onOrigin)
        invariant success == forall t | t in done :: EdgeOk(graph, rank, rc, gitbranch, born, t)
        invariant UnchangedAbove(git.local, old(git.local), rank, Rank(rank, gitbranch))
        invariant UnchangedAbove(git.tracking, old(git.tracking), rank, Rank(rank, gitbranch))
        invariant UnchangedAbove(git.remote, old(git.remote), rank, Rank(rank, gitbranch))
        invariant old(git.log) <= git.log
        invariant PushesWithin(git.log, |old(git.log)|, pushed)
        invariant MergesLogged(git.log, |old(git.log)|, rc, gitbranch, born, done)
        decreases |todo|
      {
        var target :| target in todo;
        var edgeOk;
        edgeOk, raised := MergeTurn(git, graph, rank, rc, merged, gitbranch, target, born, done, old(git.log), pushed,
                                    old(git.local), old(git.tracking), old(git.remote));
        if raised {
          EdgeRaisesAll(graph, rank, rc, gitbranch, born, target, onOrigin);
          return;
        }
        if !edgeOk {
          success := false;
        }
        VisitOne(Targets(graph, gitbranch), todo, done, target);
        todo := todo - {target};
        done := done + {target};
      }
      assert done == Targets(graph, gitbranch);
      NoEdgeRaises(graph, rank, rc, gitbranch, born, onOrigin);
    }

    /**
     * `MergeInto` as one turn of `merge`'s loop sees it: the log keeps its
     * start `base`, pushes only branches of `pushed` and records the merge
     * into `target`, and every branch ranked at or above `gitbranch` stays as
     * in `local0`, `tracking0` and `remote0`.
     */
    method MergeTurn(git: GitRepo, graph: Graph, ghost rank: map<string, nat>, rc: Rc, merged: (Tree, Tree) -> Tree,
                     gitbranch: string, target: string, ghost born: bool, ghost done: set<string>, ghost base: seq<GitOp>,
                     ghost pushed: set<string>,
                     ghost local0: map<string, Tree>, ghost tracking0: map<string, Tree>, ghost remote0: map<string, Tree>)
      returns (edgeOk: bool, raised: bool)
      requires git.Valid() && Ranked(graph, rank)
      requires target in Targets(graph, gitbranch) && born == (gitbranch in git.local)
      requires CoversDescents(graph, rank, rc, gitbranch, born, pushed)
      requires base <= git.log && PushesWithin(git.log, |base|, pushed)
      requires MergesLogged(git.log, |base|, rc, gitbranch, born, done)
      requires UnchangedAbove(git.local, local0, rank, Rank(rank, gitbranch))
      requires UnchangedAbove(git.tracking, tracking0, rank, Rank(rank, gitbranch))
      requires UnchangedAbove(git.remote, remote0, rank, Rank(rank, gitbranch))
      modifies git
      ensures git.Valid() && base <= git.log
      ensures (gitbranch in git.local) == born
      ensures git.tracking.Keys == old(git.tracking).Keys && git.cloned == old(git.cloned)
      ensures raised <==> EdgeRaises(graph, rank, rc, gitbranch, born, target, old(git.tracking).Keys)
      ensures !raised ==> edgeOk == EdgeOk(graph, rank, rc, gitbranch, born, target)
      ensures PushesWithin(git.log, |base|, pushed)
      ensures !raised ==> MergesLogged(git.log, |base|, rc, gitbranch, born, done + {target})
      ensures UnchangedAbove(git.local, local0, rank, Rank(rank, gitbranch))
      ensures UnchangedAbove(git.tracking, tracking0, rank, Rank(rank, gitbranch))
      ensures UnchangedAbove(git.remote, remote0, rank, Rank(rank, gitbranch))
      decreases Rank(rank, gitbranch), 2
    {
      edgeOk, raised := MergeInto(git, graph, rank, rc, merged, gitbranch, target, born);
      PrefixTrans(base, old(git.log), git.log);
      CoveredPushes(graph, rank, rc, gitbranch, born, pushed);
      PushesWithinWiden(git.log, |old(git.log)|, Pushed(graph, rank, rc, gitbranch, born), pushed);
      PushesWithinExtend(old(git.log), git.log, |base|, pushed);
      if !raised {
        MergesLoggedGrow(old(git.log), git.log, |base|, rc, gitbranch, born, done, target);
      }
      UnchangedAboveTrans(git.local, old(git.local), local0, rank, Rank(rank, gitbranch));
      UnchangedAboveTrans(git.tracking, old(git.tracking), tracking0, rank, Rank(rank, gitbranch));
      UnchangedAboveTrans(git.remote, old(git.remote), remote0, rank, Rank(rank, gitbranch));
    }

    /**
     * One pass of `merge`'s loop: check out `target`, fast-forward it from
     * `origin/<target>` and merge `gitbranch` into it.  A conflict is mailed
     * and leaves everything but the fast-forward alone: `target` is not
     * pushed and nothing below it is visited.  A clean merge is pushed, so
     * the origin's `target` holds the merge result.
     */
    method MergeInto(git: GitRepo, graph: Graph, ghost rank: map<string, nat>, rc: Rc, merged: (Tree, Tree) -> Tree,
                     gitbranch: string, target: string, ghost born: bool)
      returns (edgeOk: bool, raised: bool)
      requires git.Valid() && Ranked(graph, rank)
      requires target in Targets(graph, gitbranch) && born == (gitbranch in git.local)
      modifies git
      ensures git.Valid() && old(git.log) <= git.log
      ensures raised <==> EdgeRaises(graph, rank, rc, gitbranch, born, target, old(git.tracking).Keys)
      ensures !raised ==> edgeOk == EdgeOk(graph, rank, rc, gitbranch, born, target)
      ensures PushesWithin(git.log, |old(git.log)|, Pushed(graph, rank, rc, gitbranch, born))
      ensures !raised ==>
        MergeOp(gitbranch, target, MergeMessage(gitbranch, target), MergeStatus(rc, gitbranch, target, born)) in git.log[|old(git.log)|..]
      ensures !raised && target !in Descend(graph, rc, gitbranch, born) ==>
        git.log == old(git.log) + [CheckoutOp(target), FastForwardOp(target)] +
                   [MergeOp(gitbranch, target, MergeMessage(gitbranch, target), MergeStatus(rc, gitbranch, target, born)),
                    MailOp(MergeMessage(gitbranch, target))]
      ensures !raised && target in Descend(graph, rc, gitbranch, born) ==>
        old(git.log) + [CheckoutOp(target), FastForwardOp(target)] + [MergeOp(gitbranch, target, MergeMessage(gitbranch, target), 0)] +
          [PushOp(target), PostHooksOp(target), PristineOp] <= git.log
      ensures git.tracking.Keys == old(git.tracking).Keys && git.cloned == old(git.cloned)
      ensures UnchangedAbove(git.local, old(git.local), rank, Rank(rank, gitbranch))
      ensures UnchangedAbove(git.tracking, old(git.tracking), rank, Rank(rank, gitbranch))
      ensures UnchangedAbove(git.remote, old(git.remote), rank, Rank(rank, gitbranch))
      ensures !raised && target !in Descend(graph, rc, gitbranch, born) ==>
        git.local == old(git.local)[target := old(git.tracking)[target]] &&
        git.tracking == old(git.tracking) && git.remote == old(git.remote)
      ensures !raised && target in Descend(graph, rc, gitbranch, born) ==>
        target in git.local && target in git.tracking && target in git.remote &&
        git.remote[target] == git.tracking[target] == git.local[target] ==
        merged(old(git.tracking)[target], old(git.local)[gitbranch])
      decreases Rank(rank, gitbranch), 1
    {
      assert target in rank && Rank(rank, target) < Rank(rank, gitbranch) by {
        assert target in Reached(graph, rank, rc, gitbranch, born);
      }
      var ok := CheckoutFastForward(git, target);
      if !ok {
        assert PushesWithin(git.log, |old(git.log)|, {});
        return false, true;
      }
      ghost var log0 := git.log;
      edgeOk, raised := MergeCheckedOut(git, graph, rank, rc, merged, gitbranch, target, born);
      PushesWithinExtend(log0, git.log, |old(git.log)|, Pushed(graph, rank, rc, gitbranch, born));
      if !raised {
        assert |log0| == |old(git.log)| + 2;
        assert git.log[|log0|] == MergeOp(gitbranch, target, MergeMessage(gitbranch, target), MergeStatus(rc, gitbranch, target, born));
        assert git.log[|old(git.log)|..][2] == git.log[|log0|];
      }
    }

    /**
     * The rest of a pass once `target` is checked out at its origin's tip:
     * merge `gitbranch` into it; mail a conflict, or push a clean merge and
     * merge `target` onwards.
     */
    method MergeCheckedOut(git: GitRepo, graph: Graph, ghost rank: map<string, nat>, rc: Rc, merged: (Tree, Tree) -> Tree,
                           gitbranch: string, target: string, ghost born: bool)
      returns (edgeOk: bool, raised: bool)
      requires git.Valid() && Ranked(graph, rank)
      requires target in Targets(graph, gitbranch) && born == (gitbranch in git.local)
      requires target in rank && Rank(rank, target) < Rank(rank, gitbranch)
      requires git.current == target && target in git.local && target in git.tracking
      modifies git
      ensures git.Valid() && old(git.log) <= git.log
      ensures raised <==> target in Descend(graph, rc, gitbranch, born) && Raises(graph, rank, rc, target, true, old(git.tracking).Keys)
      ensures !raised ==> edgeOk == EdgeOk(graph, rank, rc, gitbranch, born, target)
      ensures PushesWithin(git.log, |old(git.log)|, Pushed(graph, rank, rc, gitbranch, born))
      ensures target !in Descend(graph, rc, gitbranch, born) ==>
        git.log == old(git.log) + [MergeOp(gitbranch, target, MergeMessage(gitbranch, target), MergeStatus(rc, gitbranch, target, born)),
                                   MailOp(MergeMessage(gitbranch, target))] &&
        git.local == old(git.local) && git.tracking == old(git.tracking) && git.remote == old(git.remote)
      ensures target in Descend(graph, rc, gitbranch, born) ==>
        old(git.log) + [MergeOp(gitbranch, target, MergeMessage(gitbranch, target), 0)] +
          [PushOp(target), PostHooksOp(target), PristineOp] <= git.log
      ensures !raised && target in Descend(graph, rc, gitbranch, born) ==>
        target in git.local && target in git.tracking && target in git.remote &&
        git.remote[target] == git.tracking[target] == git.local[target] ==
        merged(old(git.local)[target], old(git.local)[gitbranch])
      ensures git.tracking.Keys == old(git.tracking).Keys && git.cloned == old(git.cloned)
      ensures UnchangedAbove(git.local, old(git.local), rank, Rank(rank, gitbranch))
      ensures UnchangedAbove(git.tracking, old(git.tracking), rank, Rank(rank, gitbranch))
      ensures UnchangedAbove(git.remote, old(git.remote), rank, Rank(rank, gitbranch))
      decreases Rank(rank, gitbranch), 0
    {
      var clean := MergeOrMail(git, gitbranch, target, rc, merged);
      if !clean {
        return false, false;
      }
      ghost var log1 := git.log;
      ghost var local1 := git.local;
      edgeOk, raised := PushAndDescend(git, graph, rank, rc, merged, target);
      UnchangedAboveUpdate(git.local, old(git.local), rank, target, local1[target], Rank(rank, target), Rank(rank, gitbranch));
      UnchangedAboveUpdate(git.tracking, old(git.tracking), rank, target, local1[target], Rank(rank, target), Rank(rank, gitbranch));
      UnchangedAboveUpdate(git.remote, old(git.remote), rank, target, local1[target], Rank(rank, target), Rank(rank, gitbranch));
      PushedThrough(graph, rank, rc, gitbranch, born, target);
      PushesWithinExtend(log1, git.log, |old(git.log)|, Pushed(graph, rank, rc, gitbranch, born));
    }

    /** `checkout(target)` then `mergeFastForward('origin/' + target)`: either raises when there is no `origin/<target>`. */
    method CheckoutFastForward(git: GitRepo, target: string) returns (ok: bool)
      requires git.Valid()
      modifies git
      ensures git.Valid() && old(git.log) <= git.log
      ensures ok <==> target in old(git.tracking)
      ensures ok ==> git.current == target && git.local == old(git.local)[target := old(git.tracking)[target]]
      ensures ok ==> git.worktree == old(git.tracking)[target]
      ensures ok ==> git.log == old(git.log) + [CheckoutOp(target), FastForwardOp(target)]
      ensures PushesWithin(git.log, |old(git.log)|, {})
      ensures !ok ==> git.local == old(git.local)
      ensures git.cloned == old(git.cloned) && git.tracking == old(git.tracking) && git.remote == old(git.remote)
    {
      ok := git.Checkout(target);
      if ok {
        ok := git.MergeFastForward(target);
      }
    }

    /**
     * `mergeDefault(gitbranch, message)` into the checked-out `target` and,
     * when it exits non-zero, `mailLastOutput(message)`.  `clean` is exit
     * status 0.
     */
    method MergeOrMail(git: GitRepo, gitbranch: string, target: string, rc: Rc, merged: (Tree, Tree) -> Tree)
      returns (clean: bool)
      requires git.Valid() && git.current == target
      modifies git
      ensures git.Valid()
      ensures clean <==> gitbranch in old(git.local) && rc(gitbranch, target) == 0
      ensures clean ==> git.log == old(git.log) + [MergeOp(gitbranch, target, MergeMessage(gitbranch, target), 0)]
      ensures !clean ==>
        git.log == old(git.log) + [MergeOp(gitbranch, target, MergeMessage(gitbranch, target),
                                           MergeStatus(rc, gitbranch, target, gitbranch in old(git.local))),
                                   MailOp(MergeMessage(gitbranch, target))]
      ensures clean ==> git.local == old(git.local)[target := merged(old(git.Head()), old(git.local)[gitbranch])]
      ensures !clean ==> git.local == old(git.local)
      ensures git.cloned == old(git.cloned) && git.tracking == old(git.tracking) && git.remote == old(git.remote)
      ensures git.current == target
    {
      var message := MergeMessage(gitbranch, target);
      var status := git.MergeDefault(gitbranch, message, rc, merged);
      clean := status == 0;
      if !clean {
        git.Mail(message);
      }
    }

    /** After a clean merge into the checked-out `target`: push it, run the post-import hooks and merge it onwards. */
    method PushAndDescend(git: GitRepo, graph: Graph, ghost rank: map<string, nat>, rc: Rc, merged: (Tree, Tree) -> Tree,
                          target: string)
      returns (success: bool, raised: bool)
      requires git.Valid() && Ranked(graph, rank)
      requires target in git.local && target in git.tracking
      requires |git.log| > 0 && Justifies(git.log[|git.log| - 1], target)
      modifies git
      ensures git.Valid() && old(git.log) <= git.log
      ensures old(git.log) + [PushOp(target), PostHooksOp(target), PristineOp] <= git.log
      ensures PushesWithin(git.log, |old(git.log)|, {target} + Pushed(graph, rank, rc, target, true))
      ensures raised <==> Raises(graph, rank, rc, target, true, old(git.tracking).Keys)
      ensures !raised ==> success == MergeOk(graph, rank, rc, target, true)
      ensures git.tracking.Keys == old(git.tracking).Keys && git.cloned == old(git.cloned)
      ensures UnchangedAbove(git.local, old(git.local), rank, Rank(rank, target))
      ensures UnchangedAbove(git.tracking, old(git.tracking)[target := old(git.local)[target]], rank, Rank(rank, target))
      ensures UnchangedAbove(git.remote, old(git.remote)[target := old(git.local)[target]], rank, Rank(rank, target))
      decreases Rank(rank, target), 5
    {
      git.Push(target);
      git.RunPostHooks(target);
      ghost var log1 := git.log;
      assert log1 + [PristineOp] == old(git.log) + [PushOp(target), PostHooksOp(target), PristineOp];
      ghost var allowed := {target} + Pushed(graph, rank, rc, target, true);
      assert PushesWithin(log1, |old(git.log)|, allowed) by {
        assert log1 == old(git.log) + [PushOp(target), PostHooksOp(target)];
      }
      success, raised := Merge(git, graph, rank, rc, merged, target);
      assert PushesWithin(git.log, |old(git.log)|, allowed) by {
        PushesWithinWiden(git.log, |log1|, Pushed(graph, rank, rc, target, true), allowed);
        PushesWithinExtend(log1, git.log, |old(git.log)|, allowed);
      }
    }

    /**
     * The bootstrap step of `importcvs` on a repository that is not cloned
     * yet: clone it and, when the clone has no refs at all, create `master`
     * holding the skeleton (or a `.gitignore` from the export's
     * `.cvsignore`), commit it and push it.
     */
    method Bootstrap(git: GitRepo, exported: Tree, skeleton: Option<Tree>)
      requires git.Valid() && !git.cloned
      modifies git
      ensures git.Valid() && git.cloned && git.current == "master"
      ensures old(git.remote) != map[] ==>
        git.local == (if "master" in old(git.remote) then map["master" := old(git.remote)["master"]] else map[]) &&
        git.tracking == git.remote == old(git.remote) && git.log == old(git.log) + [CloneOp]
      ensures old(git.remote) == map[] ==>
        git.local == git.tracking == git.remote == map["master" := BootstrapTree(skeleton, exported)] &&
        git.log == old(git.log) + [CloneOp, AddAllOp, CommitOp("master", BootstrapMessage), PushOp("master")]
    {
      git.Clone();
      if !git.HasRefs() {
        assert git.local == map[] && git.worktree == map[];
        assert old(git.remote) == map[] by {
          assert git.tracking == map[];
        }
        ghost var log1 := git.log;
        CreateMaster(git, BootstrapTree(skeleton, exported));
        assert git.log == log1 + [AddAllOp, CommitOp("master", BootstrapMessage), PushOp("master")];
      } else {
        assert old(git.remote) != map[] by {
          var b :| b in git.local || b in git.tracking;
        }
      }
    }

    /** The bootstrap of a repository with no branches: the tree becomes master, committed and pushed. */
    method CreateMaster(git: GitRepo, tree: Tree)
      requires git.Valid() && git.cloned && git.current == "master"
      requires git.local == map[] && git.tracking == map[] && git.remote == map[] && git.worktree == map[]
      modifies git
      ensures git.Valid() && git.cloned && git.current == "master"
      ensures git.local == git.tracking == git.remote == map["master" := tree]
      ensures git.log == old(git.log) + [AddAllOp, CommitOp("master", BootstrapMessage), PushOp("master")]
    {
      git.CopyIn(tree);
      assert git.worktree == tree;
      git.AddAll();
      git.Commit(BootstrapMessage);
      git.Push("master");
    }

    /**
     * Branch selection of `importcvs` on `git branch -a`: track `origin/<b>`,
     * start an orphan branch (the only case that adds the skeleton), or
     * check out the local branch, fetch and fast-forward it from
     * `origin/<b>`.  `ok` is false when a Git command raised.
     */
    method SelectBranch(git: GitRepo, gitbranch: string) returns (ok: bool, branchCase: BranchCase)
      requires git.Valid()
      modifies git
      ensures git.Valid()
      ensures branchCase == CaseOf(old(git.State()), gitbranch)
      ensures ok <==> SelectOk(old(git.State()), gitbranch)
      ensures ok ==> git.current == gitbranch && Tip(git.local, gitbranch) == SelectedTip(old(git.State()), gitbranch)
      ensures ok ==> (gitbranch in git.local <==> branchCase != NewOrphan)
      ensures ok ==> git.tracking.Keys == SelectedOrigins(old(git.State()), gitbranch)
      ensures git.tracking == FetchedTracking(old(git.State()), gitbranch)
      ensures branchCase == NewOrphan ==> ok && git.local == old(git.local) && gitbranch !in git.local
      ensures branchCase == TrackRemote ==> (ok <==> gitbranch in old(git.tracking))
      ensures branchCase == TrackRemote && ok ==> git.local == old(git.local)[gitbranch := old(git.tracking)[gitbranch]]
      ensures branchCase == UpdateLocal && ok ==>
        git.tracking == old(git.tracking) + old(git.remote) && gitbranch in git.tracking &&
        git.local == old(git.local)[gitbranch := git.tracking[gitbranch]]
      ensures branchCase != UpdateLocal ==> git.tracking == old(git.tracking)
      ensures !ok ==> git.local == old(git.local)
      ensures git.cloned == old(git.cloned) && git.remote == old(git.remote) && old(git.log) <= git.log
    {
      var branches := git.Branches();
      branchCase := SelectCase(branches, gitbranch);
      CaseOfListing(git.State(), gitbranch);
      match branchCase
      case TrackRemote =>
        ok := git.CheckoutTracking(gitbranch);
      case NewOrphan =>
        git.CheckoutNewImportBranch(gitbranch);
        ok := true;
      case UpdateLocal =>
        ok := UpdateLocalBranch(git, gitbranch);
    }

    /** The local branch case: check it out unless it is current, fetch, and fast-forward it from `origin/<b>`. */
    method UpdateLocalBranch(git: GitRepo, gitbranch: string) returns (ok: bool)
      requires git.Valid()
      modifies git
      ensures git.Valid() && old(git.log) <= git.log
      ensures ok ==> git.current == gitbranch
      ensures ok <==> CheckedOut(old(git.State()), gitbranch) && (gitbranch in old(git.tracking) || gitbranch in old(git.remote))
      ensures git.tracking == if CheckedOut(old(git.State()), gitbranch) then old(git.tracking) + old(git.remote) else old(git.tracking)
      ensures ok ==>
        git.tracking == old(git.tracking) + old(git.remote) && gitbranch in git.tracking &&
        git.local == old(git.local)[gitbranch := git.tracking[gitbranch]]
      ensures !ok ==> git.local == old(git.local)
      ensures git.cloned == old(git.cloned) && git.remote == old(git.remote)
    {
      if git.current != gitbranch {
        ok := git.Checkout(gitbranch);
        if !ok {
          return;
        }
      }
      git.Fetch();
      ok := git.MergeFastForward(gitbranch);
    }

    /**
     * The wipe and copy of `importcvs`: discard leftovers, delete every file
     * the branch tracks, copy the export over the tree and, for a new branch,
     * the skeleton on top.
     */
    method ReplaceContent(git: GitRepo, exported: Tree, skeleton: Option<Tree>, addSkeleton: bool)
      requires git.Valid()
      modifies git
      ensures git.Valid()
      ensures git.worktree == ImportTree(exported, skeleton, addSkeleton)
      ensures git.cloned == old(git.cloned) && git.local == old(git.local) && git.tracking == old(git.tracking)
      ensures git.remote == old(git.remote) && git.current == old(git.current) && git.log == old(git.log) + [PristineOp]
    {
      git.Pristine();
      RemoveContentFiles(git);
      git.CopyIn(exported);
      assert git.worktree == exported;
      if addSkeleton && skeleton.Some? {
        git.CopyIn(skeleton.value);
      }
    }

    /** The `os.remove` loop over `listContentFiles()` on a pristine tree: afterwards the working tree is empty. */
    method RemoveContentFiles(git: GitRepo)
      requires git.worktree == git.Head()
      modifies git
      ensures git.worktree == map[]
      ensures git.cloned == old(git.cloned) && git.local == old(git.local) && git.tracking == old(git.tracking)
      ensures git.remote == old(git.remote) && git.current == old(git.current) && git.log == old(git.log)
    {
      var files := git.ContentFiles();
      while files != {}
        invariant git.worktree.Keys == files
        invariant git.cloned == old(git.cloned) && git.local == old(git.local) && git.tracking == old(git.tracking)
        invariant git.remote == old(git.remote) && git.current == old(git.current) && git.log == old(git.log)
        decreases |files|
      {
        var name :| name in files;
        git.RemoveFile(name);
        files := files - {name};
      }
      assert git.worktree == map[];
    }

    /**
     * The commit step of `importcvs`: when the tree differs from the branch,
     * run the pre-import hooks and stage; when it still differs, commit,
     * push and run the post-import hooks.
     */
    method CommitIfChanged(git: GitRepo, gitbranch: string, hook: (string, Tree) -> Tree, timestamp: string)
      returns (committed: bool)
      requires git.Valid() && git.current == gitbranch
      modifies git
      ensures git.Valid()
      ensures committed <==> ShouldCommit(gitbranch, old(git.worktree), old(git.Head()), hook)
      ensures Tip(git.local, gitbranch) == Recorded(gitbranch, old(git.worktree), old(git.Head()), hook)
      ensures committed ==> git.local == old(git.local)[gitbranch := hook(gitbranch, old(git.worktree))]
      ensures committed ==> git.remote == old(git.remote)[gitbranch := git.local[gitbranch]]
      ensures committed ==> git.tracking == old(git.tracking)[gitbranch := git.local[gitbranch]]
      ensures committed ==> git.log == old(git.log) + [PreHooksOp(gitbranch), AddAllOp,
        CommitOp(gitbranch, "import from CVS as of " + timestamp), PushOp(gitbranch), PostHooksOp(gitbranch)]
      ensures !committed ==> git.local == old(git.local) && git.remote == old(git.remote) && git.tracking == old(git.tracking)
      ensures !committed ==> git.log == old(git.log) || git.log == old(git.log) + [PreHooksOp(gitbranch), AddAllOp]
      ensures git.cloned == old(git.cloned) && git.current == gitbranch
    {
      if git.Status() {
        git.RunPreHooks(gitbranch, hook);
        git.AddAll();
      }
      committed := git.Status();
      if committed {
        git.Commit("import from CVS as of " + timestamp);
        git.Push(gitbranch);
        git.RunPostHooks(gitbranch);
      }
    }

    /**
     * `importcvs`: import one CVS branch export into `gitbranch`.  An empty
     * export raises before any Git command.  Otherwise the repository is
     * bootstrapped when it is not cloned yet, the branch is selected, its
     * tree replaced by the cleaned export and committed when it changed; the
     * merge propagation runs whether or not there was a commit, and a failed
     * merge raises only after `pristine`.  `committed` says whether a commit
     * was made.
     */
    method ImportCvs(git: GitRepo, graph: Graph, ghost rank: map<string, nat>, rc: Rc, merged: (Tree, Tree) -> Tree,
                     exportedFiles: Tree, skeleton: Option<Tree>, gitbranch: string, hook: (string, Tree) -> Tree, timestamp: string)
      returns (failure: Option<Failure>, committed: bool)
      requires git.Valid() && Ranked(graph, rank)
      modifies git
      ensures git.Valid() && old(git.log) <= git.log
      ensures failure == CvsOutcome(graph, rank, rc, old(git.State()), exportedFiles, skeleton, gitbranch, hook)
      ensures committed == CvsCommits(old(git.State()), exportedFiles, skeleton, gitbranch, hook)
      ensures exportedFiles == map[] ==>
        git.log == old(git.log) && git.cloned == old(git.cloned) && git.local == old(git.local) &&
        git.tracking == old(git.tracking) && git.remote == old(git.remote) &&
        git.current == old(git.current) && git.worktree == old(git.worktree)
      ensures exportedFiles != map[] ==> git.cloned
      ensures exportedFiles != map[] && !old(git.cloned) && old(git.remote) == map[] ==>
        |git.log| >= |old(git.log)| + 4 &&
        git.log[|old(git.log)|..|old(git.log)| + 4] == [CloneOp, AddAllOp, CommitOp("master", BootstrapMessage), PushOp("master")]
      ensures exportedFiles != map[] && SelectOk(Prepared(old(git.State()), exportedFiles, skeleton), gitbranch) ==>
        Tip(git.local, gitbranch) ==
          Recorded(gitbranch, Imported(Prepared(old(git.State()), exportedFiles, skeleton), CvsKeywords.CleanTree(exportedFiles), skeleton, gitbranch),
                   SelectedTip(Prepared(old(git.State()), exportedFiles, skeleton), gitbranch), hook)
      ensures exportedFiles != map[] ==>
        OthersKept(git.local, Prepared(old(git.State()), exportedFiles, skeleton).local, rank, gitbranch) &&
        OthersKept(git.remote, Prepared(old(git.State()), exportedFiles, skeleton).remote, rank, gitbranch)
      ensures exportedFiles != map[] ==>
        OthersKept(git.tracking, FetchedTracking(Prepared(old(git.State()), exportedFiles, skeleton), gitbranch), rank, gitbranch)
      ensures exportedFiles != map[] && !SelectOk(Prepared(old(git.State()), exportedFiles, skeleton), gitbranch) ==>
        git.local == Prepared(old(git.State()), exportedFiles, skeleton).local &&
        git.remote == Prepared(old(git.State()), exportedFiles, skeleton).remote &&
        git.tracking == FetchedTracking(Prepared(old(git.State()), exportedFiles, skeleton), gitbranch)
      ensures committed ==> gitbranch in git.local && gitbranch in git.remote && git.remote[gitbranch] == git.local[gitbranch]
      ensures failure == None || failure == Some(MergeFailed) ==>
        |git.log| > 0 && git.log[|git.log| - 1] == PristineOp && git.worktree == git.Head()
    {
      if exportedFiles == map[] {
        failure, committed := Some(EmptyExport), false;
        assert failure != None && failure != Some(MergeFailed);
        return;
      }
      failure, committed := ImportExport(git, graph, rank, rc, merged, CvsKeywords.CleanTree(exportedFiles),
                                         skeleton, gitbranch, hook, timestamp);
    }

    /** `importcvs` from the bootstrap on, with the export's keywords already collapsed. */
    method ImportExport(git: GitRepo, graph: Graph, ghost rank: map<string, nat>, rc: Rc, merged: (Tree, Tree) -> Tree,
                        exported: Tree, skeleton: Option<Tree>, gitbranch: string, hook: (string, Tree) -> Tree, timestamp: string)
      returns (failure: Option<Failure>, committed: bool)
      requires git.Valid() && Ranked(graph, rank)
      modifies git
      ensures git.Valid() && old(git.log) <= git.log && git.cloned
      ensures failure == BranchOutcome(graph, rank, rc, Bootstrapped(old(git.State()), BootstrapTree(skeleton, exported)),
                                       exported, skeleton, gitbranch, hook)
      ensures committed == Commits(Bootstrapped(old(git.State()), BootstrapTree(skeleton, exported)), exported, skeleton, gitbranch, hook)
      ensures !old(git.cloned) && old(git.remote) == map[] ==>
        |git.log| >= |old(git.log)| + 4 &&
        git.log[|old(git.log)|..|old(git.log)| + 4] == [CloneOp, AddAllOp, CommitOp("master", BootstrapMessage), PushOp("master")]
      ensures SelectOk(Bootstrapped(old(git.State()), BootstrapTree(skeleton, exported)), gitbranch) ==>
        Tip(git.local, gitbranch) ==
          Recorded(gitbranch, Imported(Bootstrapped(old(git.State()), BootstrapTree(skeleton, exported)), exported, skeleton, gitbranch),
                   SelectedTip(Bootstrapped(old(git.State()), BootstrapTree(skeleton, exported)), gitbranch), hook)
      ensures committed ==> gitbranch in git.local && gitbranch in git.remote && git.remote[gitbranch] == git.local[gitbranch]
      ensures OthersKept(git.local, Bootstrapped(old(git.State()), BootstrapTree(skeleton, exported)).local, rank, gitbranch)
      ensures OthersKept(git.remote, Bootstrapped(old(git.State()), BootstrapTree(skeleton, exported)).remote, rank, gitbranch)
      ensures OthersKept(git.tracking, FetchedTracking(Bootstrapped(old(git.State()), BootstrapTree(skeleton, exported)), gitbranch),
                         rank, gitbranch)
      ensures !SelectOk(Bootstrapped(old(git.State()), BootstrapTree(skeleton, exported)), gitbranch) ==>
        git.local == Bootstrapped(old(git.State()), BootstrapTree(skeleton, exported)).local &&
        git.remote == Bootstrapped(old(git.State()), BootstrapTree(skeleton, exported)).remote &&
        git.tracking == FetchedTracking(Bootstrapped(old(git.State()), BootstrapTree(skeleton, exported)), gitbranch)
      ensures failure == None || failure == Some(MergeFailed) ==>
        |git.log| > 0 && git.log[|git.log| - 1] == PristineOp && git.worktree == git.Head()
    {
      ghost var bootstrapped := !git.cloned && git.remote == map[];
      if !git.cloned {
        Bootstrap(git, exported, skeleton);
      }
      assert git.State() == Bootstrapped(old(git.State()), BootstrapTree(skeleton, exported));
      ghost var log1 := git.log;
      assert old(git.log) <= log1;
      failure, committed := ImportBranch(git, graph, rank, rc, merged, exported, skeleton, gitbranch, hook, timestamp);
      assert old(git.log) <= git.log by {
        PrefixTrans(old(git.log), log1, git.log);
      }
      if bootstrapped {
        assert |git.log| >= |old(git.log)| + 4 &&
               git.log[|old(git.log)|..|old(git.log)| + 4] == [CloneOp, AddAllOp, CommitOp("master", BootstrapMessage), PushOp("master")] by {
          PrefixSlice(old(git.log), [CloneOp, AddAllOp, CommitOp("master", BootstrapMessage), PushOp("master")], git.log);
        }
      }
    }

    /** `importcvs` on a cloned repository: select the branch, then import into it. */
    method ImportBranch(git: GitRepo, graph: Graph, ghost rank: map<string, nat>, rc: Rc, merged: (Tree, Tree) -> Tree,
                        exported: Tree, skeleton: Option<Tree>, gitbranch: string, hook: (string, Tree) -> Tree, timestamp: string)
      returns (failure: Option<Failure>, committed: bool)
      requires git.Valid() && Ranked(graph, rank)
      modifies git
      ensures git.Valid() && old(git.log) <= git.log && git.cloned == old(git.cloned)
      ensures failure == BranchOutcome(graph, rank, rc, old(git.State()), exported, skeleton, gitbranch, hook)
      ensures committed == Commits(old(git.State()), exported, skeleton, gitbranch, hook)
      ensures !SelectOk(old(git.State()), gitbranch) ==>
        git.local == old(git.local) && git.remote == old(git.remote) && git.tracking == FetchedTracking(old(git.State()), gitbranch)
      ensures SelectOk(old(git.State()), gitbranch) ==>
        Tip(git.local, gitbranch) ==
          Recorded(gitbranch, Imported(old(git.State()), exported, skeleton, gitbranch), SelectedTip(old(git.State()), gitbranch), hook)
      ensures committed ==> gitbranch in git.local && gitbranch in git.remote && git.remote[gitbranch] == git.local[gitbranch]
      ensures OthersKept(git.local, old(git.local), rank, gitbranch) && OthersKept(git.remote, old(git.remote), rank, gitbranch)
      ensures OthersKept(git.tracking, FetchedTracking(old(git.State()), gitbranch), rank, gitbranch)
      ensures failure == None || failure == Some(MergeFailed) ==>
        |git.log| > 0 && git.log[|git.log| - 1] == PristineOp && git.worktree == git.Head()
    {
      var ok, branchCase := SelectBranch(git, gitbranch);
      ghost var log1, local1 := git.log, git.local;
      if ok {
        assert git.tracking == FetchedTracking(old(git.State()), gitbranch);
        failure, committed := ImportSelected(git, graph, rank, rc, merged, exported, skeleton, branchCase == NewOrphan,
                                             gitbranch, hook, timestamp);
        OthersKeptAfter(git.local, local1, old(git.local), rank, gitbranch, branchCase != NewOrphan);
      } else {
        failure, committed := Some(GitCommandFailed), false;
      }
      PrefixTrans(old(git.log), log1, git.log);
    }

    /** The content replacement and commit of `importcvs`, on the checked-out branch `gitbranch`. */
    method RecordExport(git: GitRepo, exported: Tree, skeleton: Option<Tree>, addSkeleton: bool, gitbranch: string,
                        hook: (string, Tree) -> Tree, timestamp: string)
      returns (committed: bool)
      requires git.Valid() && git.current == gitbranch
      modifies git
      ensures git.Valid() && old(git.log) <= git.log && git.cloned == old(git.cloned)
      ensures committed <==> ShouldCommit(gitbranch, ImportTree(exported, skeleton, addSkeleton), Tip(old(git.local), gitbranch), hook)
      ensures Tip(git.local, gitbranch) ==
        Recorded(gitbranch, ImportTree(exported, skeleton, addSkeleton), Tip(old(git.local), gitbranch), hook)
      ensures gitbranch in git.local <==> gitbranch in old(git.local) || committed
      ensures git.tracking.Keys == old(git.tracking).Keys + if committed then {gitbranch} else {}
      ensures committed ==> gitbranch in git.local && gitbranch in git.remote && git.remote[gitbranch] == git.local[gitbranch]
      ensures committed ==> git.local == old(git.local)[gitbranch := hook(gitbranch, ImportTree(exported, skeleton, addSkeleton))]
      ensures committed ==> git.remote == old(git.remote)[gitbranch := git.local[gitbranch]]
      ensures committed ==> git.tracking == old(git.tracking)[gitbranch := git.local[gitbranch]]
      ensures !committed ==> git.local == old(git.local) && git.remote == old(git.remote) && git.tracking == old(git.tracking)
    {
      ReplaceContent(git, exported, skeleton, addSkeleton);
      assert git.Head() == Tip(old(git.local), gitbranch);
      committed := CommitIfChanged(git, gitbranch, hook, timestamp);
    }

    /**
     * `importcvs` once the branch is checked out: replace the tree, commit
     * when it changed, merge (whether or not there was a commit), `pristine`.
     */
    method ImportSelected(git: GitRepo, graph: Graph, ghost rank: map<string, nat>, rc: Rc, merged: (Tree, Tree) -> Tree,
                          exported: Tree, skeleton: Option<Tree>, addSkeleton: bool, gitbranch: string,
                          hook: (string, Tree) -> Tree, timestamp: string)
      returns (failure: Option<Failure>, committed: bool)
      requires git.Valid() && Ranked(graph, rank) && git.current == gitbranch
      modifies git
      ensures git.Valid() && old(git.log) <= git.log && git.cloned == old(git.cloned)
      ensures committed <==> ShouldCommit(gitbranch, ImportTree(exported, skeleton, addSkeleton), Tip(old(git.local), gitbranch), hook)
      ensures failure == MergeOutcome(graph, rank, rc, gitbranch, gitbranch in old(git.local) || committed,
                                      old(git.tracking).Keys + if committed then {gitbranch} else {})
      ensures Tip(git.local, gitbranch) ==
        Recorded(gitbranch, ImportTree(exported, skeleton, addSkeleton), Tip(old(git.local), gitbranch), hook)
      ensures committed ==> gitbranch in git.local && gitbranch in git.remote && git.remote[gitbranch] == git.local[gitbranch]
      ensures OthersKept(git.local, old(git.local), rank, gitbranch) && OthersKept(git.remote, old(git.remote), rank, gitbranch)
      ensures OthersKept(git.tracking, old(git.tracking), rank, gitbranch)
      ensures failure == None || failure == Some(MergeFailed) ==>
        |git.log| > 0 && git.log[|git.log| - 1] == PristineOp && git.worktree == git.Head()
    {
      committed := RecordExport(git, exported, skeleton, addSkeleton, gitbranch, hook, timestamp);
      ghost var local1, remote1, tracking1 := git.local, git.remote, git.tracking;
      var success, raised := Merge(git, graph, rank, rc, merged, gitbranch);
      assert Tip(git.local, gitbranch) == Tip(local1, gitbranch);
      assert committed ==> git.remote[gitbranch] == remote1[gitbranch];
      OthersKeptThrough(git.local, local1, old(git.local), rank, gitbranch, committed);
      OthersKeptThrough(git.remote, remote1, old(git.remote), rank, gitbranch, committed);
      OthersKeptThrough(git.tracking, tracking1, old(git.tracking), rank, gitbranch, committed);
      if raised {
        return Some(GitCommandFailed), committed;
      }
      git.Pristine();
      failure := if success then None else Some(MergeFailed);
    }

    /**
     * One pass of `importBranches`: `importcvs` of one branch pair, and the
     * error handler's call when it raises.
     */
    method ImportPair(git: GitRepo, graph: Graph, ghost rank: map<string, nat>, rc: Rc, merged: (Tree, Tree) -> Tree,
                      repository: string, onerror: string, entry: BranchImport, skeleton: Option<Tree>,
                      hook: (string, Tree) -> Tree)
      returns (failure: Option<Failure>)
      requires git.Valid() && Ranked(graph, rank)
      modifies this, git
      ensures git.Valid() && old(git.log) <= git.log
      ensures failure == CvsOutcome(graph, rank, rc, old(git.State()), entry.exportedFiles, skeleton, entry.gitbranch, hook)
      ensures failure == Some(EmptyExport) <==> entry.exportedFiles == map[]
      ensures if entry.exportedFiles == map[] then git.State() == old(git.State()) else git.cloned
      ensures entry.exportedFiles != map[] ==>
        OthersKept(git.local, Prepared(old(git.State()), entry.exportedFiles, skeleton).local, rank, entry.gitbranch) &&
        OthersKept(git.remote, Prepared(old(git.State()), entry.exportedFiles, skeleton).remote, rank, entry.gitbranch)
      ensures entry.exportedFiles != map[] ==>
        OthersKept(git.tracking, FetchedTracking(Prepared(old(git.State()), entry.exportedFiles, skeleton), entry.gitbranch),
                   rank, entry.gitbranch)
      ensures entry.exportedFiles != map[] && !SelectOk(Prepared(old(git.State()), entry.exportedFiles, skeleton), entry.gitbranch) ==>
        git.local == Prepared(old(git.State()), entry.exportedFiles, skeleton).local &&
        git.remote == Prepared(old(git.State()), entry.exportedFiles, skeleton).remote &&
        git.tracking == FetchedTracking(Prepared(old(git.State()), entry.exportedFiles, skeleton), entry.gitbranch)
      ensures reports == old(reports) + if failure.Some? then [Report(repository, onerror)] else []
    {
      var committed;
      failure, committed := ImportCvs(git, graph, rank, rc, merged, entry.exportedFiles, skeleton, entry.gitbranch,
                                      hook, entry.timestamp);
      if failure.Some? {
        reports := reports + [Report(repository, onerror)];
      }
    }

    /** `ImportPair` on the next pair of a run, with the run's bookkeeping. */
    method ImportNext(git: GitRepo, graph: Graph, ghost rank: map<string, nat>, rc: Rc, merged: (Tree, Tree) -> Tree,
                      repository: string, onerror: string, imports: seq<BranchImport>, skeleton: Option<Tree>,
                      hook: (string, Tree) -> Tree, i: nat, ghost outcomes: seq<Option<Failure>>, ghost states: seq<RepoState>,
                      ghost before: RepoState, ghost log: seq<GitOp>, ghost reported: seq<Report>)
      returns (failure: Option<Failure>, ghost state: RepoState)
      requires git.Valid() && Ranked(graph, rank) && i == |outcomes| < |imports| && log <= git.log
      requires ImportRun(graph, rank, rc, imports, skeleton, hook, outcomes, states, before, git.State())
      requires reports == reported + ReportsFor(repository, onerror, outcomes)
      modifies this, git
      ensures git.Valid() && log <= git.log
      ensures ImportRun(graph, rank, rc, imports, skeleton, hook, outcomes + [failure], states + [state], before, git.State())
      ensures reports == reported + ReportsFor(repository, onerror, outcomes + [failure])
    {
      state := git.State();
      failure := ImportPair(git, graph, rank, rc, merged, repository, onerror, imports[i], skeleton, hook);
      PrefixTrans(log, old(git.log), git.log);
      ImportedStep(graph, rank, rc, imports, skeleton, hook, outcomes, states, i, failure, before, state, git.State());
      ReportsForAppend(repository, onerror, outcomes, failure);
    }

    /**
     * `importBranches`: import every branch pair in order.  A pair that
     * raises is reported to the error handler with the configured
     * disposition, and the later pairs are still imported.  `states[k]` is
     * the repository as the `k`-th import finds it.
     */
    method ImportBranches(git: GitRepo, graph: Graph, ghost rank: map<string, nat>, rc: Rc, merged: (Tree, Tree) -> Tree,
                          repository: string, onerror: string, imports: seq<BranchImport>, skeleton: Option<Tree>,
                          hook: (string, Tree) -> Tree)
      returns (ghost outcomes: seq<Option<Failure>>, ghost states: seq<RepoState>)
      requires git.Valid() && Ranked(graph, rank)
      modifies this, git
      ensures git.Valid() && old(git.log) <= git.log
      ensures |outcomes| == |imports| && |states| == |imports|
      ensures |imports| > 0 ==> states[0] == old(git.State())
      ensures forall k | 0 <= k < |imports| ::
        outcomes[k] == CvsOutcome(graph, rank, rc, states[k], imports[k].exportedFiles, skeleton, imports[k].gitbranch, hook)
      ensures forall k {:trigger imports[k]} | 0 <= k < |imports| - 1 :: PairLeaves(rank, skeleton, imports[k], states[k], states[k + 1])
      ensures forall k | 0 <= k < |imports| :: outcomes[k] == Some(EmptyExport) <==> imports[k].exportedFiles == map[]
      ensures reports == old(reports) + ReportsFor(repository, onerror, outcomes)
    {
      outcomes, states := [], [];
      var i := 0;
      while i < |imports|
        invariant 0 <= i <= |imports| && |outcomes| == i
        invariant git.Valid() && old(git.log) <= git.log
        invariant ImportRun(graph, rank, rc, imports, skeleton, hook, outcomes, states, old(git.State()), git.State())
        invariant reports == old(reports) + ReportsFor(repository, onerror, outcomes)
      {
        var failure, state := ImportNext(git, graph, rank, rc, merged, repository, onerror, imports, skeleton, hook, i,
                                         outcomes, states, old(git.State()), old(git.log), old(reports));
        outcomes := outcomes + [failure];
        states := states + [state];
        i := i + 1;
      }
      ImportedPairwise(graph, rank, rc, imports, skeleton, hook, outcomes, states, old(git.State()), git.State());
    }
  }
}

=== FILE: keywords.dfy ===
/**
 * CVS keyword collapsing (`cleanKeywords` in gitcvs/cvs.py).
 *
 * The source runs `sed -r` with two global substitutions on every line of
 * every exported file:
 *   1. an expanded keyword `$K:<text without $>$`, K one of ten RCS keywords,
 *      becomes the bare `$K$`;
 *   2. on the result, the span from the first `$Log` to the last `$` of the
 *      line becomes `OldLog:`.
 * Both rules are modelled as pure functions on one line (a line holds no
 * newline).  A file is a sequence of lines.
 */
module CvsKeywords {
  import opened Common

  /** The keywords of the first rule, in the order of its alternation. */
  const Keywords: seq<string> :=
    ["Author", "Date", "Header", "Id", "Name", "Locker", "RCSfile", "Revision", "Source", "State"]

  /**
   * A character the bracket expression `[^\$]` matches. In an extended
   * regular expression the backslash inside brackets is literal, so both `\`
   * and `$` are excluded from an expanded value.
   */
  predicate ValueChar(c: char)
  {
    c != '$' && c != '\\'
  }

  /** `w` is an expanded keyword token: `$K:`, then value characters, then `$`. */
  predicate IsExpansion(w: string, k: string)
  {
    && |w| >= |k| + 3
    && w[..|k| + 2] == "$" + k + ":"
    && w[|w| - 1] == '$'
    && forall p | |k| + 2 <= p < |w| - 1 :: ValueChar(w[p])
  }

  /** No substring of `s` is an expanded keyword token. */
  ghost predicate NoExpansion(s: string)
  {
    forall i, j, k | 0 <= i < j <= |s| && k in Keywords :: !IsExpansion(s[i..j], k)
  }

  /** `s` holds `$Log` starting at `i`. */
  predicate LogAt(s: string, i: int)
  {
    0 <= i && i + 4 <= |s| && s[i..i + 4] == "$Log"
  }

  /** `s` holds no `$Log`. */
  ghost predicate NoLog(s: string)
  {
    forall i :: !LogAt(s, i)
  }

  /** The first keyword K of `ks` such that `s` opens with `$K:`. */
  function OpeningKeyword(s: string, ks: seq<string>): (r: Option<string>)
    ensures r.Some? ==> r.value in ks && StartsWith(s, "$" + r.value + ":")
    ensures r.None? ==> forall k | k in ks :: !StartsWith(s, "$" + k + ":")
  {
    if ks == [] then None
    else if StartsWith(s, "$" + ks[0] + ":") then Some(ks[0])
    else OpeningKeyword(s, ks[1..])
  }

  /** The index of the first character of `s` at or after `from` that ends a value: a `$` or a `\`. */
  function ValueEnd(s: string, from: nat): (r: Option<nat>)
    ensures r.Some? ==> from <= r.value < |s| && !ValueChar(s[r.value]) &&
                        forall p | from <= p < r.value :: ValueChar(s[p])
    ensures r.None? ==> forall p | from <= p < |s| :: ValueChar(s[p])
    decreases |s| - from
  {
    if from >= |s| then None
    else if !ValueChar(s[from]) then Some(from)
    else ValueEnd(s, from + 1)
  }

  /** The keyword and length of the expanded token that opens `s`, where the first rule matches. */
  function ExpandedToken(s: string): (r: Option<(string, nat)>)
    ensures r.Some? ==> r.value.0 in Keywords && 0 < r.value.1 <= |s| && IsExpansion(s[..r.value.1], r.value.0)
    ensures r.Some? ==> s[0] == '$'
  {
    if s == [] || s[0] != '$' then None
    else
      match OpeningKeyword(s, Keywords)
      case None => None
      case Some(k) =>
        match ValueEnd(s, |k| + 2)
        case None => None
        case Some(j) =>
          if s[j] != '$' then None
          else
            TokenIsExpansion(s, k, j);
            Some((k, j + 1))
  }

  /** `$K:`, value characters, then a `$`: an expanded token. */
  lemma TokenIsExpansion(s: string, k: string, j: nat)
    requires StartsWith(s, "$" + k + ":") && |k| + 2 <= j < |s| && s[j] == '$'
    requires forall p | |k| + 2 <= p < j :: ValueChar(s[p])
    ensures IsExpansion(s[..j + 1], k)
  {
    var w := s[..j + 1];
    assert w[..|k| + 2] == s[..|k| + 2];
    assert forall p | 0 <= p <= j :: w[p] == s[p];
  }

  /** The first rule leaves the head of `s` alone only when no expanded token opens `s`. */
  lemma NoTokenNoExpansion(s: string)
    requires ExpandedToken(s).None?
    ensures forall n, k | 0 < n <= |s| && k in Keywords :: !IsExpansion(s[..n], k)
  {
    forall n, k | 0 < n <= |s| && k in Keywords ensures !IsExpansion(s[..n], k) {
      NoTokenNoExpansionAt(s, n, k);
    }
  }

  lemma NoTokenNoExpansionAt(s: string, n: nat, k: string)
    requires ExpandedToken(s).None? && 0 < n <= |s| && k in Keywords
    ensures !IsExpansion(s[..n], k)
  {
    if IsExpansion(s[..n], k) {
      ExpansionGivesToken(s, n, k);
      assert false;
    }
  }

  /** An expanded token at the head of `s` is one the first rule matches. */
  lemma ExpansionGivesToken(s: string, n: nat, k: string)
    requires 0 < n <= |s| && k in Keywords && IsExpansion(s[..n], k)
    ensures ExpandedToken(s).Some?
  {
    ExpansionOpens(s, n, k);
    DollarOpens(s, "$" + k + ":");
    var k' := OpeningKeyword(s, Keywords);
    assert k'.Some?;
    OpeningUnique(s, k, k'.value);
    assert ValueEnd(s, |k| + 2) == Some(n - 1);
  }

  /** A line that opens with `$K:` opens with `$`. */
  lemma DollarOpens(s: string, w: string)
    requires w != [] && w[0] == '$' && StartsWith(s, w)
    ensures s != [] && s[0] == '$'
  {
    assert s[..|w|][0] == s[0];
  }

  /** An expanded token that opens `s` begins with `$K:` and ends at a `$` after value characters only. */
  lemma ExpansionOpens(s: string, n: nat, k: string)
    requires 0 < n <= |s|
    ensures IsExpansion(s[..n], k) ==>
              && StartsWith(s, "$" + k + ":")
              && s[n - 1] == '$'
              && forall p | |k| + 2 <= p < n - 1 :: ValueChar(s[p])
  {
    if IsExpansion(s[..n], k) {
      assert s[..n][..|k| + 2] == s[..|k| + 2];
      assert forall p | 0 <= p < n :: s[..n][p] == s[p];
    }
  }

  /** No keyword contains a colon, so at most one keyword can open a line as `$K:`. */
  lemma OpeningUnique(s: string, k1: string, k2: string)
    requires k1 in Keywords && k2 in Keywords
    ensures StartsWith(s, "$" + k1 + ":") && StartsWith(s, "$" + k2 + ":") ==> k1 == k2
  {
    KeywordSpelling();
    var w1, w2 := "$" + k1 + ":", "$" + k2 + ":";
    assert StartsWith(s, w1) && |k1| < |k2| ==> s[|k1| + 1] == ':' by {
      if StartsWith(s, w1) { assert s[..|w1|][|k1| + 1] == w1[|k1| + 1]; }
    }
    assert StartsWith(s, w2) && |k1| < |k2| ==> s[|k1| + 1] == k2[|k1|] by {
      if StartsWith(s, w2) && |k1| < |k2| { assert s[..|w2|][|k1| + 1] == w2[|k1| + 1]; }
    }
    assert StartsWith(s, w1) && |k2| < |k1| ==> s[|k2| + 1] == k1[|k2|] by {
      if StartsWith(s, w1) && |k2| < |k1| { assert s[..|w1|][|k2| + 1] == w1[|k2| + 1]; }
    }
    assert StartsWith(s, w2) && |k2| < |k1| ==> s[|k2| + 1] == ':' by {
      if StartsWith(s, w2) { assert s[..|w2|][|k2| + 1] == w2[|k2| + 1]; }
    }
    assert StartsWith(s, w1) && StartsWith(s, w2) && |k1| == |k2| ==> k1 == k2 by {
      if StartsWith(s, w1) && StartsWith(s, w2) && |k1| == |k2| {
        assert k1 == w1[1..|k1| + 1] == s[1..|k1| + 1] == w2[1..|k2| + 1] == k2;
      }
    }
  }

  /** The first rule, applied left to right without rescanning a replacement. */
  function CollapseKeywords(s: string): (r: string)
    ensures |r| <= |s|
    decreases |s|
  {
    if s == [] then []
    else
      match ExpandedToken(s)
      case Some((k, n)) => "$" + k + "$" + CollapseKeywords(s[n..])
      case None => [s[0]] + CollapseKeywords(s[1..])
  }

  /** The index of the first `$Log` in `s`. */
  function FirstLog(s: string, from: nat): (r: Option<nat>)
    ensures r.Some? ==> from <= r.value && LogAt(s, r.value) && forall p | from <= p < r.value :: !LogAt(s, p)
    ensures r.None? ==> forall p | from <= p :: !LogAt(s, p)
    decreases |s| - from
  {
    if from + 4 > |s| then None
    else if LogAt(s, from) then Some(from)
    else FirstLog(s, from + 1)
  }

  /** The index of the last `$` in `s`. */
  function LastDollar(s: string): (r: Option<nat>)
    ensures r.Some? ==> r.value < |s| && s[r.value] == '$' && forall p | r.value < p < |s| :: s[p] != '$'
    ensures r.None? ==> forall p | 0 <= p < |s| :: s[p] != '$'
  {
    if s == [] then None
    else if s[|s| - 1] == '$' then Some(|s| - 1)
    else LastDollar(s[..|s| - 1])
  }

  /** The second rule: the greedy `$Log.*$` span becomes `OldLog:`. */
  function CollapseLog(s: string): (r: string)
    ensures NoLog(s) ==> r == s
  {
    match FirstLog(s, 0)
    case None => s
    case Some(i) =>
      match LastDollar(s)
      case None => s
      case Some(j) => if i + 4 <= j then s[..i] + "OldLog:" + s[j + 1..] else s
  }

  /** One line through both rules, in the order the `sed` script gives them. */
  function CleanLine(line: string): string
  {
    CollapseLog(CollapseKeywords(line))
  }

  /** A line with no expanded keyword and no `$Log` comes out unchanged, bare `$K$` included. */
  lemma CleanLineUnchanged(line: string)
    requires NoExpansion(line) && NoLog(line)
    ensures CleanLine(line) == line
  {
    CollapseUnchanged(line);
  }

  /** A file through `cleanKeywords`: every line on its own. */
  function CleanFile(lines: seq<string>): (r: seq<string>)
    ensures |r| == |lines| && forall i | 0 <= i < |lines| :: r[i] == CleanLine(lines[i])
  {
    seq(|lines|, i requires 0 <= i < |lines| => CleanLine(lines[i]))
  }

  /** Every exported file through `cleanKeywords`; the set of paths is unchanged. */
  function CleanTree(tree: map<string, seq<string>>): (r: map<string, seq<string>>)
    ensures r.Keys == tree.Keys
    ensures forall p | p in tree :: r[p] == CleanFile(tree[p])
  {
    map p | p in tree :: CleanFile(tree[p])
  }

  /** The shape of `$K:value$rest` character by character. */
  lemma TokenShape(k: string, value: string, rest: string)
    requires '$' !in value && '\\' !in value
    ensures var s := "$" + k + ":" + value + "$" + rest;
      && StartsWith(s, "$" + k + ":")
      && |k| + 2 + |value| < |s| && s[|k| + 2 + |value|] == '$'
      && (forall p | |k| + 2 <= p < |k| + 2 + |value| :: ValueChar(s[p]))
      && s[|k| + |value| + 3..] == rest
  {
    var s := "$" + k + ":" + value + "$" + rest;
    assert s[..|k| + 2] == "$" + k + ":";
    forall p | |k| + 2 <= p < |k| + 2 + |value| ensures ValueChar(s[p]) {
      assert s[p] == value[p - |k| - 2];
    }
  }

  /** An expanded token of a listed keyword is matched by the first rule whatever its value. */
  lemma ExpandedTokenOf(k: string, value: string, rest: string)
    requires k in Keywords && '$' !in value && '\\' !in value
    ensures ExpandedToken("$" + k + ":" + value + "$" + rest) == Some((k, |k| + |value| + 3))
  {
    var s := "$" + k + ":" + value + "$" + rest;
    TokenShape(k, value, rest);
    DollarOpens(s, "$" + k + ":");
    var o := OpeningKeyword(s, Keywords);
    OpeningUnique(s, o.value, k);
  }

  /** The first rule turns `$K:value$` into `$K$` and carries on after the token. */
  lemma CollapseToken(k: string, value: string, rest: string)
    requires k in Keywords && '$' !in value && '\\' !in value
    ensures CollapseKeywords("$" + k + ":" + value + "$" + rest) == "$" + k + "$" + CollapseKeywords(rest)
  {
    ExpandedTokenOf(k, value, rest);
    TokenShape(k, value, rest);
  }

  /** A character other than `$` never opens a match and is copied. */
  lemma CollapseStep(s: string)
    requires s != [] && s[0] != '$'
    ensures CollapseKeywords(s) == [s[0]] + CollapseKeywords(s[1..])
  {
    assert ExpandedToken(s).None?;
  }

  /** A leading character other than `$` is copied, whatever follows it. */
  lemma CollapsePlainHead(c: char, u: string)
    requires c != '$'
    ensures CollapseKeywords([c] + u) == [c] + CollapseKeywords(u)
  {
    assert ([c] + u)[1..] == u;
    CollapseStep([c] + u);
  }

  /** Moving the last character of `init + [c]` onto what follows it. */
  lemma ShiftLast(init: string, c: char, rest: string)
    ensures (init + [c]) + rest == init + ([c] + rest)
  {
  }

  /** Text without `$` passes the first rule untouched. */
  lemma {:induction false} CollapsePlainPrefix(pre: string, rest: string)
    requires forall i | 0 <= i < |pre| :: pre[i] != '$'
    ensures CollapseKeywords(pre + rest) == pre + CollapseKeywords(rest)
    decreases |pre|
  {
    if pre == [] {
      assert pre + rest == rest;
    } else {
      var init, c := pre[..|pre| - 1], pre[|pre| - 1];
      assert pre == init + [c];
      ShiftLast(init, c, rest);
      CollapsePlainPrefix(init, [c] + rest);
      CollapsePlainHead(c, rest);
      ShiftLast(init, c, CollapseKeywords(rest));
    }
  }

  /** Where no expanded token occurs, none opens the line and none occurs after its first character. */
  lemma NoExpansionSplit(s: string)
    requires s != [] && NoExpansion(s)
    ensures ExpandedToken(s).None? && NoExpansion(s[1..]) && s == [s[0]] + s[1..]
  {
    assert forall n | 0 < n <= |s| :: s[0..n] == s[..n];
    forall i, j, k | 0 <= i < j <= |s[1..]| && k in Keywords ensures !IsExpansion(s[1..][i..j], k) {
      assert s[1..][i..j] == s[i + 1..j + 1];
    }
  }

  /** A line in which no expanded token occurs passes the first rule untouched. */
  lemma {:induction false} CollapseUnchanged(s: string)
    requires NoExpansion(s)
    ensures CollapseKeywords(s) == s
    decreases |s|
  {
    if s != [] {
      NoExpansionSplit(s);
      CollapseUnchanged(s[1..]);
    }
  }

  /**
   * The second rule on `pre $Log mid $ post`, with no `$Log` in `pre` and no
   * `$` in `post`: the span from the first `$Log` to the last `$` becomes
   * `OldLog:`.
   */
  lemma LogCollapsed(pre: string, mid: string, post: string)
    requires forall i :: !LogAt(pre, i)
    requires '$' !in post
    ensures CollapseLog(pre + "$Log" + mid + "$" + post) == pre + "OldLog:" + post
  {
    var s := pre + "$Log" + mid + "$" + post;
    var i := |pre|;
    var j := |pre| + 4 + |mid|;
    assert LogAt(s, i) by { assert s[i..i + 4] == "$Log"; }
    forall p | 0 <= p < i ensures !LogAt(s, p) {
      if p + 4 <= |pre| {
        assert s[p..p + 4] == pre[p..p + 4];
        assert !LogAt(pre, p);
      } else {
        assert s[p..p + 4][i - p] == s[i] == '$';
        assert "$Log"[i - p] != '$';
      }
    }
    var f := FirstLog(s, 0);
    assert f == Some(i);
    assert s[j] == '$';
    forall p | j < p < |s| ensures s[p] != '$' {
      assert s[p] == post[p - j - 1];
    }
    var l := LastDollar(s);
    assert l == Some(j);
    assert s[..i] == pre;
    assert s[j + 1..] == post;
  }

  /** No keyword holds `$` or `:`, and none makes `Log` with a closing `$`. */
  lemma KeywordSpelling()
    ensures forall kw | kw in Keywords :: '$' !in kw && ':' !in kw && (kw + "$")[..3] != "Log"
  {
    forall kw | kw in Keywords ensures '$' !in kw && ':' !in kw && (kw + "$")[..3] != "Log" {
      assert kw in {"Author", "Date", "Header", "Id", "Name", "Locker", "RCSfile", "Revision", "Source", "State"};
      assert |kw| >= 2;
      assert kw[0] != 'L' || kw[1] != 'o' || kw[2] != 'g';
      assert (kw + "$")[0] == kw[0] && (kw + "$")[1] == kw[1];
      assert |kw| == 2 ==> (kw + "$")[2] == '$';
      assert |kw| > 2 ==> (kw + "$")[2] == kw[2];
    }
  }

  /** A bare keyword token does not start with `$Log`. */
  lemma BareKeywordNotLog(k: string)
    requires k in Keywords
    ensures !LogAt("$" + k + "$", 0)
  {
    KeywordSpelling();
    var t := "$" + k + "$";
    assert |t| >= 4 ==> t[1..4] == (k + "$")[..3];
  }

  /** The four characters of `pre + t` at `|pre|` are the first four of `t`. */
  lemma SliceAfter(pre: string, t: string)
    requires |t| >= 4
    ensures (pre + t)[|pre|..|pre| + 4] == t[..4]
  {
  }

  /** A bare keyword after plain indentation holds no `$Log`. */
  lemma BareKeywordHasNoLog(indent: string, k: string)
    requires k in Keywords && '$' !in indent
    ensures NoLog(indent + "$" + k + "$")
  {
    var t := "$" + k + "$";
    var out := indent + t;
    assert out == indent + "$" + k + "$";
    KeywordSpelling();
    forall i | 0 <= i && i + 4 <= |out| ensures !LogAt(out, i) {
      if i < |indent| {
        assert out[i..i + 4][0] == indent[i] && indent[i] in indent;
      } else if i == |indent| {
        SliceAfter(indent, t);
        BareKeywordNotLog(k);
      } else {
        assert out[i..i + 4][0] == k[i - |indent| - 1] && k[i - |indent| - 1] in k;
      }
    }
  }

  /** How an indented token splits into the indentation and the token. */
  lemma IndentedToken(indent: string, k: string, value: string)
    ensures indent + "$" + k + ":" + value + "$" == indent + ("$" + k + ":" + value + "$" + "")
    ensures indent + ("$" + k + "$" + "") == indent + "$" + k + "$"
  {
  }

  /**
   * A line holding one expanded keyword after plain indentation comes out of
   * `cleanKeywords` as the bare keyword, whatever value the checkout expanded.
   */
  lemma CleanExpandedLine(indent: string, k: string, value: string)
    requires k in Keywords && '$' !in indent && '$' !in value && '\\' !in value
    ensures CleanLine(indent + "$" + k + ":" + value + "$") == indent + "$" + k + "$"
  {
    var token := "$" + k + ":" + value + "$" + "";
    IndentedToken(indent, k, value);
    CollapsePlainPrefix(indent, token);
    CollapseToken(k, value, "");
    assert CollapseKeywords("") == "";
    BareKeywordHasNoLog(indent, k);
  }

  /**
   * Two expansions of the same keyword, after the same text free of `$`,
   * clean to the same line: a new revision's expansion makes no difference.
   */
  lemma CleanIgnoresExpansion(pre: string, k: string, v1: string, v2: string, rest: string)
    requires k in Keywords && '$' !in pre
    requires '$' !in v1 && '\\' !in v1 && '$' !in v2 && '\\' !in v2
    ensures CleanLine(pre + "$" + k + ":" + v1 + "$" + rest) == CleanLine(pre + "$" + k + ":" + v2 + "$" + rest)
  {
    CollapseAfterPlain(pre, k, v1, rest);
    CollapseAfterPlain(pre, k, v2, rest);
  }

  /** The first rule copies text free of `$` and collapses the token after it. */
  lemma CollapseAfterPlain(pre: string, k: string, value: string, rest: string)
    requires k in Keywords && '$' !in pre && '$' !in value && '\\' !in value
    ensures CollapseKeywords(pre + "$" + k + ":" + value + "$" + rest) == pre + "$" + k + "$" + CollapseKeywords(rest)
  {
    var token := "$" + k + ":" + value + "$" + rest;
    PrefixedToken(pre, k, value, rest, CollapseKeywords(rest));
    CollapsePlainPrefix(pre, token);
    CollapseToken(k, value, rest);
  }

  /** How a token after a prefix splits into the prefix and the token. */
  lemma PrefixedToken(pre: string, k: string, value: string, rest: string, rest': string)
    ensures pre + "$" + k + ":" + value + "$" + rest == pre + ("$" + k + ":" + value + "$" + rest)
    ensures pre + ("$" + k + "$" + rest') == pre + "$" + k + "$" + rest'
  {
  }

  /** A value holding `\` is not an expansion for sed, so the first rule leaves the token as it is. */
  lemma BackslashValueKept(k: string, a: string, b: string)
    requires k in Keywords && '$' !in a && '\\' !in a && '$' !in b
    ensures var s := "$" + k + ":" + a + "\\" + b + "$";
      ExpandedToken(s).None? && forall n | 0 < n <= |s| :: !IsExpansion(s[..n], k)
  {
    var s := "$" + k + ":" + a + "\\" + b + "$";
    var bs := |k| + 2 + |a|;
    assert s[..|k| + 2] == "$" + k + ":";
    assert s[bs] == '\\';
    forall p | |k| + 2 <= p < bs ensures ValueChar(s[p]) {
      assert s[p] == a[p - |k| - 2];
    }
    DollarOpens(s, "$" + k + ":");
    var o := OpeningKeyword(s, Keywords);
    OpeningUnique(s, o.value, k);
    assert ValueEnd(s, |k| + 2) == Some(bs);
    forall n | 0 < n <= |s| ensures !IsExpansion(s[..n], k) {
      if n > bs + 1 {
        assert s[..n][bs] == '\\';
      }
    }
  }
}

=== FILE: merge_graph.dfy ===
/**
 * The downstream merge graph of one repository and what a depth-first merge
 * propagation from a branch visits.  A traversal checks out every target of
 * a branch, merges the branch into it, and descends into a target only when
 * that merge exited with status 0.  The merge outcomes are an oracle `Rc`
 * (the exit status of merging `source` into `target`), so these functions
 * describe every run at once.
 */
module MergeGraph {
  /** Branch -> the branches it is automatically merged into. */
  type Graph = map<string, set<string>>

  /** The exit status `git merge` gives when merging the first branch into the second. */
  type Rc = (string, string) -> int

  function Targets(g: Graph, b: string): (r: set<string>)
    ensures b !in g ==> r == {}
  {
    if b in g then g[b] else {}
  }

  /** `rank` is a topological numbering: every edge goes to a strictly lower rank, so the graph is acyclic. */
  ghost predicate Ranked(g: Graph, rank: map<string, nat>)
  {
    forall a | a in g :: a in rank && forall t | t in g[a] :: t in rank && rank[t] < rank[a]
  }

  function Rank(rank: map<string, nat>, b: string): nat
  {
    if b in rank then rank[b] else 0
  }

  /**
   * The targets `b` is merged into successfully.  `born` says whether `b`
   * exists as a local branch: merging a branch that was never committed
   * fails, so then no edge succeeds.
   */
  function Descend(g: Graph, rc: Rc, b: string, born: bool): (r: set<string>)
    ensures r <= Targets(g, b)
    ensures forall t :: t in r <==> born && t in Targets(g, b) && rc(b, t) == 0
  {
    if born then set t | t in Targets(g, b) && rc(b, t) == 0 else {}
  }

  /** Every branch the propagation from `b` checks out. */
  ghost function Reached(g: Graph, rank: map<string, nat>, rc: Rc, b: string, born: bool): (r: set<string>)
    requires Ranked(g, rank)
    ensures Targets(g, b) <= r
    ensures forall x | x in r :: x in rank && b in rank && rank[x] < rank[b]
    ensures b !in r
    decreases Rank(rank, b)
  {
    Targets(g, b) + (set t, x | t in Descend(g, rc, b, born) && x in Reached(g, rank, rc, t, true) :: x)
  }

  /** Every branch the propagation from `b` pushes (each one a successful merge target). */
  ghost function Pushed(g: Graph, rank: map<string, nat>, rc: Rc, b: string, born: bool): (r: set<string>)
    requires Ranked(g, rank)
    ensures Descend(g, rc, b, born) <= r
    decreases Rank(rank, b)
  {
    Descend(g, rc, b, born) + (set t, x | t in Descend(g, rc, b, born) && x in Pushed(g, rank, rc, t, true) :: x)
  }

  /** The propagation pushes only branches it checks out. */
  lemma {:induction false} PushedAreReached(g: Graph, rank: map<string, nat>, rc: Rc, b: string, born: bool)
    requires Ranked(g, rank)
    ensures Pushed(g, rank, rc, b, born) <= Reached(g, rank, rc, b, born)
    decreases Rank(rank, b)
  {
    forall t | t in Descend(g, rc, b, born)
      ensures Pushed(g, rank, rc, t, true) <= Reached(g, rank, rc, b, born)
    {
      PushedAreReached(g, rank, rc, t, true);
    }
  }

  /** Every edge the propagation from `b` attempts to merge. */
  ghost function Edges(g: Graph, rank: map<string, nat>, rc: Rc, b: string, born: bool): (r: set<(string, string)>)
    requires Ranked(g, rank)
    ensures forall t | t in Targets(g, b) :: (b, t) in r
    ensures forall e | e in r :: e.1 in Reached(g, rank, rc, b, born)
    decreases Rank(rank, b)
  {
    (set t | t in Targets(g, b) :: (b, t))
    + (set t, e | t in Descend(g, rc, b, born) && e in Edges(g, rank, rc, t, true) :: e)
  }

  /** The value `merge` returns: every target merged cleanly and every descent succeeded too. */
  ghost predicate MergeOk(g: Graph, rank: map<string, nat>, rc: Rc, b: string, born: bool)
    requires Ranked(g, rank)
    decreases Rank(rank, b)
  {
    forall t | t in Targets(g, b) :: t in Descend(g, rc, b, born) && MergeOk(g, rank, rc, t, true)
  }

  /** The propagation raises when it reaches a branch with no `origin/` counterpart to fast-forward from. */
  ghost predicate Raises(g: Graph, rank: map<string, nat>, rc: Rc, b: string, born: bool, onOrigin: set<string>)
    requires Ranked(g, rank)
  {
    exists x | x in Reached(g, rank, rc, b, born) :: x !in onOrigin
  }

  /**
   * `merge` returns the conjunction over the traversal: true exactly when the
   * branch is mergeable (or has no targets) and every attempted edge exited
   * with status 0.
   */
  lemma {:induction false} MergeOkIsConjunction(g: Graph, rank: map<string, nat>, rc: Rc, b: string, born: bool)
    requires Ranked(g, rank)
    ensures MergeOk(g, rank, rc, b, born) <==>
      (born || Targets(g, b) == {}) && forall e | e in Edges(g, rank, rc, b, born) :: rc(e.0, e.1) == 0
    decreases Rank(rank, b)
  {
    var edges := Edges(g, rank, rc, b, born);
    forall t | t in Descend(g, rc, b, born)
      ensures MergeOk(g, rank, rc, t, true) <==> forall e | e in Edges(g, rank, rc, t, true) :: rc(e.0, e.1) == 0
    {
      MergeOkIsConjunction(g, rank, rc, t, true);
    }
    if MergeOk(g, rank, rc, b, born) {
      forall e | e in edges ensures rc(e.0, e.1) == 0 {
        if e.0 == b && e.1 in Targets(g, b) {
          assert e.1 in Descend(g, rc, b, born);
        } else {
          var t :| t in Descend(g, rc, b, born) && e in Edges(g, rank, rc, t, true);
        }
      }
      if Targets(g, b) != {} {
        var t :| t in Targets(g, b);
        assert t in Descend(g, rc, b, born);
      }
    }
    if (born || Targets(g, b) == {}) && forall e | e in edges :: rc(e.0, e.1) == 0 {
      forall t | t in Targets(g, b) ensures t in Descend(g, rc, b, born) && MergeOk(g, rank, rc, t, true) {
        assert (b, t) in edges;
        assert t in Descend(g, rc, b, born);
        forall e | e in Edges(g, rank, rc, t, true) ensures rc(e.0, e.1) == 0 {
          assert e in edges;
        }
      }
    }
  }

  /** A conflicting edge makes the whole propagation report failure, whatever its siblings do. */
  lemma ConflictFails(g: Graph, rank: map<string, nat>, rc: Rc, b: string, born: bool, t: string)
    requires Ranked(g, rank)
    requires t in Targets(g, b) && rc(b, t) != 0
    ensures !MergeOk(g, rank, rc, b, born)
  {
    assert t !in Descend(g, rc, b, born);
  }

  /**
   * A target whose merge conflicted is not descended into: the branches the
   * propagation reaches only through it are not pushed.
   */
  lemma {:induction false} PushedOnlyThroughCleanMerges(g: Graph, rank: map<string, nat>, rc: Rc, b: string, born: bool, x: string)
    requires Ranked(g, rank)
    requires x in Pushed(g, rank, rc, b, born)
    ensures x in Descend(g, rc, b, born) || exists a | a in Pushed(g, rank, rc, b, born) :: x in Descend(g, rc, a, true)
    decreases Rank(rank, b)
  {
    if x !in Descend(g, rc, b, born) {
      var t :| t in Descend(g, rc, b, born) && x in Pushed(g, rank, rc, t, true);
      PushedOnlyThroughCleanMerges(g, rank, rc, t, true, x);
      if x in Descend(g, rc, t, true) {
        assert t in Pushed(g, rank, rc, b, born);
      } else {
        var a :| a in Pushed(g, rank, rc, t, true) && x in Descend(g, rc, a, true);
        assert a in Pushed(g, rank, rc, b, born);
      }
    }
  }
}
